=== FILE: README.md ===
# LibraryDB core, modelled in Dafny

LibraryDB is a small library catalogue. A PHP back end imports book editions
from OpenLibrary into a `books` table, keeps a `stock` table of copies per
quality grade, and registers and logs in users. A React front end lists the
catalogue, keeps a wishlist in the browser, drives the lending workflow
through small client-side stores, and offers an admin page for editing stock.

This project models the core of both halves as pure Dafny functions over
immutable data, and proves what each operation promises.

Back end:
- `BookMapper`: the mapping of an OpenLibrary edition (and optional work) JSON
  document to a book row. This covers titles, ISBN preference, years,
  descriptions, subjects, covers and OLIDs.
- `Controller`: body parsing and the `requireString` / `requireInt` guards.
- `AuthController`: register, login, logout and `me`, over a users table and a
  session.
- `BookRepository`, `StockRepository`, `StockController`: the upsert of a
  book, set/delete/list of stock, and the `set`/`list`/`delete` endpoints.

Front end:
- `Http`: `joinUrl`, `apiPath` and `parseJson`.
- `WishlistStore`, `RentalsStore`, `UsersStore`: the client-side state updates.
- `EditStock`: OLID extraction, stock filtering, the CSV export and its
  reader, the save guard and paging.
- `Lending`: conversions between `datetime-local` values and database
  datetimes, the approve guard and the status pill.
- `Library`: the catalogue filter and sort, first letters and years.
- `AdminWishlists`: the admin wishlist filter, sort, paging and the
  add-to-stock guard.

Supporting modules:
- `Php` and `Js` model the dynamic values of each language: PHP arrays from
  `json_decode(..., true)`, JavaScript values, `Number()` and `parseInt`.
- `Text` holds white space, trimming, ASCII case mapping, digits and
  lexicographic order.
- `Seqs` holds filtering, a stable sort and slices.
- `Wrappers` holds `Option` and `Result`.

Foreign code is passed in as function-typed parameters. This covers
`json_decode`, `JSON.parse`, `password_hash` / `password_verify`,
`filter_var(FILTER_VALIDATE_EMAIL)`, the HTML-to-text step, the OpenLibrary
fetch and the clock. Database tables are sequences or maps held in the state
records.

## Model

| member | source | states |
|---|---|---|
| BookMapper.StringOf | librarydb-backend/src/BookMapper.php:180-183 | Non-strings read as the empty string. A string comes back with its surrounding white space removed: the result is already trimmed, no longer than the input, and unchanged when the input has no leading or trailing white space. |
| BookMapper.StringOfStripsOnlySpace | librarydb-backend/src/BookMapper.php:180-183 | Only the surrounding white space goes: the result is the text of the string at the trim offset, with nothing but white space before it and after it. |
| BookMapper.FirstString | librarydb-backend/src/BookMapper.php:185-190 | A string is read as by `string()`. A list is read through its element 0. Anything else, or a list without element 0, gives the empty string. The result is always trimmed. |
| BookMapper.IntOrNull | librarydb-backend/src/BookMapper.php:192-197 | Gives a number exactly when the value is numeric. An integer is returned as it is, and a numeric string gives its integer cast. |
| BookMapper.ExtractYear | librarydb-backend/src/BookMapper.php:153-169 | Any year found lies in 0..9999. An integer is a year exactly when it lies in that range, and then it is returned as it is. |
| BookMapper.ExtractYearFirstElement | librarydb-backend/src/BookMapper.php:157-159 | An array is read through its element 0. An array without element 0 has no year. |
| BookMapper.ExtractYearString | librarydb-backend/src/BookMapper.php:161-168 | For a string, the year is the first run of four digits, as if the string were not trimmed. Trimming never changes which run is found. |
| BookMapper.TrimmedYear | librarydb-backend/src/BookMapper.php:161-163 | Trimming a string does not change its first four-digit run. |
| BookMapper.LongestMWPrefix | librarydb-backend/src/BookMapper.php:171-178 | The greedy `[A-Za-z0-9]+[MW]` tail: the longest prefix of an alphanumeric run, at least two long, that ends in M or W. No later character of the run is M or W. None exactly when no character after the first is M or W. |
| BookMapper.OlidMatchAt | librarydb-backend/src/BookMapper.php:171-178 | A match at position p means `/books/` or `/works/`, in any letter case, sits at p. The OLID is the alphanumeric text right after it and ends in M or W. The capture is greedy: no later character of that alphanumeric run is M or W. When the prefix is there but nothing matches, no character of the run after its first is M or W. |
| BookMapper.OlidSearch | librarydb-backend/src/BookMapper.php:171-178 | Finds the leftmost position from p on where an OLID matches. None exactly when no position from p on matches. |
| BookMapper.OlidFromKey | librarydb-backend/src/BookMapper.php:171-178 | `olidFromKey` returns the OLID of the leftmost match of the key pattern, or null exactly when no position matches. The OLID is alphanumeric and ends in M or W. |
| BookMapper.OlidFromBooksKey | librarydb-backend/src/BookMapper.php:171-178 | The edition key `/books/OL3778206M` yields `OL3778206M`. |
| BookMapper.CleanSubjects | librarydb-backend/src/BookMapper.php:139-146 | Every kept subject is a non-empty trimmed string. |
| BookMapper.Dedup | librarydb-backend/src/BookMapper.php:147 | `array_unique`: no duplicates, and exactly the same set of subjects as the input. |
| BookMapper.DedupOrder | librarydb-backend/src/BookMapper.php:147 | `array_unique` keeps the first occurrence of each subject, in the order of first occurrence. |
| BookMapper.NormalizeSubjects | librarydb-backend/src/BookMapper.php:135-151 | A non-array has no subjects. At most 50 subjects are returned, each non-empty, trimmed and distinct, each drawn from the input. When the distinct subjects number at most 50, none is lost. The result is the first min(50, n) of the de-duplicated subjects, in their order. |
| BookMapper.NormalizeSubjectsFirstOccurrences | librarydb-backend/src/BookMapper.php:135-151 | The kept subjects come in the order of their first occurrence, and every subject left out first occurs after all the kept ones. |
| BookMapper.CollapseBlanks | librarydb-backend/src/BookMapper.php:128 | After collapsing runs of spaces and tabs, no tab and no double space remains, and no other character is invented. |
| BookMapper.NormalizeNewlines | librarydb-backend/src/BookMapper.php:129 | After the replacement no carriage return remains, and only newlines are introduced. |
| BookMapper.SqueezeNewlines | librarydb-backend/src/BookMapper.php:130 | After squeezing, no three newlines are in a row, and no character is invented. |
| BookMapper.TrimKeepsClean | librarydb-backend/src/BookMapper.php:132 | The final `trim` keeps the text free of tabs, carriage returns and triple newlines. |
| BookMapper.NormalizeDescription | librarydb-backend/src/BookMapper.php:113-133 | A description never contains a tab, a carriage return or three newlines in a row, and is trimmed. |
| BookMapper.CoverUrl | librarydb-backend/src/BookMapper.php:92 | There is a cover URL exactly when the cover id is present and non-zero. It is the `b/id/<id>-L.jpg` URL of that id. |
| BookMapper.LanguageCode | librarydb-backend/src/BookMapper.php:36-41 | A language taken from `/languages/xxx` is three lower-case ASCII letters. |
| BookMapper.NonEmpty | librarydb-backend/src/BookMapper.php:101-102 | The empty string becomes null. Any other string is kept as it is. |
| BookMapper.MapEdition | librarydb-backend/src/BookMapper.php:21-111 | A given OLID is kept. ISBN, title and author are trimmed. A year lies in 0..9999. Publisher and language are null or non-empty and trimmed. Subjects are at most 50 and distinct. The cover URL is present exactly for a non-zero cover id and is built from it. |
| BookMapper.MapEditionIsbn | librarydb-backend/src/BookMapper.php:44-52 | The ISBN is taken from `isbn_13[0]`, then `isbn_10[0]`, then a plain `isbn` string, and is otherwise empty. |
| BookMapper.MapEditionOptionalColumns | librarydb-backend/src/BookMapper.php:28-42 | Publisher and language are null exactly when the edition yields the empty string. Otherwise they are that string. |
| BookMapper.EditionPublisher | librarydb-backend/src/BookMapper.php:28-29 | The first string of `publishers` is used when it is neither empty nor "0". Otherwise the plain `publisher` string is used. The result is trimmed. |
| BookMapper.ListedLanguage | librarydb-backend/src/BookMapper.php:35-40 | The code from a `/languages/xxx` key of `languages[0]` is three lower-case ASCII letters. |
| BookMapper.EditionLanguage | librarydb-backend/src/BookMapper.php:34-42 | The code from `languages[0].key` is used when there is one. Otherwise the plain `language` string is used. The result is trimmed. |
| BookMapper.MapEditionCover | librarydb-backend/src/BookMapper.php:84-92 | The cover id is the numeric `covers[0]` cast to int, else the numeric `cover_i` cast to int. With neither, there is no cover id and no cover URL. |
| BookMapper.MapEditionOlidFromKey | librarydb-backend/src/BookMapper.php:23-25 | Without an explicit OLID, a string `key` from which an OLID can be extracted supplies the OLID. |
| BookMapper.FromEditionJson | librarydb-backend/src/BookMapper.php:10-14 | A non-empty OLID given by the caller is the OLID of the mapped book. |
| Controller.Body | librarydb-backend/src/Controller.php:13-21 | A missing or blank body is the empty array. Otherwise the body fails with "Invalid JSON body" exactly when it does not decode to an array. A non-empty result is what the raw text decodes to. |
| Controller.RequireString | librarydb-backend/src/Controller.php:23-29 | Fails with "Missing/invalid: key" exactly when the key is missing or its string form is blank. On success the value's string form is returned untrimmed, for strings, integers and booleans alike. |
| Controller.RequireInt | librarydb-backend/src/Controller.php:31-37 | Fails with "Missing: key" for a missing key and with "Invalid: key" for a negative cast. A success is the non-negative integer cast, and a non-negative integer is returned as it is. Any present value whose cast is non-negative, such as a numeric string, succeeds with that cast. |
| Controller.RequireIntDecimalString | librarydb-backend/src/Controller.php:31-37 | A decimal string of a natural number is read back as that number. |
| Controller.RequireStringKeepsPadding | librarydb-backend/src/Controller.php:23-29 | A string succeeds exactly when it has a non-white-space character, and is then returned with its padding. |
| AuthController.FindByEmail | librarydb-backend/src/UserRepository.php:13-19 | Finds a user row with that exact email. None exactly when no row has it. |
| AuthController.FindById | librarydb-backend/src/UserRepository.php:21-27 | Finds a user row with that id. None exactly when no row has it. |
| AuthController.ToPublicUser | librarydb-backend/src/AuthController.php:8-17 | The public view carries id, email, name, role name and creation time. |
| AuthController.PublicUserHidesHash | librarydb-backend/src/AuthController.php:8-17 | The public view does not depend on the password hash. |
| AuthController.Me | librarydb-backend/src/AuthController.php:19-34 | Answers 401 exactly when no one is logged in or the session user no longer exists. Otherwise answers 200 with the public view of that user's row. The two 401 answers carry "Not authenticated" and "Session user not found". |
| AuthController.ReadRegistration | librarydb-backend/src/AuthController.php:38-42 | A registration reads exactly when email, name and password are all present and non-blank. The email is normalised and the name trimmed. A body error is passed on. Otherwise the error is that of the first failing field, in the order email, name, password. |
| AuthController.Register | librarydb-backend/src/AuthController.php:36-77 | Answers 201 exactly for an accepted registration. Then exactly one user is appended with the next id and the session logs them in. Any other answer leaves the state unchanged, and a body error answers 400. The checks come in order: 400 "Invalid email", 400 "Password must be at least 8 characters", 409 "Email already registered", 500 "Failed to hash password". User ids and emails stay unique. |
| AuthController.RegisterRoles | librarydb-backend/src/AuthController.php:58-59 | The first registered user is an admin. Every later one is a user. |
| AuthController.RegisterRejectsInvalid | librarydb-backend/src/AuthController.php:44-51 | An invalid email or a password shorter than 8 answers 400 and changes nothing. The message is "Invalid email" for a bad email, and the password message otherwise. |
| AuthController.RegisterDuplicateEmail | librarydb-backend/src/AuthController.php:53-56 | Registering an email that already exists answers 409 "Email already registered" and changes nothing. |
| AuthController.ReadLogin | librarydb-backend/src/AuthController.php:81-84 | A login reads exactly when email and password are present and non-blank. The email is normalised. A body error is passed on. Otherwise the error is that of the first failing field, email before password. |
| AuthController.Login | librarydb-backend/src/AuthController.php:79-99 | Answers 200 exactly when the email is known and the password verifies against its hash. The session then holds that user. A readable request that fails answers 401 "Invalid credentials". Users never change, and a failure keeps the state. |
| AuthController.LoginAfterRegister | librarydb-backend/src/AuthController.php:67-95 | After a successful registration, logging in with the same email and password succeeds with the same public user, under the new id. |
| AuthController.Logout | librarydb-backend/src/AuthController.php:101-112 | After logout no one is logged in, and the users are untouched. The answer is 200 `{ok: true}`. |
| AuthController.RegisterThenMe | librarydb-backend/src/AuthController.php:19-73 | Right after a successful registration, `me` answers 200 with the user just created. |
| BookRepository.RowOf | librarydb-backend/src/BookRepository.php:30-38 | The stored row keeps the mapped fields. A missing year is stored as the default year and a missing language as the default language. |
| BookRepository.Upsert | librarydb-backend/src/BookRepository.php:15-40 | After the upsert the book exists with the new row. Every other book is untouched, and no other key appears. |
| BookRepository.UpsertIdempotent | librarydb-backend/src/BookRepository.php:15-40 | Upserting the same book twice is the same as upserting it once. |
| BookRepository.UpsertLastWins | librarydb-backend/src/BookRepository.php:17-28 | Of two upserts with the same OLID, the later one wins. |
| BookRepository.UpsertCommutes | librarydb-backend/src/BookRepository.php:15-40 | Upserts of different OLIDs commute. |
| BookRepository.StoredYearInRange | librarydb-backend/src/BookRepository.php:32-38 | The stored release year of an imported edition always lies in 0..9999. |
| StockRepository.FindKey | librarydb-backend/src/StockRepository.php:10-15 | Finds the row with that (OLID, quality) key. None exactly when there is none. |
| StockRepository.SetStock | librarydb-backend/src/StockRepository.php:8-23 | Afterwards a row with that key holds the new quantity. A new key appends one row with the next id. An existing key updates only that row's quantity. Ids and keys stay unique. |
| StockRepository.SetStockTwice | librarydb-backend/src/StockRepository.php:8-23 | Setting the same key twice leaves the rows of setting it once with the last quantity. |
| StockRepository.Kept | librarydb-backend/src/StockRepository.php:25-33 | After a delete no row has the id, and every row with another id remains. |
| StockRepository.DeleteById | librarydb-backend/src/StockRepository.php:25-33 | Fails with "Stock not found" exactly when the delete would not remove exactly one row. Otherwise the remaining rows are returned. |
| StockRepository.DeleteByIdValid | librarydb-backend/src/StockRepository.php:25-33 | In a table with unique ids, a delete fails exactly when the id is absent. On success exactly one row goes, and ids and keys stay unique. |
| StockRepository.KeptKeepsKeys | librarydb-backend/src/StockRepository.php:25-33 | Deleting rows keeps ids and (OLID, quality) keys unique. |
| StockRepository.Join | librarydb-backend/src/StockRepository.php:53-56 | The inner join lists exactly the stock rows whose book exists, each with that book's columns. |
| StockRepository.TitleQualityPreorder | librarydb-backend/src/StockRepository.php:57 | The `ORDER BY title, quality` order is a total preorder. |
| StockRepository.ListStockWithBook | librarydb-backend/src/StockRepository.php:35-61 | The listing is ordered by title, then quality, and is a permutation of the join. |
| StockRepository.ListStockWithBookRows | librarydb-backend/src/StockRepository.php:35-61 | Every listed row comes from a stock row and its book. Every stock row whose book exists is listed. |
| StockRepository.JoinedIsListed | librarydb-backend/src/StockRepository.php:53-56 | A joined row is built from one stock row and the book of its OLID. |
| StockController.ReadSet | librarydb-backend/src/StockController.php:16-21 | A set request reads exactly when `olid` is non-blank and `quality` and `quantity` are non-negative integers. `importIfMissing` defaults to true when missing and is otherwise its truth value. A body error is passed on. |
| StockController.Set | librarydb-backend/src/StockController.php:13-34 | Answers 200 exactly for a readable request whose needed import fetched. The stock is then set, and the book is imported only when it was missing and import was asked for. Every failure answers 400 and changes nothing. A failed fetch answers with the fetch's own message. |
| StockController.SetImportsBook | librarydb-backend/src/StockController.php:23-27 | After a successful set that asked for import, the book exists. |
| StockController.SetKeepsStoredBook | librarydb-backend/src/StockController.php:23-30 | When the book already exists, a set always succeeds and leaves the books alone. |
| StockController.SetAnyQuality | librarydb-backend/src/StockController.php:19 | Any non-negative quality is accepted as given. |
| StockController.SetImportsByDefault | librarydb-backend/src/StockController.php:21 | A missing `importIfMissing` means import. |
| StockController.List | librarydb-backend/src/StockController.php:37-44 | The list answers 200 with the listing ordered by title and quality, a permutation of the join. |
| StockController.ReadDelete | librarydb-backend/src/StockController.php:50-51 | A delete request reads `stockId` as a non-negative integer. A body error is passed on. |
| StockController.Delete | librarydb-backend/src/StockController.php:47-58 | Answers 200 exactly when a row with the id exists. The stock table is then the rows kept by deleting that id, with the id counter unchanged. Otherwise it answers 400 "Stock not found" and changes nothing. Books are never touched. |
| WishlistStore.NormIdIdempotent | librarydb-frontend/src/state/wishlistStore.js:22-25 | Normalising an OLID (trim, upper case) twice is the same as once. |
| WishlistStore.Add | librarydb-frontend/src/state/wishlistStore.js:27-44 | An item without an OLID, or one already listed, leaves the list alone. Otherwise the item goes in front with its normalised OLID. Afterwards the OLID is listed, and a well-formed list stays well-formed. |
| WishlistStore.AddDefaults | librarydb-frontend/src/state/wishlistStore.js:34-41 | A new entry defaults a missing title and author to "" and a missing cover to the OLID cover URL, and is stamped with the current time. |
| WishlistStore.Remove | librarydb-frontend/src/state/wishlistStore.js:46-52 | After removal the OLID is no longer listed. Only entries with that OLID go, and all others remain. |
| WishlistStore.RemoveKeepsOrder | librarydb-frontend/src/state/wishlistStore.js:46-52 | Removal works entry by entry: removing from a concatenation removes from each part, and a single entry goes exactly when its id matches. So the remaining entries keep their order and number. |
| WishlistStore.RemoveKeepsWellFormed | librarydb-frontend/src/state/wishlistStore.js:46-52 | Removal keeps a well-formed list well-formed. |
| WishlistStore.RemoveUndoesAdd | librarydb-frontend/src/state/wishlistStore.js:27-52 | Removing an item just added restores the previous list. |
| WishlistStore.Toggle | librarydb-frontend/src/state/wishlistStore.js:54-65 | The result flag is true exactly when the item was added. It matches whether the OLID is listed afterwards. An item without an OLID changes nothing. A listed OLID is removed as by `removeFromWishlist`, and an unlisted one is added as by `addToWishlist`. |
| WishlistStore.ToggleTwice | librarydb-frontend/src/state/wishlistStore.js:54-65 | Toggling an unlisted item twice restores the list. |
| RentalsStore.AsArray | librarydb-frontend/src/state/rentalsStore.js:46-108 | A loaded answer that is not an array is stored as the empty list. |
| RentalsStore.LoadOnce | librarydb-frontend/src/state/rentalsStore.js:46-108 | A loaded list, or a failed fetch, keeps the state. Otherwise the one list becomes loaded with the fetched rows. Other lists are untouched. |
| RentalsStore.LoadOnceIdempotent | librarydb-frontend/src/state/rentalsStore.js:46-108 | Loading a list a second time changes nothing. |
| RentalsStore.InvalidateAll | librarydb-frontend/src/state/rentalsStore.js:39-44 | Every list is marked stale, and its rows are kept. |
| RentalsStore.WithoutRequest | librarydb-frontend/src/state/rentalsStore.js:148-150 | Exactly the requests with another id remain. Dismissing uses the same filter. |
| RentalsStore.WithoutRequestKeepsOrder | librarydb-frontend/src/state/rentalsStore.js:148-150 | The filter works row by row: on a concatenation it filters each part, and a single row goes exactly when it belongs to the request. So the remaining rows keep their order and number. |
| RentalsStore.WithoutRental | librarydb-frontend/src/state/rentalsStore.js:178-180 | Exactly the rentals whose number id differs remain. |
| RentalsStore.WithoutRentalKeepsOrder | librarydb-frontend/src/state/rentalsStore.js:178-180 | The filter works row by row: on a concatenation it filters each part, and a single row goes exactly when its `rentalid` is the number given. So the remaining rows keep their order and number. |
| RentalsStore.Approve | librarydb-frontend/src/state/rentalsStore.js:144-159 | After a successful approve, the request leaves the pending list, the approved, active and own lists become stale, and nothing else changes. A failure changes nothing. |
| RentalsStore.Dismiss | librarydb-frontend/src/state/rentalsStore.js:161-172 | After a successful dismiss, the request leaves the pending list, only the own list becomes stale, and nothing else changes. A failure changes nothing. |
| RentalsStore.Complete | librarydb-frontend/src/state/rentalsStore.js:174-188 | After a successful completion, the rental leaves the active list, the approved and own lists become stale, and nothing else changes. A failure changes nothing. |
| RentalsStore.Request | librarydb-frontend/src/state/rentalsStore.js:137-142 | A successful request marks every list stale and keeps the rows. A failure changes nothing. |
| RentalsStore.Invalidate | librarydb-frontend/src/state/rentalsStore.js:190-193 | Every list is marked stale, and its rows are kept. |
| RentalsStore.WithoutRequestCount | librarydb-frontend/src/state/rentalsStore.js:148-150 | Dropping a request removes exactly the rows with its id. |
| RentalsStore.PendingCountAfterApprove | librarydb-frontend/src/state/rentalsStore.js:131-159 | After an approve, the pending count drops by the number of rows with that request id. |
| UsersStore.Invalidate | librarydb-frontend/src/state/usersStore.js:14-17 | The user list becomes stale and keeps its rows. |
| UsersStore.LoadOnce | librarydb-frontend/src/state/usersStore.js:19-33 | A loaded list, or a failed fetch, keeps the state. Otherwise the fetched array, or the empty list for a non-array, is loaded. |
| UsersStore.LoadOnceIdempotent | librarydb-frontend/src/state/usersStore.js:19-33 | Loading twice is the same as loading once. |
| UsersStore.WithRole | librarydb-frontend/src/state/usersStore.js:47-49 | The copied user has the new role and every other property unchanged. |
| UsersStore.SetUserRole | librarydb-frontend/src/state/usersStore.js:42-52 | On success, the users with that id get the new role and keep every other property. All other users are untouched, and the length and loaded flag are kept. A failure changes nothing. |
| Http.JoinUrl | librarydb-frontend/src/api/http.js:5-8 | An empty base leaves the path alone. Otherwise the URL starts with the base and continues with the path. |
| Http.ApiPrefix | librarydb-frontend/src/api/http.js:3 | A configured prefix is used as it is. The prefix is never empty. |
| Http.WithSlash | librarydb-frontend/src/api/http.js:14-18 | The result starts with a slash and adds one only when it is missing. |
| Http.ApiPath | librarydb-frontend/src/api/http.js:10-21 | Paths already under `/api/` are kept. Others get the slashed prefix in front of the slashed path. The result always starts with a slash. |
| Http.ApiPathDefault | librarydb-frontend/src/api/http.js:10-21 | With the default prefix, `x`, `/x` and `/api/x` all map to `/api/x`. |
| Http.ApiPathIdempotent | librarydb-frontend/src/api/http.js:10-21 | A path mapped under `/api/` maps to itself again. |
| Http.ParseJson | librarydb-frontend/src/api/http.js:23-30 | Empty text gives null and parsable text gives its value. Other text gives an object whose `error` is that text. |
| Http.ParseJsonNeverStatusFallback | librarydb-frontend/src/api/http.js:27-29 | The `HTTP <status>` fallback is never used. A failed parse always carries the non-empty text. |
| Covers.OlidCoverUrl | librarydb-frontend/src/state/wishlistStore.js:39 | The OLID cover URL is the `b/olid/` prefix, the OLID and `-M.jpg?default=false`, with the OLID exactly in the middle. |
| Covers.OlidCoverUrlInjective | librarydb-frontend/src/state/wishlistStore.js:39 | Different OLIDs have different cover URLs. |
| EditStock.ExtractOlidFromKey | librarydb-frontend/src/pages/EditStock.jsx:16-22 | The extracted OLID is empty or starts with `OL`, has no slash and is upper case. |
| EditStock.OlidOfSegment | librarydb-frontend/src/pages/EditStock.jsx:19-21 | The last key segment, upper-cased, is the OLID exactly when it starts with `OL`. Otherwise the OLID is empty. It never holds a slash. |
| EditStock.ExtractOlidFromEditionKey | librarydb-frontend/src/pages/EditStock.jsx:16-22 | The key `/books/<olid>` gives back the OLID. |
| EditStock.PickEditionOlidFromDoc | librarydb-frontend/src/pages/EditStock.jsx:24-37 | The pick is empty or an edition OLID ending in M. A usable `cover_edition_key` wins. Otherwise the pick is `edition_key[0]`. |
| EditStock.PickFallsBackToEditionKey | librarydb-frontend/src/pages/EditStock.jsx:29-34 | Without a usable cover edition key, a usable `edition_key[0]` is picked. |
| EditStock.PickNothingUsable | librarydb-frontend/src/pages/EditStock.jsx:24-37 | With neither key usable, the pick is empty. |
| EditStock.Matches | librarydb-frontend/src/pages/EditStock.jsx:182-198 | A row is kept exactly when each of its seven columns passes its filter. |
| EditStock.FilteredStockRows | librarydb-frontend/src/pages/EditStock.jsx:170-201 | Exactly the rows passing all seven column filters are kept. |
| EditStock.BlankFiltersKeepAll | librarydb-frontend/src/pages/EditStock.jsx:170-201 | Blank filters keep every row, in order. |
| EditStock.FilteredKeepsOrder | librarydb-frontend/src/pages/EditStock.jsx:170-201 | Filtering respects concatenation, so the rows keep their relative order. |
| EditStock.SaveStock | librarydb-frontend/src/pages/EditStock.jsx:323-370 | A save request is sent exactly when an edition is loaded, its OLID ends in M, the quality is in 1..5 and the quantity is a non-negative integer. It carries those values with import on. Each rejection carries its own message: a missing edition, then a bad OLID, then a bad quality, then a bad quantity. |
| EditStock.SaveStockSendsEditionOlid | librarydb-frontend/src/pages/EditStock.jsx:323-370 | An edition loaded from `/books/<olid>` is saved under that OLID. |
| EditStock.SaveStockAccepts | librarydb-frontend/src/pages/EditStock.jsx:323-370 | Every quality in 1..5 and every non-negative quantity is sent for a loaded M edition. |
| EditStock.TotalPages | librarydb-frontend/src/pages/EditStock.jsx:144-147 | There is at least one page. The pages are exactly enough to hold all results. |
| EditStock.GoToTypedPage | librarydb-frontend/src/pages/EditStock.jsx:373-376 | The target page lies in 1..totalPages. An unparsable entry or a number below 1 goes to page 1. A valid page number is kept, and a number above the last page goes to the last page. |
| EditStock.GoToShownPage | librarydb-frontend/src/pages/EditStock.jsx:373-376 | Typing the decimal form of a valid page goes to that page. |
| StockCsv.EscapeText | librarydb-frontend/src/pages/EditStock.jsx:47-51 | Text without comma, quote or newline is kept. Other text is wrapped in quotes. |
| StockCsv.EscapeTextCases | librarydb-frontend/src/pages/EditStock.jsx:47-51 | Escaping leaves the text unchanged exactly when it needs no quotes. |
| StockCsv.CsvEscapeReadsBack | librarydb-frontend/src/pages/EditStock.jsx:47-51 | A CSV reader reads an escaped value back as its text. |
| StockCsv.ReadFieldEscaped | librarydb-frontend/src/pages/EditStock.jsx:47-51 | An escaped field followed by a separator is read back exactly. |
| StockCsv.Records | librarydb-frontend/src/pages/EditStock.jsx:53-74 | The export has the header record followed by one seven-field record per stock row, in order. |
| StockCsv.ReadRecordLine | librarydb-frontend/src/pages/EditStock.jsx:53-74 | A joined line of escaped fields reads back as those fields. |
| StockCsv.ReadCsvLines | librarydb-frontend/src/pages/EditStock.jsx:53-74 | Records joined with newlines read back as the same records. |
| StockCsv.StockToCsvRoundTrip | librarydb-frontend/src/pages/EditStock.jsx:53-74 | The exported CSV reads back as the header and the stock rows' fields, one record per row. |
| Lending.ToDatetimeLocalValue | librarydb-frontend/src/pages/Lending.jsx:13-18 | An empty value gives "". The result is at most 16 characters, and exactly 16 for long enough input. |
| Lending.FromDatetimeLocalValue | librarydb-frontend/src/pages/Lending.jsx:20-25 | Blank input gives "". Otherwise the trimmed input gains `:00`. When it holds a `T`, the first one becomes a space and the rest is kept. Without a `T`, the trimmed input is kept as it is. |
| Lending.FromLocalValue | librarydb-frontend/src/pages/Lending.jsx:20-25 | A `datetime-local` value converts to a database datetime. |
| Lending.ToLocalOfDb | librarydb-frontend/src/pages/Lending.jsx:13-18 | A database datetime converts to its date, `T`, and hours and minutes. |
| Lending.LocalRoundTrip | librarydb-frontend/src/pages/Lending.jsx:13-25 | Converting a `datetime-local` value to the database form and back gives it back. |
| Lending.DbRoundTrip | librarydb-frontend/src/pages/Lending.jsx:13-25 | A database datetime round-trips up to its seconds, and exactly when the seconds are zero. |
| Lending.AsDbKeepsOrder | librarydb-frontend/src/pages/Lending.jsx:20-25 | Converting to the database form preserves and reflects the order of `datetime-local` values, and is injective. |
| Lending.OnApprove | librarydb-frontend/src/pages/Lending.jsx:102-129 | Approve is called exactly when the rental id is set, both times are filled in and the end is after the start. It passes the converted times. Without a rental id nothing happens. A missing time is refused as required, and an end not after the start is refused as such. |
| Lending.ApproveOrdersTimes | librarydb-frontend/src/pages/Lending.jsx:110-116 | Every approve call has a start strictly before its end. |
| Lending.ApprovePickedTimes | librarydb-frontend/src/pages/Lending.jsx:102-129 | For picked `datetime-local` values, approve is called exactly when the start is before the end. |
| Lending.KnownPill | librarydb-frontend/src/pages/Lending.jsx:32-42 | Each known status has its own colour. Every other status is gray. |
| Lending.StatusPill | librarydb-frontend/src/pages/Lending.jsx:32-42 | The pill depends on the lower-cased status only, and is one of the five classes. |
| Lending.StatusPillIgnoresCase | librarydb-frontend/src/pages/Lending.jsx:32-42 | Upper-casing the status does not change the pill. |
| Library.Clamp | librarydb-frontend/src/App.jsx:37-39 | The result lies in the range, and values already in range are kept. |
| Library.ClampIdempotent | librarydb-frontend/src/App.jsx:37-39 | Clamping twice is the same as clamping once. |
| Library.FirstLetterOf | librarydb-frontend/src/App.jsx:58-63 | The first letter is `#` or one upper-case ASCII letter, the upper-cased first non-blank character. Blank titles give `#`. |
| Library.FirstLetterIgnoresCase | librarydb-frontend/src/App.jsx:58-63 | Upper-casing the title does not change its first letter. |
| Library.FirstLetterOfLetter | librarydb-frontend/src/App.jsx:58-63 | A title starting with an ASCII letter is filed under that letter. |
| Library.NormalizeYear | librarydb-frontend/src/App.jsx:65-68 | A year lies in 0..9999. There is none exactly when there is no four-digit run. Otherwise it is the value of the leftmost four-digit run. |
| Library.NormalizeYearAfterText | librarydb-frontend/src/App.jsx:65-68 | A four-digit year after digit-free text is found. |
| Library.FilterBooks | librarydb-frontend/src/App.jsx:974-1008 | Filtering never adds books. |
| Library.FilterBooksMembers | librarydb-frontend/src/App.jsx:974-1008 | A book is shown exactly when it passes the search, letter and filter checks. With in-stock only, its quantity is positive. |
| Library.NoFiltersKeepAll | librarydb-frontend/src/App.jsx:852-867 | With the default filters, every book of adequate condition is shown, in order. |
| Library.KeyOf | librarydb-frontend/src/App.jsx:1013-1028 | Title and author sort as text. Year and condition sort as numbers. |
| Library.Compare | librarydb-frontend/src/App.jsx:1032 | The comparison is zero exactly for equal strings, and negative exactly for the lexicographically smaller one. |
| Library.KeyLeTotal | librarydb-frontend/src/App.jsx:1010-1033 | Any two sort keys are comparable. |
| Library.KeyLeTransitive | librarydb-frontend/src/App.jsx:1010-1033 | The key order is transitive. |
| Library.BookLePreorder | librarydb-frontend/src/App.jsx:1010-1033 | The book order for every sort field and direction is a total preorder. |
| Library.LibraryView | librarydb-frontend/src/App.jsx:974-1033 | The view is sorted and is a permutation of the filtered books. |
| Library.LibraryViewStable | librarydb-frontend/src/App.jsx:1012-1032 | The sort is stable: books that tie under the chosen order keep their filtered order. |
| Library.SortedMatchesComparator | librarydb-frontend/src/App.jsx:1010-1033 | For non-NaN keys, the model order holds exactly when the source comparator is at most zero. |
| Library.KeyLeMatchesCompare | librarydb-frontend/src/App.jsx:1031-1032 | For keys of the same kind, the key order holds exactly when the ascending comparison is at most zero. |
| Library.KeyCompareFlip | librarydb-frontend/src/App.jsx:1010-1032 | Descending comparison is ascending comparison with the arguments swapped. |
| Library.LibraryViewNumericOrder | librarydb-frontend/src/App.jsx:1031 | Numeric keys appear in ascending or descending order, as asked. |
| Library.YearKeysAreNumbers | librarydb-frontend/src/App.jsx:1019 | Year keys are numbers, and 0 for a book without a year. |
| AdminWishlists.WishLePreorder | librarydb-frontend/src/App.jsx:364-369 | The wishlist order is a total preorder. |
| AdminWishlists.WishLeMatchesComparator | librarydb-frontend/src/App.jsx:364-369 | For finite wish counts, the model order holds exactly when the source comparator is at most zero. |
| AdminWishlists.Filtered | librarydb-frontend/src/App.jsx:353-372 | The filtered rows are sorted and are a permutation of the rows matching the query. |
| AdminWishlists.FilteredStable | librarydb-frontend/src/App.jsx:364-369 | The sort is stable: rows that tie on wish count and title keep their order among the matching rows. |
| AdminWishlists.FilteredMembers | librarydb-frontend/src/App.jsx:353-362 | A row is shown exactly when its title, author or OLID contains the lower-cased trimmed query. |
| AdminWishlists.FilteredOrder | librarydb-frontend/src/App.jsx:364-369 | Rows come by descending wish count, then by title. |
| AdminWishlists.PageSize | librarydb-frontend/src/App.jsx:375 | The page size is at least 1. NaN and 0 mean 20. Any other size below 1 means 1, and a size of 1 or more is kept, rounded down. |
| AdminWishlists.TotalPages | librarydb-frontend/src/App.jsx:374-377 | There is at least one page. The pages are exactly enough for the rows. |
| AdminWishlists.ClampPage | librarydb-frontend/src/App.jsx:379-381 | The page is in 1..totalPages, and a valid page is kept. A page past the end becomes the last page, and one below 1 becomes page 1. |
| AdminWishlists.PageRows | librarydb-frontend/src/App.jsx:383-387 | A page holds at most a page size of rows: the slice of rows for that page. |
| AdminWishlists.FirstPagesPrefix | librarydb-frontend/src/App.jsx:383-387 | The first k pages together are the first k page sizes of rows. |
| AdminWishlists.PagesCoverAll | librarydb-frontend/src/App.jsx:374-387 | All pages together are exactly the rows. |
| AdminWishlists.QualityOf | librarydb-frontend/src/App.jsx:405 | The quality lies in 1..5. An unparsable entry means 1, and a valid quality is kept. A parsed value above 5 becomes 5, and one below 1 becomes 1. |
| AdminWishlists.QuantityOf | librarydb-frontend/src/App.jsx:406 | The quantity is at least 1. An unparsable entry or a parsed value below 1 means 1, and a positive quantity is kept. |
| AdminWishlists.SubmitStock | librarydb-frontend/src/App.jsx:402-433 | Without an OLID nothing happens. Stock is submitted exactly when the trimmed upper-cased OLID ends in M, with the clamped quality and quantity. Otherwise an invalid-OLID message is shown. |
| AdminWishlists.SubmitKeepsNumbersInRange | librarydb-frontend/src/App.jsx:405-406 | A quality in 1..5 and a positive quantity are submitted as they are. |
| Js.ParseInt | librarydb-frontend/src/pages/EditStock.jsx:374 | `parseInt` fails exactly when no digit follows the white space and optional sign. |
| Js.ParseIntOfIntString | librarydb-frontend/src/pages/EditStock.jsx:374 | `parseInt` reads back the decimal form of any integer. |
| Js.NumberOfIntString | librarydb-frontend/src/App.jsx:366 | `Number` reads back the decimal form of any integer. |
| Js.CeilDiv | librarydb-frontend/src/pages/EditStock.jsx:146 | `Math.ceil(n / d)`: for a positive d, the least count of d that reaches n. For a negative d, the same bound with the inequalities turned round, as the real quotient's ceiling gives. |
| Js.SetProp | librarydb-frontend/src/state/usersStore.js:48 | Spreading with one new property sets it and keeps every other property. |
| Php.Truncate | librarydb-backend/src/Controller.php:34 | The `(int)` cast truncates toward zero. |
| Php.IntStringRoundTrip | librarydb-backend/src/Controller.php:34 | The decimal form of an integer is numeric and casts back to it. |

## Left out

- Sessions, cookies, HTTP headers and the PHP superglobals: a session is a field holding the logged-in user id.
- Database failures, PDO exceptions other than the modelled messages, and the transaction boundaries: the tables are values, and each statement either happens or the modelled error is returned.
- The stock table's unique key is not shown in the source, so `ON DUPLICATE KEY` is modelled on the key (openlibraryid, quality).
- `countUsers` is the number of rows in the users sequence.
- PHP's canonical array keys: a decoded array may in the model hold a string key such as "0" or a repeated key, which PHP never does. Lookups read the first entry under a key, and the back end only looks up non-numeric names.
- PHP integer overflow, floats in JSON bodies and `is_numeric` on floats: values are unbounded integers, and numeric strings are read through their leading decimal number.
- JavaScript numbers are integers (`Num`), and `Number()` gives NaN or a finite real. Hexadecimal, binary, octal and `Infinity` strings give NaN.
- AdminWishlists.PageSize: a page size with a fraction is floored. JavaScript would keep the fraction, but the selector only offers 10, 20, 50 and 100, so only a hand-edited stored value could carry one.
- Sorting: keys that are NaN are placed last by the model's total preorder, where the JavaScript order is implementation-defined.
- Titles and authors are always compared as text. A title that is a JSON number is not modelled.
- `localeCompare` and the MySQL collation are code-point order. `toUpperCase` / `toLowerCase` are ASCII-only.
- Email addresses are compared exactly.
- `localStorage`, the browser events, the async de-duplication of in-flight loads, and the React rendering: the stores are pure state updates, and each call's network answer is a parameter.
- `res.text()` failing inside `parseJson`.
- `(title || "").trim()` on a non-string title: non-string truthy values are read through `String()` of the modelled scalars only.
- The rental back end, the book search and import endpoints, and the OpenLibrary HTTP client: they are not part of this model.
- BookMapper.NormalizeDescription: does not state the exact text, only that it is trimmed and free of tabs, carriage returns and triple newlines, because the HTML-to-text step is a parameter.
- BookMapper.CollapseBlanks: does not state that each run of blanks becomes one space, only the absence of tabs and double spaces and that no other character appears.
- BookMapper.NormalizeNewlines: does not state the exact replacement of `\r\n` and `\r`, only that no carriage return remains.
- BookMapper.SqueezeNewlines: does not state that longer runs become exactly two newlines, only that no triple newline remains.
- BookMapper.LanguageCode: states the shape of the code, not which three letters are taken.
- BookMapper.CleanSubjects: states that subjects are non-empty and trimmed, not which entries are kept.
- BookMapper.MapEdition: title, author, pages, year, description and subjects are stated by their shape. Their exact sources are stated only for the ISBN, publisher, language, cover and OLID.
- EditStock.ExtractOlidFromKey: states the shape of the result. The value is stated only for `/books/<olid>` keys.
- Lending.ToDatetimeLocalValue: states the length of the result. The value is stated only for database datetimes.
- Library.FilterBooks: its own contract states only that no book is added. Membership is stated in FilterBooksMembers.

=== FILE: admin_wishlists.dfy ===
/**
 * The admin view of everyone's wishlists: the search over the summary rows,
 * their order (most wished first, then by title), the pager, and the checks
 * `submitStock` makes before it imports an edition and sets its stock.
 */
module AdminWishlists {
  import opened Text
  import opened Seqs
  import opened Js
  import Library

  // ------------------------------------------------------------ search

  /** A summary row matches a lower-cased query when the query is empty or occurs in its title, author or OLID. */
  predicate MatchesQuery(r: JsValue, query: string) {
    || query == ""
    || Contains(Lower(TextOr(Get(r, "title"))), query)
    || Contains(Lower(TextOr(Get(r, "author"))), query)
    || Contains(Lower(TextOr(Get(r, "openlibraryid"))), query)
  }

  function MatchesFn(query: string): JsValue -> bool {
    r => MatchesQuery(r, query)
  }

  // ------------------------------------------------------------ order

  /** `Number(r?.wishcount ?? 0)`. */
  function Wishcount(r: JsValue): JsNumber {
    ToNumber(Coalesce(Get(r, "wishcount"), Num(0)))
  }

  function Title(r: JsValue): string {
    TextOr(Get(r, "title"))
  }

  /**
   * `a` may come before `b`: more wishes first, equal counts by title. A NaN
   * count makes the comparator answer NaN, which the sort takes as "equal";
   * the model places such rows after all counted ones.
   */
  predicate WishLe(a: JsValue, b: JsValue) {
    var wa, wb := Wishcount(a), Wishcount(b);
    if wa.Finite? && wb.Finite? then wa.x > wb.x || (wa.x == wb.x && LexLe(Title(a), Title(b)))
    else wb.NaN?
  }

  lemma WishLePreorder()
    ensures TotalPreorder(WishLe)
  {
    forall a, b ensures WishLe(a, b) || WishLe(b, a) {
      LexLeTotal(Title(a), Title(b));
    }
    forall a, b, c | WishLe(a, b) && WishLe(b, c) ensures WishLe(a, c) {
      if Wishcount(a).Finite? && Wishcount(b).Finite? && Wishcount(c).Finite?
         && Wishcount(a).x == Wishcount(b).x == Wishcount(c).x {
        LexLeTransitive(Title(a), Title(b), Title(c));
      }
    }
  }

  /** The comparator of the admin sort: `bw - aw` when the counts differ, else the titles' `localeCompare`. */
  function Comparator(a: JsValue, b: JsValue): JsNumber {
    var wa, wb := Wishcount(a), Wishcount(b);
    if wa.Finite? && wb.Finite? then
      if wa.x != wb.x then Finite(wb.x - wa.x) else Finite(Library.Compare(Title(a), Title(b)) as real)
    else NaN
  }

  /** For counted rows, "may come before" is exactly a comparator value that is not positive. */
  lemma WishLeMatchesComparator(a: JsValue, b: JsValue)
    requires Wishcount(a).Finite? && Wishcount(b).Finite?
    ensures WishLe(a, b) <==> Comparator(a, b).x <= 0.0
  {
    LexLeTotal(Title(a), Title(b));
    if Title(a) != Title(b) && LexLe(Title(a), Title(b)) && LexLe(Title(b), Title(a)) {
      LexLeAntisymmetric(Title(a), Title(b));
    }
  }

  /** The rows shown for a search: matching rows, most wished first, ties by title. */
  function Filtered(rows: seq<JsValue>, q: string): (r: seq<JsValue>)
    ensures SortedBy(r, WishLe)
    ensures multiset(r) == multiset(Filter(rows, MatchesFn(Lower(JsTrim(q)))))
  {
    WishLePreorder();
    SortBy(Filter(rows, MatchesFn(Lower(JsTrim(q)))), WishLe)
  }

  /** Rows that tie on wish count and title keep the order they had before sorting. */
  lemma FilteredStable(rows: seq<JsValue>, q: string, k: JsValue)
    ensures Filter(Filtered(rows, q), Tied(WishLe, k)) == Filter(Filter(rows, MatchesFn(Lower(JsTrim(q)))), Tied(WishLe, k))
  {
    WishLePreorder();
    SortByStable(Filter(rows, MatchesFn(Lower(JsTrim(q)))), WishLe, k);
  }

  /** A row is shown exactly when it matches the search, and no row is shown twice more than it occurs. */
  lemma FilteredMembers(rows: seq<JsValue>, q: string, x: JsValue)
    ensures x in Filtered(rows, q) <==> x in rows && MatchesQuery(x, Lower(JsTrim(q)))
  {
    var kept := Filter(rows, MatchesFn(Lower(JsTrim(q))));
    FilterMembership(rows, MatchesFn(Lower(JsTrim(q))), x);
    assert x in Filtered(rows, q) <==> x in multiset(kept);
  }

  /** Among counted rows, an earlier one has at least as many wishes, and on a tie a title that sorts no later. */
  lemma FilteredOrder(rows: seq<JsValue>, q: string, i: int, j: int)
    requires 0 <= i < j < |Filtered(rows, q)|
    requires Wishcount(Filtered(rows, q)[i]).Finite? && Wishcount(Filtered(rows, q)[j]).Finite?
    ensures var r := Filtered(rows, q);
            && Wishcount(r[i]).x >= Wishcount(r[j]).x
            && (Wishcount(r[i]).x == Wishcount(r[j]).x ==> LexLe(Title(r[i]), Title(r[j])))
  {
    var r := Filtered(rows, q);
    assert WishLe(r[i], r[j]);
  }

  // ------------------------------------------------------------ paging

  /**
   * `Math.max(1, Number(pageSize) || 20)`: NaN and 0 fall back to 20; a
   * fractional size is rounded down.
   */
  function PageSize(pageSize: JsValue): (ps: int)
    ensures ps >= 1
    ensures pageSize.Num? && pageSize.n >= 1 ==> ps == pageSize.n
    ensures pageSize.Num? && pageSize.n == 0 ==> ps == 20
    ensures ToNumber(pageSize).NaN? ==> ps == 20
    ensures ToNumber(pageSize).Finite? && ToNumber(pageSize).x == 0.0 ==> ps == 20
    ensures ToNumber(pageSize).Finite? && ToNumber(pageSize).x != 0.0 && ToNumber(pageSize).x < 1.0 ==> ps == 1
    ensures ToNumber(pageSize).Finite? && ToNumber(pageSize).x >= 1.0 ==> ps == ToNumber(pageSize).x.Floor
  {
    var n := ToNumber(pageSize);
    var v := if n.NaN? || n.x == 0.0 then 20.0 else n.x;
    if v < 1.0 then 1 else v.Floor
  }

  /** `totalPages`: the pages of `ps` rows needed for all rows, at least 1. */
  function TotalPages(count: nat, ps: int): (r: int)
    requires ps >= 1
    ensures r >= 1
    ensures count > 0 ==> (r - 1) * ps < count <= r * ps
    ensures count == 0 ==> r == 1
  {
    var c := CeilDiv(count, ps);
    if c < 1 then 1 else c
  }

  /** The page kept when the page count changes: clamped into [1, totalPages]. */
  function ClampPage(page: int, totalPages: int): (r: int)
    requires totalPages >= 1
    ensures 1 <= r <= totalPages
    ensures 1 <= page <= totalPages ==> r == page
    ensures page > totalPages ==> r == totalPages
    ensures page < 1 ==> r == 1
  {
    Library.Clamp(page, 1, totalPages)
  }

  /** `pageRows`: the slice of the sorted rows for one page. */
  function PageRows<T>(rows: seq<T>, page: int, ps: int): (r: seq<T>)
    requires ps >= 1
    ensures |r| <= ps
    ensures page >= 1 && (page - 1) * ps <= |rows| ==>
              r == rows[(page - 1) * ps..if page * ps <= |rows| then page * ps else |rows|]
  {
    var start := (page - 1) * ps;
    JsSlice(rows, start, start + ps)
  }

  /** The first `k` pages, one after another. */
  function FirstPages<T>(rows: seq<T>, ps: int, k: nat): seq<T>
    requires ps >= 1
  {
    if k == 0 then [] else FirstPages(rows, ps, k - 1) + PageRows(rows, k, ps)
  }

  /** The first `k` pages hold the first `k * ps` rows, or all rows when there are fewer. */
  lemma {:induction false} FirstPagesPrefix<T>(rows: seq<T>, ps: int, k: nat)
    requires ps >= 1
    ensures FirstPages(rows, ps, k) == rows[..if k * ps <= |rows| then k * ps else |rows|]
  {
    if k > 0 {
      FirstPagesPrefix(rows, ps, k - 1);
      AppendPage(rows, ps, k);
    }
  }

  /** Appending page `k` to the rows before it extends the prefix by that page. */
  lemma AppendPage<T>(rows: seq<T>, ps: int, k: nat)
    requires ps >= 1 && k >= 1
    ensures rows[..if (k - 1) * ps <= |rows| then (k - 1) * ps else |rows|] + PageRows(rows, k, ps)
            == rows[..if k * ps <= |rows| then k * ps else |rows|]
  {
    var m := (k - 1) * ps;
    assert k * ps == m + ps;
    assert 0 <= m;
    var a := if m <= |rows| then m else |rows|;
    var b := if m + ps <= |rows| then m + ps else |rows|;
    if m <= |rows| {
      assert PageRows(rows, k, ps) == rows[a..b];
      assert rows[..a] + rows[a..b] == rows[..b];
    } else {
      assert PageRows(rows, k, ps) == [];
    }
  }

  /** Paging loses and repeats nothing: the pages 1..totalPages, in order, are the whole list. */
  lemma PagesCoverAll<T>(rows: seq<T>, ps: int)
    requires ps >= 1
    ensures FirstPages(rows, ps, TotalPages(|rows|, ps)) == rows
  {
    var n := TotalPages(|rows|, ps);
    FirstPagesPrefix(rows, ps, n);
    assert |rows| <= n * ps;
  }

  // ------------------------------------------------------------ adding stock

  /** What `submitStock` does: nothing, an error message, or the import and stock calls with their values. */
  datatype SubmitOutcome =
    | NoAction
    | Invalid(message: string)
    | Submit(olid: string, quality: int, quantity: int)

  const InvalidOlid := "Invalid OLID (must be an edition id ending with 'M')."

  /** `Math.max(1, Math.min(5, parseInt(String(v), 10) || 1))`. */
  function QualityOf(v: JsValue): (q: int)
    ensures 1 <= q <= 5
    ensures ParseInt(ToString(v)).None? ==> q == 1
    ensures ParseInt(ToString(v)).Some? && 1 <= ParseInt(ToString(v)).value <= 5 ==> q == ParseInt(ToString(v)).value
    ensures ParseInt(ToString(v)).Some? && ParseInt(ToString(v)).value > 5 ==> q == 5
    ensures ParseInt(ToString(v)).Some? && ParseInt(ToString(v)).value < 1 ==> q == 1
  {
    Library.Clamp(ParseIntOr1(ToString(v)), 1, 5)
  }

  /** `Math.max(1, parseInt(String(v), 10) || 1)`. */
  function QuantityOf(v: JsValue): (q: int)
    ensures q >= 1
    ensures ParseInt(ToString(v)).None? ==> q == 1
    ensures ParseInt(ToString(v)).Some? && ParseInt(ToString(v)).value >= 1 ==> q == ParseInt(ToString(v)).value
    ensures ParseInt(ToString(v)).Some? && ParseInt(ToString(v)).value < 1 ==> q == 1
  {
    var n := ParseIntOr1(ToString(v));
    if n < 1 then 1 else n
  }

  /**
   * `submitStock`: nothing without an OLID on the item; an OLID that is not
   * an edition id (not ending in "M" once trimmed and upper-cased) is
   * refused; otherwise the edition is imported and its stock set, with the
   * quality clamped into 1..5 and the quantity to at least 1.
   */
  function SubmitStock(item: JsValue, stockQuality: JsValue, stockQty: JsValue): (r: SubmitOutcome)
    ensures !Truthy(Get(item, "openlibraryid")) ==> r == NoAction
    ensures r.Submit? <==> Truthy(Get(item, "openlibraryid"))
                           && EndsWith(Upper(JsTrim(TextOr(Get(item, "openlibraryid")))), "M")
    ensures r.Submit? ==> r.olid == Upper(JsTrim(TextOr(Get(item, "openlibraryid"))))
    ensures r.Submit? ==> r.quality == QualityOf(stockQuality) && r.quantity == QuantityOf(stockQty)
    ensures r.Invalid? ==> r.message == InvalidOlid
  {
    if !Truthy(Get(item, "openlibraryid")) then NoAction
    else
      var qlty := QualityOf(stockQuality);
      var qty := QuantityOf(stockQty);
      var olid := Upper(JsTrim(TextOr(Get(item, "openlibraryid"))));
      if olid == "" || !EndsWith(olid, "M") then Invalid(InvalidOlid)
      else Submit(olid, qlty, qty)
  }

  /** The dialog's numbers, when in range, are submitted as they are. */
  lemma SubmitKeepsNumbersInRange(quality: int, quantity: int)
    requires 1 <= quality <= 5 && quantity >= 1
    ensures QualityOf(Num(quality)) == quality
    ensures QuantityOf(Num(quantity)) == quantity
  {
    ParseIntOfIntString(quality);
    ParseIntOfIntString(quantity);
  }
}

=== FILE: auth_controller.dfy ===
/**
 * AuthController over an abstract users table and the session's `userid`
 * slot: registration (first user becomes admin), login, `me` and logout.
 * Password hashing, hash verification and email validation are foreign
 * functions passed in as parameters.
 */
module AuthController {
  import opened Wrappers
  import opened Text
  import opened Php
  import opened Controller

  datatype Role = Admin | User

  function RoleName(r: Role): string {
    match r
    case Admin => "admin"
    case User => "user"
  }

  /** A row of the `users` table. */
  datatype UserRow = UserRow(userid: int, email: string, name: string, passwordhash: string,
                             role: Role, createdat: string)

  /** The `users` table in insertion order, with the next auto-increment id. */
  datatype Users = Users(rows: seq<UserRow>, nextId: int)

  /** Ids are unique and below the next auto-increment value; emails are unique. */
  predicate ValidUsers(u: Users) {
    && (forall i :: 0 <= i < |u.rows| ==> u.rows[i].userid < u.nextId)
    && (forall i, j :: 0 <= i < j < |u.rows| ==> u.rows[i].userid != u.rows[j].userid)
    && (forall i, j :: 0 <= i < j < |u.rows| ==> u.rows[i].email != u.rows[j].email)
  }

  /** `$_SESSION['userid']`; `None` when unset. */
  datatype Session = Session(userid: Option<int>)

  /** The JSON shape a user is exposed in: no password hash. */
  datatype PublicUser = PublicUser(userid: int, email: string, name: string, role: string, createdat: string)

  datatype ResponseBody = UserBody(user: PublicUser) | ErrorBody(error: string) | OkBody

  datatype Response = Response(status: int, body: ResponseBody)

  datatype AuthState = AuthState(users: Users, session: Session)

  /** The collaborators the controller calls but the model does not define. */
  datatype Services = Services(
    validEmail: string -> bool,             // filter_var($email, FILTER_VALIDATE_EMAIL)
    hash: string -> Option<string>,         // password_hash; None is `false`
    verify: (string, string) -> bool,       // password_verify($password, $hash)
    now: string)                            // the created-at timestamp the database assigns

  // ------------------------------------------------------------ queries

  /** `findByEmail`: the first row with exactly this email. */
  function FindByEmail(rows: seq<UserRow>, email: string): (r: Option<UserRow>)
    ensures r.Some? ==> r.value in rows && r.value.email == email
    ensures r.None? <==> forall i :: 0 <= i < |rows| ==> rows[i].email != email
    decreases |rows|
  {
    if |rows| == 0 then None
    else if rows[0].email == email then Some(rows[0])
    else FindByEmail(rows[1..], email)
  }

  /** `findById`: the first row with this id. */
  function FindById(rows: seq<UserRow>, id: int): (r: Option<UserRow>)
    ensures r.Some? ==> r.value in rows && r.value.userid == id
    ensures r.None? <==> forall i :: 0 <= i < |rows| ==> rows[i].userid != id
    decreases |rows|
  {
    if |rows| == 0 then None
    else if rows[0].userid == id then Some(rows[0])
    else FindById(rows[1..], id)
  }

  /** `publicUser`: exactly id, email, name, role and creation time. */
  function ToPublicUser(u: UserRow): (r: PublicUser)
    ensures r.userid == u.userid && r.email == u.email && r.name == u.name
    ensures r.role == RoleName(u.role) && r.createdat == u.createdat
  {
    PublicUser(u.userid, u.email, u.name, RoleName(u.role), u.createdat)
  }

  /** Nothing of the password hash leaks: rows that differ only in it look the same. */
  lemma PublicUserHidesHash(u: UserRow, otherHash: string)
    ensures ToPublicUser(u) == ToPublicUser(u.(passwordhash := otherHash))
  {
  }

  /** `$uid` is truthy: set and not 0. */
  predicate LoggedIn(s: Session) {
    s.userid.Some? && s.userid.value != 0
  }

  // ------------------------------------------------------------ actions

  /** `me`: the logged-in user, or 401 when there is no session user or it no longer exists. */
  function Me(st: AuthState): (r: Response)
    ensures r.status == 401 <==> !LoggedIn(st.session) || FindById(st.users.rows, st.session.userid.value).None?
    ensures r.status != 401 ==> r.status == 200 && r.body.UserBody? && r.body.user.userid == st.session.userid.value
    ensures !LoggedIn(st.session) ==> r.body == ErrorBody("Not authenticated")
    ensures LoggedIn(st.session) && FindById(st.users.rows, st.session.userid.value).None? ==>
              r.body == ErrorBody("Session user not found")
    ensures LoggedIn(st.session) && FindById(st.users.rows, st.session.userid.value).Some? ==>
              r.body == UserBody(ToPublicUser(FindById(st.users.rows, st.session.userid.value).value))
  {
    if !LoggedIn(st.session) then Response(401, ErrorBody("Not authenticated"))
    else
      match FindById(st.users.rows, st.session.userid.value)
      case None => Response(401, ErrorBody("Session user not found"))
      case Some(u) => Response(200, UserBody(ToPublicUser(u)))
  }

  /** The email form `register` and `login` look users up by: trimmed, lower case. */
  function NormalEmail(raw: string): string {
    Lower(PhpTrim(raw))
  }

  /** What `register` reads from its body, already normalised. */
  datatype Registration = Registration(email: string, name: string, password: string)

  /**
   * The three `requireString` calls of `register`, in order, with the email
   * lower-cased and trimmed and the name trimmed; the first failure wins.
   */
  function ReadRegistration(body: Result<seq<Entry>>): (r: Result<Registration>)
    ensures r.Ok? <==> body.Ok? && RequireString(body.value, "email").Ok?
                       && RequireString(body.value, "name").Ok? && RequireString(body.value, "password").Ok?
    ensures r.Ok? ==> r.value.email == NormalEmail(RequireString(body.value, "email").value)
                      && r.value.name == PhpTrim(RequireString(body.value, "name").value)
                      && r.value.password == RequireString(body.value, "password").value
    ensures r.Ok? ==> r.value.name != "" && r.value.password != ""
    ensures body.Err? ==> r == Err(body.msg)
    ensures body.Ok? && RequireString(body.value, "email").Err? ==> r == Err(RequireString(body.value, "email").msg)
    ensures body.Ok? && RequireString(body.value, "email").Ok? && RequireString(body.value, "name").Err? ==>
              r == Err(RequireString(body.value, "name").msg)
    ensures (body.Ok? && RequireString(body.value, "email").Ok? && RequireString(body.value, "name").Ok? &&
             RequireString(body.value, "password").Err?) ==> r == Err(RequireString(body.value, "password").msg)
  {
    var b :- body;
    var email :- RequireString(b, "email");
    var name :- RequireString(b, "name");
    var password :- RequireString(b, "password");
    assert password != "" by { TrimNoop("", IsPhpSpace); }
    Ok(Registration(NormalEmail(email), PhpTrim(name), password))
  }

  /** The row `register` inserts for `reg`: next id, admin only on an empty table. */
  function NewUser(users: Users, reg: Registration, hash: string, now: string): UserRow {
    UserRow(users.nextId, reg.email, reg.name, hash, if |users.rows| == 0 then Admin else User, now)
  }

  /** The checks `register` makes after reading the body, in order, all passed. */
  predicate Accepted(users: Users, reg: Registration, sv: Services) {
    && sv.validEmail(reg.email)
    && |reg.password| >= 8
    && FindByEmail(users.rows, reg.email).None?
    && sv.hash(reg.password).Some?
  }

  /**
   * `register` once its body has been read by `ReadRegistration` (`input`):
   * runs the remaining checks, then creates the user (admin when the table
   * is empty) and logs them in. Every failure leaves the state as it was.
   */
  function Register(st: AuthState, input: Result<Registration>, sv: Services): (r: (AuthState, Response))
    requires ValidUsers(st.users)
    ensures ValidUsers(r.0.users)
    ensures r.1.status != 201 ==> r.0 == st
    ensures input.Err? ==> r.1 == Response(400, ErrorBody(input.msg))
    ensures r.1.status == 201 <==> input.Ok? && Accepted(st.users, input.value, sv)
    ensures r.1.status == 201 ==>
              var row := NewUser(st.users, input.value, sv.hash(input.value.password).value, sv.now);
              && r.0 == AuthState(Users(st.users.rows + [row], st.users.nextId + 1), Session(Some(row.userid)))
              && r.1.body == UserBody(ToPublicUser(row))
    ensures input.Ok? && !sv.validEmail(input.value.email) ==> r.1 == Response(400, ErrorBody("Invalid email"))
    ensures input.Ok? && sv.validEmail(input.value.email) && |input.value.password| < 8 ==>
              r.1 == Response(400, ErrorBody("Password must be at least 8 characters"))
    ensures (input.Ok? && sv.validEmail(input.value.email) && |input.value.password| >= 8 &&
             FindByEmail(st.users.rows, input.value.email).Some?) ==> r.1 == Response(409, ErrorBody("Email already registered"))
    ensures (input.Ok? && sv.validEmail(input.value.email) && |input.value.password| >= 8 &&
             FindByEmail(st.users.rows, input.value.email).None? && sv.hash(input.value.password).None?) ==>
              r.1 == Response(500, ErrorBody("Failed to hash password"))
  {
    match input
    case Err(m) => (st, Response(400, ErrorBody(m)))
    case Ok(reg) =>
      if !sv.validEmail(reg.email) then (st, Response(400, ErrorBody("Invalid email")))
      else if |reg.password| < 8 then (st, Response(400, ErrorBody("Password must be at least 8 characters")))
      else if FindByEmail(st.users.rows, reg.email).Some? then (st, Response(409, ErrorBody("Email already registered")))
      else if sv.hash(reg.password).None? then (st, Response(500, ErrorBody("Failed to hash password")))
      else
        var row := NewUser(st.users, reg, sv.hash(reg.password).value, sv.now);
        AppendKeepsValid(st.users, row);
        (AuthState(Users(st.users.rows + [row], row.userid + 1), Session(Some(row.userid))),
         Response(201, UserBody(ToPublicUser(row))))
  }

  /** Appending a row with the next id and a fresh email keeps the table valid. */
  lemma AppendKeepsValid(u: Users, row: UserRow)
    requires ValidUsers(u) && row.userid == u.nextId
    requires FindByEmail(u.rows, row.email).None?
    ensures ValidUsers(Users(u.rows + [row], u.nextId + 1))
  {
    var all := u.rows + [row];
    assert forall i :: 0 <= i < |u.rows| ==> all[i] == u.rows[i];
  }

  lemma FindByIdLast(rows: seq<UserRow>, row: UserRow)
    requires forall i :: 0 <= i < |rows| ==> rows[i].userid != row.userid
    ensures FindById(rows + [row], row.userid) == Some(row)
  {
    var all := rows + [row];
    assert forall i :: 0 <= i < |rows| ==> all[i].userid != row.userid;
    assert all[|rows|] == row;
    var r := FindById(all, row.userid);
    assert r.Some?;
    var k :| 0 <= k < |all| && all[k] == r.value;
  }

  /** The first account ever registered is an admin; every later one is a plain user. */
  lemma RegisterRoles(st: AuthState, body: Result<Registration>, sv: Services)
    requires ValidUsers(st.users)
    requires Register(st, body, sv).1.status == 201
    ensures |st.users.rows| == 0 ==> Register(st, body, sv).1.body.user.role == "admin"
    ensures |st.users.rows| > 0 ==> Register(st, body, sv).1.body.user.role == "user"
  {
  }

  /** An invalid email, or a password under eight characters, is refused with 400 and creates no user. */
  lemma RegisterRejectsInvalid(st: AuthState, reg: Registration, sv: Services)
    requires ValidUsers(st.users)
    requires !sv.validEmail(reg.email) || |reg.password| < 8
    ensures Register(st, Ok(reg), sv).0 == st
    ensures Register(st, Ok(reg), sv).1.status == 400
    ensures !sv.validEmail(reg.email) ==> Register(st, Ok(reg), sv).1.body == ErrorBody("Invalid email")
    ensures sv.validEmail(reg.email) ==>
              Register(st, Ok(reg), sv).1.body == ErrorBody("Password must be at least 8 characters")
  {
  }

  /** An email that is already registered (after normalisation) is refused with 409. */
  lemma RegisterDuplicateEmail(st: AuthState, reg: Registration, sv: Services, i: nat)
    requires ValidUsers(st.users)
    requires sv.validEmail(reg.email) && |reg.password| >= 8
    requires i < |st.users.rows| && st.users.rows[i].email == reg.email
    ensures Register(st, Ok(reg), sv) == (st, Response(409, ErrorBody("Email already registered")))
  {
  }

  /** What `login` reads from its body: the normalised email and the password. */
  function ReadLogin(body: Result<seq<Entry>>): (r: Result<(string, string)>)
    ensures r.Ok? <==> body.Ok? && RequireString(body.value, "email").Ok? && RequireString(body.value, "password").Ok?
    ensures r.Ok? ==> r.value.0 == NormalEmail(RequireString(body.value, "email").value)
                      && r.value.1 == RequireString(body.value, "password").value
    ensures body.Err? ==> r == Err(body.msg)
    ensures body.Ok? && RequireString(body.value, "email").Err? ==> r == Err(RequireString(body.value, "email").msg)
    ensures body.Ok? && RequireString(body.value, "email").Ok? && RequireString(body.value, "password").Err? ==>
              r == Err(RequireString(body.value, "password").msg)
  {
    var b :- body;
    var email :- RequireString(b, "email");
    var password :- RequireString(b, "password");
    Ok((NormalEmail(email), password))
  }

  /**
   * `login` once its body has been read by `ReadLogin` (`input`): looks the
   * email up and checks the password; an unknown email and a wrong password
   * give the same 401 and leave the session alone.
   */
  function Login(st: AuthState, input: Result<(string, string)>, sv: Services): (r: (AuthState, Response))
    ensures r.0.users == st.users
    ensures r.1.status != 200 ==> r.0 == st
    ensures input.Err? ==> r.1 == Response(400, ErrorBody(input.msg))
    ensures r.1.status == 200 <==>
              && input.Ok?
              && FindByEmail(st.users.rows, input.value.0).Some?
              && sv.verify(input.value.1, FindByEmail(st.users.rows, input.value.0).value.passwordhash)
    ensures r.1.status == 200 ==>
              var u := FindByEmail(st.users.rows, input.value.0).value;
              r.0.session == Session(Some(u.userid)) && r.1.body == UserBody(ToPublicUser(u))
    ensures input.Ok? && r.1.status != 200 ==> r.1 == Response(401, ErrorBody("Invalid credentials"))
  {
    match input
    case Err(m) => (st, Response(400, ErrorBody(m)))
    case Ok((email, password)) =>
      var u := FindByEmail(st.users.rows, email);
      if u.None? || !sv.verify(password, u.value.passwordhash) then
        (st, Response(401, ErrorBody("Invalid credentials")))
      else
        (st.(session := Session(Some(u.value.userid))), Response(200, UserBody(ToPublicUser(u.value))))
  }

  lemma FindByEmailLast(rows: seq<UserRow>, row: UserRow)
    requires FindByEmail(rows, row.email).None?
    ensures FindByEmail(rows + [row], row.email) == Some(row)
  {
    var all := rows + [row];
    assert forall i :: 0 <= i < |rows| ==> all[i].email != row.email;
    assert all[|rows|] == row;
    var r := FindByEmail(all, row.email);
    assert r.Some?;
    var k :| 0 <= k < |all| && all[k] == r.value;
  }

  /**
   * Registering and then logging in with the same email and password (when
   * the hash verifies against its password) logs in as the new account.
   */
  lemma LoginAfterRegister(st: AuthState, reg: Registration, sv: Services)
    requires ValidUsers(st.users)
    requires Register(st, Ok(reg), sv).1.status == 201
    requires sv.verify(reg.password, sv.hash(reg.password).value)
    ensures var after := Register(st, Ok(reg), sv).0;
            Login(after, Ok((reg.email, reg.password)), sv).1 == Response(200, Register(st, Ok(reg), sv).1.body)
    ensures Login(Register(st, Ok(reg), sv).0, Ok((reg.email, reg.password)), sv).0.session
            == Session(Some(st.users.nextId))
  {
    var row := NewUser(st.users, reg, sv.hash(reg.password).value, sv.now);
    FindByEmailLast(st.users.rows, row);
  }

  /** `logout`: the session is emptied. */
  function Logout(st: AuthState): (r: (AuthState, Response))
    ensures !LoggedIn(r.0.session) && r.0.users == st.users
    ensures r.0.session.userid.None?
    ensures r.1 == Response(200, OkBody)
  {
    (st.(session := Session(None)), Response(200, OkBody))
  }

  /** Right after a successful registration, `me` answers with the new user. */
  lemma RegisterThenMe(st: AuthState, body: Result<Registration>, sv: Services)
    requires ValidUsers(st.users) && st.users.nextId != 0
    requires Register(st, body, sv).1.status == 201
    ensures Me(Register(st, body, sv).0) == Response(200, Register(st, body, sv).1.body)
  {
    var r := Register(st, body, sv);
    var row := r.0.users.rows[|st.users.rows|];
    FindByIdLast(st.users.rows, row);
  }
}

=== FILE: book_mapper.dfy ===
/**
 * BookMapper: turns a loosely-typed Open Library edition payload (and,
 * optionally, the related work payload) into the flat book record the
 * catalog stores. Every field has its own precedence and fallback rule.
 */
module BookMapper {
  import opened Wrappers
  import opened Text
  import opened Php

  /** The record `mapEdition` returns. */
  datatype MappedBook = MappedBook(
    openlibraryid: string,
    isbn: string,
    title: string,
    author: string,
    releaseyear: Option<int>,
    publisher: Option<string>,
    language: Option<string>,
    pages: Option<int>,
    description: string,
    subjects: seq<string>,
    coveri: Option<int>,
    coverurl: Option<string>)

  /** The URL prefix of cover images addressed by cover id. */
  const CoverIdPrefix := "https://covers.openlibrary.org/b/id/"

  // ------------------------------------------------------ small readers

  /** `string($v)`: a string trimmed, anything else the empty string. */
  function StringOf(v: Value): (r: string)
    ensures PhpTrim(r) == r
    ensures !v.Str? ==> r == ""
    ensures v.Str? ==> |r| <= |v.s|
    ensures v.Str? && (v.s == [] || (!IsPhpSpace(v.s[0]) && !IsPhpSpace(v.s[|v.s| - 1]))) ==> r == v.s
  {
    if v.Str? then
      TrimIdempotent(v.s, IsPhpSpace);
      TrimIsInfix(v.s, IsPhpSpace);
      assert v.s == [] || (!IsPhpSpace(v.s[0]) && !IsPhpSpace(v.s[|v.s| - 1])) ==> PhpTrim(v.s) == v.s by {
        if v.s == [] || (!IsPhpSpace(v.s[0]) && !IsPhpSpace(v.s[|v.s| - 1])) { TrimNoop(v.s, IsPhpSpace); }
      }
      PhpTrim(v.s)
    else ""
  }

  /**
   * `string()` removes only the white space around a string: what it returns
   * sits in the string at offset k, with nothing but white space before k and
   * after the returned text.
   */
  lemma StringOfStripsOnlySpace(s: string)
    ensures var r := StringOf(Str(s)); var k := TrimOffset(s, IsPhpSpace);
            && k + |r| <= |s| && r == s[k..k + |r|]
            && (forall i :: 0 <= i < k ==> IsPhpSpace(s[i]))
            && (forall i :: k + |r| <= i < |s| ==> IsPhpSpace(s[i]))
  {
    var r := StringOf(Str(s));
    var k := TrimOffset(s, IsPhpSpace);
    assert r == PhpTrim(s);
    TrimIsInfix(s, IsPhpSpace);
    assert k + |r| <= |s| && r == s[k..k + |r|];
  }

  /** `firstString($v)`: a string, or the first element of a list when that is a string, trimmed. */
  function FirstString(v: Value): (r: string)
    ensures PhpTrim(r) == r
    ensures v.Str? ==> r == StringOf(v)
    ensures v.Arr? && HasFirst(v) ==> r == StringOf(First(v))
    ensures !v.Str? && !(v.Arr? && HasFirst(v)) ==> r == ""
  {
    if v.Str? then StringOf(v)
    else if !v.Arr? || !HasFirst(v) || !First(v).Str? then ""
    else StringOf(First(v))
  }

  /** `intOrNull($v)`: integers as they are, numeric strings cast, anything else null. */
  function IntOrNull(v: Value): (r: Option<int>)
    ensures r.Some? <==> IsNumeric(v)
    ensures v.Str? && r.Some? ==> r.value == StrToInt(v.s)
    ensures v.Int? ==> r == Some(v.i)
  {
    if v.Int? then Some(v.i) else if IsNumeric(v) then Some(ToInt(v)) else None
  }

  // ------------------------------------------------------------- years

  /**
   * `extractYear`: an integer in 0..9999 as it is; an array by its element 0;
   * otherwise the first run of four digits in the trimmed string.
   */
  function ExtractYear(v: Value): (r: Option<int>)
    ensures r.Some? ==> 0 <= r.value <= 9999
    ensures v.Int? ==> (r.Some? <==> 0 <= v.i <= 9999)
    ensures v.Int? && r.Some? ==> r.value == v.i
    decreases v
  {
    if v.Int? then (if 0 <= v.i <= 9999 then Some(v.i) else None)
    else if v.Arr? && HasFirst(v) then ExtractYear(First(v))
    else
      var s := StringOf(v);
      if s == "" then None else FirstFourDigits(s)
  }

  /** A list's year is the year of its element 0; a list without one has no year. */
  lemma ExtractYearFirstElement(v: Value)
    requires v.Arr?
    ensures HasFirst(v) ==> ExtractYear(v) == ExtractYear(First(v))
    ensures !HasFirst(v) ==> ExtractYear(v) == None
  {
  }

  /** For a string, trimming is irrelevant: the year is the first four-digit run of the raw text. */
  lemma ExtractYearString(s: string)
    ensures ExtractYear(Str(s)) == FirstFourDigits(s)
  {
    var t := PhpTrim(s);
    TrimmedYear(s);
    if t == "" {
      assert FindDigitRun(t, 0) == None;
    }
  }

  lemma TrimmedYear(s: string)
    ensures FirstFourDigits(Trim(s, IsPhpSpace)) == FirstFourDigits(s)
  {
    var m := Trim(s, IsPhpSpace);
    TrimIsInfix(s, IsPhpSpace);
    var lead := TrimOffset(s, IsPhpSpace);
    DigitRunsOfInfix(s, lead, lead + |m|, m);
  }

  /** When the characters outside s[lo..hi] are not digits, the digit runs of s are those of the infix. */
  lemma DigitRunsOfInfix(s: string, lo: nat, hi: nat, m: string)
    requires lo <= hi <= |s| && m == s[lo..hi]
    requires forall i :: 0 <= i < lo ==> !IsDigit(s[i])
    requires forall i :: hi <= i < |s| ==> !IsDigit(s[i])
    ensures FirstFourDigits(m) == FirstFourDigits(s)
  {
    forall i ensures DigitRunAt(s, i) <==> DigitRunAt(m, i - lo) {
      RunShift(s, lo, hi, i);
    }
    FirstRunShift(s, m, lo);
  }

  /** When the runs of `s` are those of `m` moved by `lo`, both have the same first run. */
  lemma FirstRunShift(s: string, m: string, lo: nat)
    requires lo + |m| <= |s| && m == s[lo..lo + |m|]
    requires forall i :: DigitRunAt(s, i) <==> DigitRunAt(m, i - lo)
    ensures FirstFourDigits(m) == FirstFourDigits(s)
  {
    var a := FindDigitRun(m, 0);
    var b := FindDigitRun(s, 0);
    assert b.Some? ==> DigitRunAt(m, b.value - lo);
    if a.Some? {
      assert DigitRunAt(s, a.value + lo);
      assert b.Some? && b.value <= a.value + lo;
      assert DigitRunAt(m, b.value - lo);
      assert b.value == a.value + lo;
      SliceOfSlice(s, lo, m, a.value, 4);
    }
  }

  lemma SliceOfSlice(s: string, lo: nat, m: string, j: nat, n: nat)
    requires lo + |m| <= |s| && m == s[lo..lo + |m|] && j + n <= |m|
    ensures m[j..j + n] == s[lo + j..lo + j + n]
  {
    var w := m[j..j + n];
    assert forall k :: 0 <= k < n ==> w[k] == s[lo + j + k];
  }

  /** A four-digit run of `s` lies inside s[lo..hi] when no digit lies outside it, and conversely. */
  lemma RunShift(s: string, lo: nat, hi: nat, i: int)
    requires lo <= hi <= |s|
    requires forall i :: 0 <= i < lo ==> !IsDigit(s[i])
    requires forall i :: hi <= i < |s| ==> !IsDigit(s[i])
    ensures DigitRunAt(s, i) <==> DigitRunAt(s[lo..hi], i - lo)
  {
    var m := s[lo..hi];
    assert forall k :: 0 <= k < |m| ==> m[k] == s[lo + k];
    if DigitRunAt(s, i) {
      assert IsDigit(s[i..i + 4][0]) && IsDigit(s[i..i + 4][3]);
      assert i >= lo && i + 4 <= hi;
      assert m[i - lo..i - lo + 4] == s[i..i + 4];
    }
    if DigitRunAt(m, i - lo) {
      assert m[i - lo..i - lo + 4] == s[i..i + 4];
    }
  }

  // -------------------------------------------------------- OLID parsing

  predicate IsMW(c: char) { c == 'M' || c == 'W' || c == 'm' || c == 'w' }

  /** The longest prefix of `run` with at least two characters that ends in M or W (any case). */
  function LongestMWPrefix(run: string): (r: Option<string>)
    ensures r.Some? ==> 2 <= |r.value| <= |run| && r.value == run[..|r.value|] && IsMW(r.value[|r.value| - 1])
    ensures r.Some? ==> forall k :: |r.value| <= k < |run| ==> !IsMW(run[k])
    ensures r.None? ==> forall k :: 1 <= k < |run| ==> !IsMW(run[k])
    decreases |run|
  {
    if |run| < 2 then None
    else if IsMW(run[|run| - 1]) then Some(run)
    else LongestMWPrefix(run[..|run| - 1])
  }

  /** "/books/" or "/works/", in any letter case, starts at offset `p` of `key`. */
  predicate CollectionPrefixAt(key: string, p: nat) {
    p + 7 <= |key| && key[p] == '/' && key[p + 6] == '/'
    && (Lower(key[p + 1..p + 6]) == "books" || Lower(key[p + 1..p + 6]) == "works")
  }

  /** What `~/(books|works)/([A-Z0-9]+[MW])~i` captures when its match starts at `p`. */
  function OlidMatchAt(key: string, p: nat): (r: Option<string>)
    ensures r.Some? ==> CollectionPrefixAt(key, p)
    ensures r.Some? ==> p + 7 + |r.value| <= |key| && key[p + 7..p + 7 + |r.value|] == r.value
    ensures r.Some? ==> forall k :: 0 <= k < |r.value| ==> IsAsciiAlnum(r.value[k])
    ensures r.Some? ==> 2 <= |r.value| && IsMW(r.value[|r.value| - 1])
    ensures CollectionPrefixAt(key, p) && r.Some? ==>
              forall k :: p + 7 + |r.value| <= k < SkipWhile(key, p + 7, IsAsciiAlnum) ==> !IsMW(key[k])
    ensures CollectionPrefixAt(key, p) && r.None? ==>
              forall k :: p + 8 <= k < SkipWhile(key, p + 7, IsAsciiAlnum) ==> !IsMW(key[k])
  {
    if CollectionPrefixAt(key, p) then
      var e := SkipWhile(key, p + 7, IsAsciiAlnum);
      var o := LongestMWPrefix(key[p + 7..e]);
      if o.Some? then
        assert key[p + 7..p + 7 + |o.value|] == key[p + 7..e][..|o.value|];
        o
      else o
    else None
  }

  function OlidSearch(key: string, p: nat): (r: Option<string>)
    ensures r.None? ==> forall q :: p <= q ==> OlidMatchAt(key, q).None?
    ensures r.Some? ==> exists q :: p <= q && OlidMatchAt(key, q) == r
                                   && forall q' :: p <= q' < q ==> OlidMatchAt(key, q').None?
    decreases |key| - p
  {
    if p >= |key| then None
    else match OlidMatchAt(key, p)
      case Some(o) => Some(o)
      case None => OlidSearch(key, p + 1)
  }

  /**
   * `olidFromKey`: the identifier after the leftmost "/books/" or "/works/"
   * (case-insensitive), as the longest alphanumeric run ending in M or W;
   * `None` when there is no such match.
   */
  function OlidFromKey(key: string): (r: Option<string>)
    ensures r.Some? ==> 2 <= |r.value| && IsMW(r.value[|r.value| - 1])
    ensures r.Some? ==> forall k :: 0 <= k < |r.value| ==> IsAsciiAlnum(r.value[k])
    ensures r.Some? ==> exists p: nat :: OlidMatchAt(key, p) == r && forall q :: 0 <= q < p ==> OlidMatchAt(key, q).None?
    ensures r.None? <==> forall p :: OlidMatchAt(key, p).None?
  {
    OlidSearch(key, 0)
  }

  lemma OlidFromBooksKey()
    ensures OlidFromKey("/books/OL3778206M") == Some("OL3778206M")
  {
    var key := "/books/OL3778206M";
    assert Lower(key[1..6]) == "books";
    assert CollectionPrefixAt(key, 0);
    var e := SkipWhile(key, 7, IsAsciiAlnum);
    assert e == |key|;
    assert key[7..e] == "OL3778206M";
    assert LongestMWPrefix("OL3778206M") == Some("OL3778206M");
    assert OlidMatchAt(key, 0) == Some("OL3778206M");
  }

  // ----------------------------------------------------------- subjects

  /** The trimmed, non-empty strings among the entries, in order; other values are skipped. */
  function CleanSubjects(es: seq<Entry>): (r: seq<string>)
    ensures forall i :: 0 <= i < |r| ==> r[i] != "" && PhpTrim(r[i]) == r[i]
    decreases |es|
  {
    if |es| == 0 then []
    else
      var rest := CleanSubjects(es[1..]);
      var v := es[0].val;
      if v.Str? && PhpTrim(v.s) != "" then
        TrimIdempotent(v.s, IsPhpSpace);
        [PhpTrim(v.s)] + rest
      else rest
  }

  /** `array_values(array_unique($s))`: first occurrences only, in their original order. */
  function Dedup(s: seq<string>): (r: seq<string>)
    ensures forall i, j :: 0 <= i < j < |r| ==> r[i] != r[j]
    ensures forall x :: x in r <==> x in s
    decreases |s|
  {
    if |s| == 0 then []
    else
      var d := Dedup(s[..|s| - 1]);
      assert s == s[..|s| - 1] + [s[|s| - 1]];
      if s[|s| - 1] in d then d else d + [s[|s| - 1]]
  }

  /** The index of the first occurrence of `x` in `s`. */
  function IndexOf(s: seq<string>, x: string): (k: nat)
    requires x in s
    ensures k < |s| && s[k] == x && x !in s[..k]
  {
    if s[0] == x then 0 else 1 + IndexOf(s[1..], x)
  }

  /** Dedup keeps first occurrences in the order they first occur. */
  lemma {:induction false} DedupOrder(s: seq<string>)
    ensures forall i, j :: 0 <= i < j < |Dedup(s)| ==> IndexOf(s, Dedup(s)[i]) < IndexOf(s, Dedup(s)[j])
    decreases |s|
  {
    if |s| > 0 {
      var p := s[..|s| - 1];
      var d := Dedup(p);
      DedupOrder(p);
      forall x | x in p ensures IndexOf(s, x) == IndexOf(p, x) {
        IndexOfPrefix(p, s, x);
      }
      var r := Dedup(s);
      forall i, j | 0 <= i < j < |r| ensures IndexOf(s, r[i]) < IndexOf(s, r[j]) {
        assert r[i] in d;
        if j < |d| {
          assert r[j] in p;
        } else {
          assert r[j] == s[|s| - 1] && r[j] !in p;
          assert forall k :: 0 <= k < |s| - 1 ==> s[k] == p[k];
          assert IndexOf(s, r[j]) == |s| - 1;
        }
      }
    }
  }

  lemma IndexOfPrefix(p: seq<string>, s: seq<string>, x: string)
    requires x in p && |p| <= |s| && s[..|p|] == p
    ensures IndexOf(s, x) == IndexOf(p, x)
  {
    var k := IndexOf(p, x);
    var k' := IndexOf(s, x);
    assert s[k] == x;
    assert forall j :: 0 <= j < k' ==> s[j] != x;
    assert k' <= k;
    assert p[k'] == x;
    assert forall j :: 0 <= j < k ==> p[j] != x;
  }

  /**
   * `normalizeSubjects`: the trimmed non-empty strings of an array, without
   * duplicates, first occurrences kept in order, at most 50; `[]` for a non-array.
   */
  function NormalizeSubjects(v: Value): (r: seq<string>)
    ensures !v.Arr? ==> r == []
    ensures |r| <= 50
    ensures forall i :: 0 <= i < |r| ==> r[i] != "" && PhpTrim(r[i]) == r[i]
    ensures forall i, j :: 0 <= i < j < |r| ==> r[i] != r[j]
    ensures v.Arr? ==> forall x :: x in r ==> x in CleanSubjects(v.entries)
    ensures v.Arr? && |Dedup(CleanSubjects(v.entries))| <= 50 ==>
              forall x :: x in CleanSubjects(v.entries) ==> x in r
    ensures v.Arr? ==> |r| == (if |Dedup(CleanSubjects(v.entries))| <= 50 then |Dedup(CleanSubjects(v.entries))| else 50)
    ensures v.Arr? ==> r == Dedup(CleanSubjects(v.entries))[..|r|]
  {
    if !v.Arr? then []
    else
      var d := Dedup(CleanSubjects(v.entries));
      var n := if |d| <= 50 then |d| else 50;
      SubjectsPrefix(v.entries, n);
      d[..n]
  }

  /** Any prefix of the deduplicated subjects is clean, duplicate-free and drawn from the entries. */
  lemma SubjectsPrefix(es: seq<Entry>, n: nat)
    requires n <= |Dedup(CleanSubjects(es))|
    ensures var c := CleanSubjects(es); var r := Dedup(c)[..n];
            && (forall i :: 0 <= i < |r| ==> r[i] != "" && PhpTrim(r[i]) == r[i])
            && (forall i, j :: 0 <= i < j < |r| ==> r[i] != r[j])
            && (forall x :: x in r ==> x in c)
            && (n == |Dedup(c)| ==> forall x :: x in c ==> x in r)
  {
    var c := CleanSubjects(es);
    var d := Dedup(c);
    var r := d[..n];
    assert forall i :: 0 <= i < n ==> r[i] == d[i];
    forall i | 0 <= i < n ensures r[i] != "" && PhpTrim(r[i]) == r[i] {
      assert r[i] in c;
      var k :| 0 <= k < |c| && c[k] == r[i];
    }
    assert n == |d| ==> r == d;
  }

  /**
   * The subjects kept are the first ones to occur: they come in the order
   * of their first occurrence among the cleaned entries, and a subject that
   * is left out first occurs after every kept one.
   */
  lemma {:induction false} NormalizeSubjectsFirstOccurrences(v: Value)
    requires v.Arr?
    ensures var c := CleanSubjects(v.entries); var r := NormalizeSubjects(v);
            forall i, j :: 0 <= i < j < |r| ==> IndexOf(c, r[i]) < IndexOf(c, r[j])
    ensures var c := CleanSubjects(v.entries); var r := NormalizeSubjects(v);
            forall i, x :: 0 <= i < |r| && x in c && x !in r ==> IndexOf(c, r[i]) < IndexOf(c, x)
  {
    var c := CleanSubjects(v.entries);
    var r := NormalizeSubjects(v);
    assert r == Dedup(c)[..|r|];
    forall i, j | 0 <= i < j < |r| ensures IndexOf(c, r[i]) < IndexOf(c, r[j]) {
      DedupPrefixOrdered(c, |r|, i, j);
    }
    forall i, x | 0 <= i < |r| && x in c && x !in r ensures IndexOf(c, r[i]) < IndexOf(c, x) {
      DedupDroppedLater(c, |r|, i, x);
    }
  }

  /** Two kept subjects appear in the order of their first occurrences. */
  lemma DedupPrefixOrdered(c: seq<string>, n: nat, i: nat, j: nat)
    requires i < j < n <= |Dedup(c)|
    ensures IndexOf(c, Dedup(c)[..n][i]) < IndexOf(c, Dedup(c)[..n][j])
  {
    DedupOrder(c);
    assert Dedup(c)[..n][i] == Dedup(c)[i] && Dedup(c)[..n][j] == Dedup(c)[j];
  }

  /** A subject left out of a prefix of the deduplicated list first occurs after each kept one. */
  lemma DedupDroppedLater(c: seq<string>, n: nat, i: nat, x: string)
    requires i < n <= |Dedup(c)| && x in c && x !in Dedup(c)[..n]
    ensures IndexOf(c, Dedup(c)[..n][i]) < IndexOf(c, x)
  {
    var d := Dedup(c);
    assert x in d;
    var k :| 0 <= k < |d| && d[k] == x;
    assert forall m :: 0 <= m < n ==> d[..n][m] == d[m];
    assert i < n <= k;
    DedupOrder(c);
    assert d[..n][i] == d[i];
  }

  // -------------------------------------------------------- description

  predicate IsBlank(c: char) { c == ' ' || c == '\t' }

  predicate NoDoubleSpace(s: string) {
    forall i :: 0 <= i < |s| - 1 ==> !(s[i] == ' ' && s[i + 1] == ' ')
  }

  /** Three newlines in a row start at `i`. */
  predicate TripleAt(s: string, i: int) {
    0 <= i < |s| - 2 && s[i] == '\n' && s[i + 1] == '\n' && s[i + 2] == '\n'
  }

  ghost predicate NoTripleNewline(s: string) {
    forall i :: !TripleAt(s, i)
  }

  /** `preg_replace("/[ \t]+/", " ", $s)`. */
  function CollapseBlanks(s: string): (r: string)
    ensures '\t' !in r
    ensures NoDoubleSpace(r)
    ensures forall c :: c in r && c != ' ' ==> c in s
    ensures |r| > 0 && r[0] == ' ' ==> |s| > 0 && IsBlank(s[0])
    decreases |s|
  {
    if |s| == 0 then []
    else if IsBlank(s[0]) then
      var e := SkipWhile(s, 0, IsBlank);
      var rest := CollapseBlanks(s[e..]);
      assert forall c :: c in rest && c != ' ' ==> c in s;
      assert |rest| > 0 ==> rest[0] != ' ';
      " " + rest
    else
      var rest := CollapseBlanks(s[1..]);
      assert forall c :: c in rest && c != ' ' ==> c in s;
      [s[0]] + rest
  }

  /** `preg_replace("/\r\n|\r/", "\n", $s)`. */
  function NormalizeNewlines(s: string): (r: string)
    ensures '\r' !in r
    ensures forall c :: c in r && c != '\n' ==> c in s
    decreases |s|
  {
    if |s| == 0 then []
    else if s[0] == '\r' then
      var k := if |s| > 1 && s[1] == '\n' then 2 else 1;
      var rest := NormalizeNewlines(s[k..]);
      assert forall c :: c in rest && c != '\n' ==> c in s;
      "\n" + rest
    else
      var rest := NormalizeNewlines(s[1..]);
      assert forall c :: c in rest && c != '\n' ==> c in s;
      [s[0]] + rest
  }

  predicate IsNewline(c: char) { c == '\n' }

  /** `preg_replace("/\n{3,}/", "\n\n", $s)`. */
  function SqueezeNewlines(s: string): (r: string)
    ensures NoTripleNewline(r)
    ensures forall c :: c in r ==> c in s
    ensures |r| > 0 && r[0] == '\n' ==> |s| > 0 && s[0] == '\n'
    decreases |s|
  {
    if |s| == 0 then []
    else if s[0] == '\n' then
      var e := SkipWhile(s, 0, IsNewline);
      var rest := SqueezeNewlines(s[e..]);
      assert forall c :: c in rest ==> c in s;
      assert |rest| > 0 ==> rest[0] != '\n';
      var run := if e >= 3 then "\n\n" else s[..e];
      assert forall i :: 0 <= i < |run| ==> run[i] == '\n';
      assert forall c :: c in run ==> c in s;
      NoTripleAfterRun(run, rest);
      run + rest
    else
      var rest := SqueezeNewlines(s[1..]);
      assert forall c :: c in rest ==> c in s;
      NoTripleAfterChar(s[0], rest);
      [s[0]] + rest
  }

  /** At most two characters before a text that does not start with a newline add no triple newline. */
  lemma NoTripleAfterRun(run: string, rest: string)
    requires |run| <= 2 && (rest == [] || rest[0] != '\n') && NoTripleNewline(rest)
    ensures NoTripleNewline(run + rest)
  {
    forall i ensures !TripleAt(run + rest, i) {
      if i >= |run| {
        assert !TripleAt(rest, i - |run|);
      } else if 0 <= i && i + 2 < |run + rest| {
        assert (run + rest)[|run|] == rest[0];
      }
    }
  }

  /** A character other than a newline in front adds no triple newline. */
  lemma NoTripleAfterChar(c: char, rest: string)
    requires c != '\n' && NoTripleNewline(rest)
    ensures NoTripleNewline([c] + rest)
  {
    forall i ensures !TripleAt([c] + rest, i) {
      if i >= 1 {
        assert !TripleAt(rest, i - 1);
      }
    }
  }

  /** Trimming keeps a string free of tabs, carriage returns and triple newlines. */
  lemma TrimKeepsClean(s: string)
    requires '\t' !in s && '\r' !in s && NoTripleNewline(s)
    ensures '\t' !in PhpTrim(s) && '\r' !in PhpTrim(s) && NoTripleNewline(PhpTrim(s))
  {
    var t := PhpTrim(s);
    var k := TrimOffset(s, IsPhpSpace);
    TrimIsInfix(s, IsPhpSpace);
    assert k + |t| <= |s| && t == s[k..k + |t|];
    SliceKeepsClean(s, k, k + |t|);
  }

  /** A slice of a clean text is clean. */
  lemma SliceKeepsClean(s: string, a: nat, b: nat)
    requires a <= b <= |s|
    requires '\t' !in s && '\r' !in s && NoTripleNewline(s)
    ensures '\t' !in s[a..b] && '\r' !in s[a..b] && NoTripleNewline(s[a..b])
  {
    assert forall i :: 0 <= i < b - a ==> s[a..b][i] == s[a + i];
    assert forall i :: TripleAt(s[a..b], i) ==> TripleAt(s, a + i);
  }

  /** The text of a description given as a string or as `{ value: "..." }`. */
  function DescriptionText(v: Value): string {
    if v.Str? then v.s
    else if v.Arr? && Field(v, "value").Str? then Field(v, "value").s
    else ""
  }

  /**
   * `normalizeDescription`: entity decoding and tag stripping (`htmlToText`,
   * outside the model) followed by the white-space clean-up.
   */
  function NormalizeDescription(v: Value, htmlToText: string -> string): (r: string)
    ensures '\t' !in r && '\r' !in r
    ensures NoTripleNewline(r)
    ensures r == PhpTrim(r)
  {
    var s := SqueezeNewlines(NormalizeNewlines(CollapseBlanks(htmlToText(DescriptionText(v)))));
    TrimKeepsClean(s);
    TrimIdempotent(s, IsPhpSpace);
    PhpTrim(s)
  }

  // ------------------------------------------------------------- covers

  /** The cover id: the first numeric element of `covers`, else a numeric `cover_i`. */
  function CoverId(edition: seq<Entry>): Option<int> {
    var covers := Get(edition, StrKey("covers"));
    var coverI := Get(edition, StrKey("cover_i"));
    if covers.Arr? && HasFirst(covers) && IsNumeric(First(covers)) then Some(ToInt(First(covers)))
    else if IsNumeric(coverI) then Some(ToInt(coverI))
    else None
  }

  /** The large cover image URL for a cover id; a missing or zero id has none. */
  function CoverUrl(id: Option<int>): (r: Option<string>)
    ensures r.None? <==> id.None? || id.value == 0
    ensures r.Some? ==> r.value == CoverIdPrefix + IntToString(id.value) + "-L.jpg"
  {
    if id.Some? && id.value != 0 then Some(CoverIdPrefix + IntToString(id.value) + "-L.jpg") else None
  }

  // ------------------------------------------------------------ mapping

  /** `$a ?? $b` on optional values. */
  function OrElse<T>(a: Option<T>, b: Option<T>): Option<T> {
    if a.Some? then a else b
  }

  /** The three-letter code of a "/languages/xxx" key (prefix in any case), lower-cased. */
  function LanguageCode(key: string): (r: Option<string>)
    ensures r.Some? ==> |r.value| == 3 && forall i :: 0 <= i < 3 ==> IsAsciiLower(r.value[i])
  {
    if |key| >= 14 && Lower(key[..11]) == "/languages/"
       && forall i :: 11 <= i < 14 ==> IsAsciiUpper(key[i]) || IsAsciiLower(key[i])
    then Some(Lower(key[11..14]))
    else None
  }

  /** The code from `languages[0].key` when that key has the `/languages/xxx` form. */
  function ListedLanguage(edition: seq<Entry>): (r: Option<string>)
    ensures r.Some? ==> |r.value| == 3 && forall i :: 0 <= i < 3 ==> IsAsciiLower(r.value[i])
  {
    var langs := Get(edition, StrKey("languages"));
    if langs.Arr? && HasFirst(langs) && Field(First(langs), "key").Str? then
      LanguageCode(Field(First(langs), "key").s)
    else None
  }

  /** The language column: the code from `languages[0]`, else the plain `language` string. */
  function EditionLanguage(edition: seq<Entry>): (r: string)
    ensures PhpTrim(r) == r
    ensures ListedLanguage(edition).Some? ==> r == ListedLanguage(edition).value
    ensures ListedLanguage(edition).None? ==> r == StringOf(Get(edition, StrKey("language")))
  {
    match ListedLanguage(edition)
    case Some(code) =>
      assert !IsPhpSpace(code[0]) && !IsPhpSpace(code[2]);
      TrimNoop(code, IsPhpSpace);
      code
    case None => StringOf(Get(edition, StrKey("language")))
  }


  function EditionIsbn(edition: seq<Entry>): (r: string)
    ensures PhpTrim(r) == r
  {
    var i13 := Get(edition, StrKey("isbn_13"));
    var i10 := Get(edition, StrKey("isbn_10"));
    var plain := Get(edition, StrKey("isbn"));
    if i13.Arr? && HasFirst(i13) then StringOf(First(i13))
    else if i10.Arr? && HasFirst(i10) then StringOf(First(i10))
    else if plain.Str? then StringOf(plain)
    else ""
  }

  function EditionAuthor(edition: seq<Entry>, work: Option<seq<Entry>>): (r: string)
    ensures PhpTrim(r) == r
  {
    var byStatement := Get(edition, StrKey("by_statement"));
    var author := Get(edition, StrKey("author"));
    if byStatement.Str? then StringOf(byStatement)
    else if author.Str? then StringOf(author)
    else if work.Some? && Get(work.value, StrKey("by_statement")).Str? then StringOf(Get(work.value, StrKey("by_statement")))
    else ""
  }

  function EditionYear(edition: seq<Entry>, work: Option<seq<Entry>>): (r: Option<int>)
    ensures r.Some? ==> 0 <= r.value <= 9999
  {
    OrElse(ExtractYear(Get(edition, StrKey("publish_date"))),
      OrElse(ExtractYear(Get(edition, StrKey("publish_year"))),
        if work.Some? then
          OrElse(ExtractYear(Get(work.value, StrKey("first_publish_date"))),
                 ExtractYear(Field(Get(work.value, StrKey("created")), "value")))
        else None))
  }

  function EditionOlid(edition: seq<Entry>, olid: Option<string>): string {
    var key := Get(edition, StrKey("key"));
    var alt := Get(edition, StrKey("olid"));
    if olid.Some? then olid.value
    else if key.Str? && OlidFromKey(key.s).Some? then OlidFromKey(key.s).value
    else if alt.Str? then alt.s
    else ""
  }

  /** The publisher column: the first of `publishers`, else the plain `publisher` string when that is "" or "0". */
  function EditionPublisher(edition: seq<Entry>): (r: string)
    ensures PhpTrim(r) == r
    ensures StrTruthy(FirstString(Get(edition, StrKey("publishers")))) ==> r == FirstString(Get(edition, StrKey("publishers")))
    ensures !StrTruthy(FirstString(Get(edition, StrKey("publishers")))) ==> r == StringOf(Get(edition, StrKey("publisher")))
  {
    var first := FirstString(Get(edition, StrKey("publishers")));
    if StrTruthy(first) then first else StringOf(Get(edition, StrKey("publisher")))
  }

  function EditionSubjects(edition: seq<Entry>, work: Option<seq<Entry>>): (r: seq<string>)
    ensures |r| <= 50 && forall i, j :: 0 <= i < j < |r| ==> r[i] != r[j]
  {
    var own := NormalizeSubjects(Get(edition, StrKey("subjects")));
    if |own| == 0 && work.Some? then NormalizeSubjects(Get(work.value, StrKey("subjects"))) else own
  }

  function EditionDescription(edition: seq<Entry>, work: Option<seq<Entry>>, htmlToText: string -> string): string {
    var own := NormalizeDescription(Get(edition, StrKey("description")), htmlToText);
    if StrTruthy(own) then own
    else if work.Some? then NormalizeDescription(Get(work.value, StrKey("description")), htmlToText)
    else ""
  }

  /** An optional string column: the empty string is stored as null. */
  function NonEmpty(s: string): (r: Option<string>)
    ensures r.None? <==> s == ""
    ensures r.Some? ==> r.value == s
  {
    if s != "" then Some(s) else None
  }

  /**
   * `mapEdition`: the book record for an edition payload, an optional
   * explicit OLID and an optional work payload.
   */
  function MapEdition(edition: seq<Entry>, olid: Option<string>, work: Option<seq<Entry>>,
                      htmlToText: string -> string): (r: MappedBook)
    ensures olid.Some? ==> r.openlibraryid == olid.value
    ensures PhpTrim(r.isbn) == r.isbn && PhpTrim(r.title) == r.title && PhpTrim(r.author) == r.author
    ensures r.releaseyear.Some? ==> 0 <= r.releaseyear.value <= 9999
    ensures r.publisher.Some? ==> r.publisher.value != "" && PhpTrim(r.publisher.value) == r.publisher.value
    ensures r.language.Some? ==> r.language.value != "" && PhpTrim(r.language.value) == r.language.value
    ensures |r.subjects| <= 50 && forall i, j :: 0 <= i < j < |r.subjects| ==> r.subjects[i] != r.subjects[j]
    ensures r.coverurl.None? <==> r.coveri.None? || r.coveri.value == 0
    ensures r.coverurl.Some? ==> r.coverurl.value == CoverIdPrefix + IntToString(r.coveri.value) + "-L.jpg"
  {
    var isbn := EditionIsbn(edition);
    var title := StringOf(Get(edition, StrKey("title")));
    var author := EditionAuthor(edition, work);
    var publisher := EditionPublisher(edition);
    var lang := EditionLanguage(edition);
    var coverId := CoverId(edition);
    MappedBook(
      EditionOlid(edition, olid),
      isbn,
      title,
      author,
      EditionYear(edition, work),
      NonEmpty(publisher),
      NonEmpty(lang),
      OrElse(IntOrNull(Get(edition, StrKey("number_of_pages"))), IntOrNull(Get(edition, StrKey("pages")))),
      EditionDescription(edition, work, htmlToText),
      EditionSubjects(edition, work),
      coverId,
      CoverUrl(coverId))
  }

  /**
   * ISBN precedence: element 0 of `isbn_13`, else element 0 of `isbn_10`,
   * else the plain `isbn` string, each trimmed; otherwise the empty string.
   */
  lemma MapEditionIsbn(edition: seq<Entry>, olid: Option<string>, work: Option<seq<Entry>>, htmlToText: string -> string)
    ensures var r := MapEdition(edition, olid, work, htmlToText).isbn;
            var i13, i10, plain := Get(edition, StrKey("isbn_13")), Get(edition, StrKey("isbn_10")), Get(edition, StrKey("isbn"));
            && (i13.Arr? && HasFirst(i13) ==> r == StringOf(First(i13)))
            && (!(i13.Arr? && HasFirst(i13)) && i10.Arr? && HasFirst(i10) ==> r == StringOf(First(i10)))
            && (!(i13.Arr? && HasFirst(i13)) && !(i10.Arr? && HasFirst(i10)) && plain.Str? ==> r == PhpTrim(plain.s))
            && (!(i13.Arr? && HasFirst(i13)) && !(i10.Arr? && HasFirst(i10)) && !plain.Str? ==> r == "")
  {
    assert MapEdition(edition, olid, work, htmlToText).isbn == EditionIsbn(edition);
  }

  /** `publisher` and `language` are null exactly when their resolved text is empty, and hold that text otherwise. */
  lemma MapEditionOptionalColumns(edition: seq<Entry>, olid: Option<string>, work: Option<seq<Entry>>,
                                  htmlToText: string -> string)
    ensures var r := MapEdition(edition, olid, work, htmlToText);
            && (r.publisher.None? <==> EditionPublisher(edition) == "")
            && (r.publisher.Some? ==> r.publisher.value == EditionPublisher(edition))
            && (r.language.None? <==> EditionLanguage(edition) == "")
            && (r.language.Some? ==> r.language.value == EditionLanguage(edition))
  {
  }

  /**
   * The cover id comes from a numeric element 0 of `covers`, else from a
   * numeric `cover_i`; with neither there is no cover id and no cover URL.
   */
  lemma MapEditionCover(edition: seq<Entry>, olid: Option<string>, work: Option<seq<Entry>>, htmlToText: string -> string)
    ensures var r := MapEdition(edition, olid, work, htmlToText);
            var covers, coverI := Get(edition, StrKey("covers")), Get(edition, StrKey("cover_i"));
            && (covers.Arr? && HasFirst(covers) && IsNumeric(First(covers)) ==> r.coveri == Some(ToInt(First(covers))))
            && (!(covers.Arr? && HasFirst(covers) && IsNumeric(First(covers))) && IsNumeric(coverI) ==>
                  r.coveri == Some(ToInt(coverI)))
            && (!(covers.Arr? && HasFirst(covers) && IsNumeric(First(covers))) && !IsNumeric(coverI) ==>
                  r.coveri.None? && r.coverurl.None?)
  {
    assert MapEdition(edition, olid, work, htmlToText).coveri == CoverId(edition);
  }

  /**
   * Without an explicit OLID the record's id is the one parsed from the
   * edition's `key`, when that key yields one.
   */
  lemma MapEditionOlidFromKey(edition: seq<Entry>, work: Option<seq<Entry>>, htmlToText: string -> string)
    requires Get(edition, StrKey("key")).Str? && OlidFromKey(Get(edition, StrKey("key")).s).Some?
    ensures MapEdition(edition, None, work, htmlToText).openlibraryid == OlidFromKey(Get(edition, StrKey("key")).s).value
  {
    assert MapEdition(edition, None, work, htmlToText).openlibraryid == EditionOlid(edition, None);
  }

  /** `fromEditionJson`: an empty OLID argument counts as absent, and no work payload is used. */
  function FromEditionJson(edition: seq<Entry>, olid: string, htmlToText: string -> string): (r: MappedBook)
    ensures olid != "" ==> r.openlibraryid == olid
  {
    MapEdition(edition, if olid != "" then Some(olid) else None, None, htmlToText)
  }
}

=== FILE: book_repository.dfy ===
/**
 * BookRepository over the `book` table, keyed by `openlibraryid`: the
 * existence test and the insert-or-overwrite upsert of a mapped edition with
 * its column defaults.
 */
module BookRepository {
  import opened Wrappers
  import opened BookMapper
  import opened Php

  /** The seven non-key columns of a `book` row. */
  datatype BookRow = BookRow(isbn: string, title: string, author: string, releaseyear: int,
                             publisher: Option<string>, language: string, pages: Option<int>)

  /** The `book` table: primary key `openlibraryid`. */
  type Books = map<string, BookRow>

  /** `exists($openlibraryid)`. */
  predicate Exists(books: Books, olid: string) {
    olid in books
  }

  /** The default year a book without one is stored with. */
  const DefaultYear := 2000

  /** The default language a book without one is stored with. */
  const DefaultLanguage := "en"

  /**
   * The row `upsertFromOpenLibrary` writes for a mapped book: a missing year
   * becomes 2000 and a missing language "en"; publisher and pages stay null.
   * The string columns of a mapped book are never null, so they pass as they are.
   */
  function RowOf(b: MappedBook): (r: BookRow)
    ensures r.isbn == b.isbn && r.title == b.title && r.author == b.author
    ensures r.releaseyear == (if b.releaseyear.Some? then b.releaseyear.value else DefaultYear)
    ensures r.language == (if b.language.Some? then b.language.value else DefaultLanguage)
    ensures r.publisher == b.publisher && r.pages == b.pages
  {
    BookRow(b.isbn, b.title, b.author, b.releaseyear.GetOr(DefaultYear), b.publisher,
            b.language.GetOr(DefaultLanguage), b.pages)
  }

  /**
   * `upsertFromOpenLibrary`: inserts the book, or overwrites all seven
   * non-key columns of the row with the same id; no other row changes.
   */
  function Upsert(books: Books, b: MappedBook): (r: Books)
    ensures Exists(r, b.openlibraryid)
    ensures r[b.openlibraryid] == RowOf(b)
    ensures r.Keys == books.Keys + {b.openlibraryid}
    ensures forall id :: id in books && id != b.openlibraryid ==> id in r && r[id] == books[id]
  {
    books[b.openlibraryid := RowOf(b)]
  }

  /** Upserting the same mapped book twice is the same as once. */
  lemma UpsertIdempotent(books: Books, b: MappedBook)
    ensures Upsert(Upsert(books, b), b) == Upsert(books, b)
  {
  }

  /** The later of two upserts of one id wins, whatever the earlier one wrote. */
  lemma UpsertLastWins(books: Books, b1: MappedBook, b2: MappedBook)
    requires b1.openlibraryid == b2.openlibraryid
    ensures Upsert(Upsert(books, b1), b2) == Upsert(books, b2)
  {
  }

  /** Upserts of different ids commute. */
  lemma UpsertCommutes(books: Books, b1: MappedBook, b2: MappedBook)
    requires b1.openlibraryid != b2.openlibraryid
    ensures Upsert(Upsert(books, b1), b2) == Upsert(Upsert(books, b2), b1)
  {
  }

  /**
   * A mapped year is always a plausible year, so a stored year is either
   * that year or the default 2000: it lies in 0..9999.
   */
  lemma StoredYearInRange(edition: seq<Entry>, olid: string, htmlToText: string -> string)
    ensures var row := RowOf(FromEditionJson(edition, olid, htmlToText));
            0 <= row.releaseyear <= 9999
  {
  }
}

=== FILE: controller.dfy ===
/**
 * The request helpers every back-end controller inherits: reading the JSON
 * body and the two field validators. A thrown `InvalidArgumentException` is
 * an `Err` carrying the exception message.
 */
module Controller {
  import opened Wrappers
  import opened Text
  import opened Php

  /**
   * `body()`: `raw` is the request body (`None` when it could not be read)
   * and `decode` is `json_decode($raw, true)`, which yields `Null` on
   * malformed JSON.
   */
  function Body(raw: Option<string>, decode: string -> Value): (r: Result<seq<Entry>>)
    ensures raw.None? || PhpTrim(raw.value) == "" ==> r == Ok([])
    ensures r.Err? <==> raw.Some? && PhpTrim(raw.value) != "" && !decode(raw.value).Arr?
    ensures r.Err? ==> r.msg == "Invalid JSON body"
    ensures r.Ok? && r.value != [] ==> raw.Some? && decode(raw.value) == Arr(r.value)
  {
    if raw.None? || PhpTrim(raw.value) == "" then Ok([])
    else
      var data := decode(raw.value);
      if !data.Arr? then Err("Invalid JSON body") else Ok(data.entries)
  }

  /**
   * `requireString($b, $key)`: fails unless the key holds a non-null value
   * whose string form is not blank; returns the string form untrimmed.
   */
  function RequireString(b: seq<Entry>, key: string): (r: Result<string>)
    ensures r.Err? <==> Get(b, StrKey(key)) == Null || PhpTrim(ToStr(Get(b, StrKey(key)))) == ""
    ensures r.Err? ==> r.msg == "Missing/invalid: " + key
    ensures r.Ok? ==> PhpTrim(r.value) != ""
    ensures r.Ok? && Get(b, StrKey(key)).Str? ==> r.value == Get(b, StrKey(key)).s
    ensures r.Ok? ==> r.value == ToStr(Get(b, StrKey(key)))
  {
    var v := Get(b, StrKey(key));
    if v == Null || PhpTrim(ToStr(v)) == "" then Err("Missing/invalid: " + key)
    else Ok(ToStr(v))
  }

  /**
   * `requireInt($b, $key)`: fails with "Missing" when the key is absent or
   * null and with "Invalid" when the `(int)` cast is negative.
   */
  function RequireInt(b: seq<Entry>, key: string): (r: Result<int>)
    ensures Get(b, StrKey(key)) == Null ==> r == Err("Missing: " + key)
    ensures Get(b, StrKey(key)) != Null && ToInt(Get(b, StrKey(key))) < 0 ==> r == Err("Invalid: " + key)
    ensures r.Ok? ==> r.value >= 0 && r.value == ToInt(Get(b, StrKey(key)))
    ensures Get(b, StrKey(key)).Int? && Get(b, StrKey(key)).i >= 0 ==> r == Ok(Get(b, StrKey(key)).i)
    ensures Get(b, StrKey(key)) != Null && ToInt(Get(b, StrKey(key))) >= 0 ==> r == Ok(ToInt(Get(b, StrKey(key))))
  {
    var v := Get(b, StrKey(key));
    if v == Null then Err("Missing: " + key)
    else
      var n := ToInt(v);
      if n < 0 then Err("Invalid: " + key) else Ok(n)
  }

  /** A non-negative integer sent as its decimal string is read back unchanged. */
  lemma RequireIntDecimalString(b: seq<Entry>, key: string, n: nat)
    requires Get(b, StrKey(key)) == Str(IntToString(n))
    ensures RequireInt(b, key) == Ok(n)
  {
    IntStringRoundTrip(n);
  }

  /** A blank string is rejected whatever white space it is made of; padding around a value is kept. */
  lemma RequireStringKeepsPadding(b: seq<Entry>, key: string, s: string)
    requires Get(b, StrKey(key)) == Str(s)
    ensures RequireString(b, key).Ok? <==> exists i :: 0 <= i < |s| && !IsPhpSpace(s[i])
    ensures RequireString(b, key).Ok? ==> RequireString(b, key).value == s
  {
    TrimEmptyIff(s, IsPhpSpace);
  }
}

=== FILE: covers.dfy ===
/** The Open Library cover URL built from an edition id, shared by the stock listing and the wishlist. */
module Covers {
  import opened Text

  const OlidCoverPrefix := "https://covers.openlibrary.org/b/olid/"

  const OlidCoverSuffix := "-M.jpg?default=false"

  /** The medium-size cover of edition `olid`, with Open Library's placeholder image turned off. */
  function OlidCoverUrl(olid: string): (r: string)
    ensures StartsWith(r, OlidCoverPrefix) && EndsWith(r, OlidCoverSuffix)
    ensures |r| == |OlidCoverPrefix| + |olid| + |OlidCoverSuffix|
    ensures r[|OlidCoverPrefix|..|OlidCoverPrefix| + |olid|] == olid
  {
    OlidCoverPrefix + olid + OlidCoverSuffix
  }

  /** Distinct editions get distinct cover URLs. */
  lemma OlidCoverUrlInjective(a: string, b: string)
    requires OlidCoverUrl(a) == OlidCoverUrl(b)
    ensures a == b
  {
    assert a == OlidCoverUrl(a)[|OlidCoverPrefix|..|OlidCoverPrefix| + |a|];
  }
}

=== FILE: edit_stock.dfy ===
/**
 * The pure helpers of the stock editor page: reading an edition OLID from an
 * Open Library key or search hit, the column filters of the stock table, the
 * checks `saveStock` makes before it calls the stock API, and the search
 * pager's page count and "go to page" input.
 */
module EditStock {
  import opened Wrappers
  import opened Text
  import opened Seqs
  import opened Js

  // ------------------------------------------------------------ OLIDs

  /**
   * `extractOlidFromKey(key)`: the upper-cased last "/"-segment of the trimmed
   * key when it starts with "OL", otherwise "".
   */
  function ExtractOlidFromKey(key: JsValue): (r: string)
    ensures r == "" || StartsWith(r, "OL")
    ensures '/' !in r
    ensures Upper(r) == r
  {
    var s := JsTrim(TextOr(key));
    if s == "" then "" else OlidOfSegment(LastSegment(s, '/'))
  }

  /** A key's last segment, upper-cased, when it starts with "OL"; otherwise "". */
  function OlidOfSegment(last: string): (r: string)
    requires '/' !in last
    ensures r == "" || StartsWith(r, "OL")
    ensures '/' !in r
    ensures Upper(r) == r
    ensures StartsWith(Upper(last), "OL") ==> r == Upper(last)
    ensures !StartsWith(Upper(last), "OL") ==> r == ""
  {
    var u := Upper(last);
    UpperIdempotent(last);
    UpperKeepsSlash(last);
    if StartsWith(u, "OL") then u else ""
  }

  /** Upper-casing changes letters only, so it neither adds nor removes a '/'. */
  lemma UpperKeepsSlash(s: string)
    ensures '/' in Upper(s) <==> '/' in s
  {
    if '/' in Upper(s) {
      var i :| 0 <= i < |s| && Upper(s)[i] == '/';
      assert s[i] == '/';
    }
    if '/' in s {
      var i :| 0 <= i < |s| && s[i] == '/';
      assert Upper(s)[i] == '/';
    }
  }

  /** The shape of an Open Library OLID: "OL" followed by upper-case letters and digits. */
  predicate IsOlid(olid: string) {
    StartsWith(olid, "OL") && forall i :: 0 <= i < |olid| ==> IsDigit(olid[i]) || IsAsciiUpper(olid[i])
  }

  lemma OlidFacts(olid: string)
    requires IsOlid(olid)
    ensures '/' !in olid && Upper(olid) == olid
    ensures !IsJsSpace(olid[0]) && !IsJsSpace(olid[|olid| - 1])
    ensures JsTrim(olid) == olid
  {
    assert olid[..2] == "OL";
    assert forall i :: 0 <= i < |olid| ==> olid[i] != '/';
    TrimNoop(olid, IsJsSpace);
  }

  /** An edition key `/books/<OLID>` yields its OLID. */
  lemma ExtractOlidFromEditionKey(olid: string)
    requires IsOlid(olid)
    ensures ExtractOlidFromKey(Str("/books/" + olid)) == olid
  {
    OlidFacts(olid);
    var s := "/books/" + olid;
    assert s[0] == '/' && s[|s| - 1] == olid[|olid| - 1];
    TrimNoop(s, IsJsSpace);
    assert JsTrim(TextOr(Str(s))) == s;
    LastSegmentAfter("/books/", olid);
    assert Upper(olid) == olid;
  }

  /** The last segment of a text that ends with a separator and then a separator-free tail is that tail. */
  lemma {:induction false} LastSegmentAfter(head: string, tail: string)
    requires |head| > 0 && head[|head| - 1] == '/' && '/' !in tail
    ensures LastSegment(head + tail, '/') == tail
    decreases |tail|
  {
    if |tail| == 0 {
      assert head + tail == head;
    } else {
      var s := head + tail;
      var init := tail[..|tail| - 1];
      assert s[..|s| - 1] == head + init;
      assert tail[|tail| - 1] in tail;
      assert forall i :: 0 <= i < |init| ==> init[i] == tail[i];
      LastSegmentAfter(head, init);
      assert tail == init + [tail[|tail| - 1]];
    }
  }

  /** The upper-cased text of an optional key. */
  function UpperKey(v: JsValue): string {
    Upper(TextOr(v))
  }

  /**
   * `pickEditionOlidFromDoc(doc)`: the hit's `cover_edition_key` when it ends
   * in "M", else its first `edition_key` when that ends in "M", else "".
   */
  function PickEditionOlidFromDoc(doc: JsValue): (r: string)
    ensures r == "" || EndsWith(r, "M")
    ensures EndsWith(UpperKey(Get(doc, "cover_edition_key")), "M") ==> r == UpperKey(Get(doc, "cover_edition_key"))
    ensures r != "" ==> r == UpperKey(Get(doc, "cover_edition_key"))
                        || (Get(doc, "edition_key").Arr? && |Get(doc, "edition_key").items| > 0
                            && r == UpperKey(Get(doc, "edition_key").items[0]))
  {
    var cek := UpperKey(Get(doc, "cover_edition_key"));
    if EndsWith(cek, "M") then cek
    else
      var ek := Get(doc, "edition_key");
      if ek.Arr? && |ek.items| > 0 then
        var k := UpperKey(ek.items[0]);
        if EndsWith(k, "M") then k else ""
      else ""
  }

  /** Without a usable cover edition, the first edition key that ends in "M" is taken. */
  lemma PickFallsBackToEditionKey(doc: JsValue)
    requires !EndsWith(UpperKey(Get(doc, "cover_edition_key")), "M")
    requires Get(doc, "edition_key").Arr? && |Get(doc, "edition_key").items| > 0
    requires EndsWith(UpperKey(Get(doc, "edition_key").items[0]), "M")
    ensures PickEditionOlidFromDoc(doc) == UpperKey(Get(doc, "edition_key").items[0])
  {
  }

  /** A hit with neither key usable yields "". */
  lemma PickNothingUsable(doc: JsValue)
    requires !EndsWith(UpperKey(Get(doc, "cover_edition_key")), "M")
    requires !(Get(doc, "edition_key").Arr? && |Get(doc, "edition_key").items| > 0
               && EndsWith(UpperKey(Get(doc, "edition_key").items[0]), "M"))
    ensures PickEditionOlidFromDoc(doc) == ""
  {
  }

  // ------------------------------------------------------------ column filters

  /** `norm(s)`: the lower-cased text of an optional value. */
  function Norm(v: JsValue): string {
    Lower(TextOf(v))
  }

  /** The seven filter texts of the `col` state, lower-cased and trimmed. */
  function Filters(col: JsValue): (f: seq<string>)
    ensures |f| == 7
  {
    [ JsTrim(Norm(Get(col, "title"))),
      JsTrim(Norm(Get(col, "author"))),
      JsTrim(Norm(Get(col, "year"))),
      JsTrim(Norm(Get(col, "quality"))),
      JsTrim(Norm(Get(col, "qty"))),
      JsTrim(Norm(Get(col, "olid"))),
      JsTrim(Norm(Get(col, "isbn"))) ]
  }

  /** The seven lower-cased columns of a stock row, in the same order as the filters. */
  function Columns(r: JsValue): (c: seq<string>)
    ensures |c| == 7
  {
    [ Norm(Get(r, "title")),
      Norm(Get(r, "author")),
      Norm(Coalesce(Get(r, "releaseyear"), Get(r, "release_year"))),
      Norm(Get(r, "quality")),
      Norm(Get(r, "quantity")),
      Norm(Get(r, "openlibraryid")),
      Norm(Get(r, "isbn")) ]
  }

  /** A column passes its filter when the filter is empty or occurs in it. */
  predicate Passes(column: string, filter: string) {
    filter == "" || Contains(column, filter)
  }

  /** The row test of `filteredStockRows`: the filters are tried one after another and the first failing one rejects. */
  function Matches(f: seq<string>, r: JsValue): (keep: bool)
    requires |f| == 7
    ensures keep <==> forall i :: 0 <= i < 7 ==> Passes(Columns(r)[i], f[i])
  {
    var c := Columns(r);
    AllSeven(c, f);
    if !Passes(c[0], f[0]) then false
    else if !Passes(c[1], f[1]) then false
    else if !Passes(c[2], f[2]) then false
    else if !Passes(c[3], f[3]) then false
    else if !Passes(c[4], f[4]) then false
    else if !Passes(c[5], f[5]) then false
    else if !Passes(c[6], f[6]) then false
    else true
  }

  /** A test holds for all seven columns exactly when it holds for each of them. */
  lemma AllSeven(c: seq<string>, f: seq<string>)
    requires |c| == 7 && |f| == 7
    ensures (forall i :: 0 <= i < 7 ==> Passes(c[i], f[i])) <==>
            Passes(c[0], f[0]) && Passes(c[1], f[1]) && Passes(c[2], f[2]) && Passes(c[3], f[3])
            && Passes(c[4], f[4]) && Passes(c[5], f[5]) && Passes(c[6], f[6])
  {
    if Passes(c[0], f[0]) && Passes(c[1], f[1]) && Passes(c[2], f[2]) && Passes(c[3], f[3])
       && Passes(c[4], f[4]) && Passes(c[5], f[5]) && Passes(c[6], f[6]) {
      forall i | 0 <= i < 7 ensures Passes(c[i], f[i]) {
        assert i == 0 || i == 1 || i == 2 || i == 3 || i == 4 || i == 5 || i == 6;
      }
    }
  }

  function RowFilter(col: JsValue): JsValue -> bool {
    r => Matches(Filters(col), r)
  }

  /** `filteredStockRows`: the rows whose every non-empty column filter occurs in that column, in their order. */
  function FilteredStockRows(rows: seq<JsValue>, col: JsValue): (r: seq<JsValue>)
    ensures forall x :: x in r <==> x in rows && forall i :: 0 <= i < 7 ==> Passes(Columns(x)[i], Filters(col)[i])
    ensures |r| <= |rows|
  {
    var r := Filter(rows, RowFilter(col));
    forall x ensures x in r <==> x in rows && Matches(Filters(col), x) {
      FilterMembership(rows, RowFilter(col), x);
    }
    r
  }

  /** With every filter blank, all rows are shown, in their order. */
  lemma BlankFiltersKeepAll(rows: seq<JsValue>, col: JsValue)
    requires forall i :: 0 <= i < 7 ==> Filters(col)[i] == ""
    ensures FilteredStockRows(rows, col) == rows
  {
    FilterAll(rows, RowFilter(col));
  }

  /** Filtering keeps the rows' relative order: filtering a concatenation filters each part. */
  lemma FilteredKeepsOrder(a: seq<JsValue>, b: seq<JsValue>, col: JsValue)
    ensures FilteredStockRows(a + b, col) == FilteredStockRows(a, col) + FilteredStockRows(b, col)
  {
    FilterConcat(a, b, RowFilter(col));
  }

  // ------------------------------------------------------------ saving

  /** The payload `saveStock` sends to the stock API. */
  datatype StockRequest = StockRequest(olid: string, quality: real, quantity: real, importIfMissing: bool)

  /** What `saveStock` does with its inputs: reject them with a message, or send a request. */
  datatype SaveOutcome = Rejected(message: string) | Send(request: StockRequest)

  const NoEditionMessage := "Please select an edition and click “Load edition info” before saving."
  const InvalidOlidMessage := "Selected edition is invalid. Please pick a valid edition OLID ending with 'M'."
  const QualityMessage := "Quality must be between 1 and 5."
  const QuantityMessage := "Quantity must be 0 or more."

  /** An edition has been loaded and did not fail. */
  predicate EditionLoaded(selected: JsValue) {
    Truthy(selected) && !Truthy(Get(selected, "error"))
  }

  /** The OLID `saveStock` would send for a loaded edition. */
  function EditionOlid(selected: JsValue): string {
    Upper(JsTrim(ExtractOlidFromKey(Get(selected, "key"))))
  }

  predicate QualityOk(n: JsNumber) {
    n.Finite? && 1.0 <= n.x <= 5.0
  }

  predicate QuantityOk(n: JsNumber) {
    n.Finite? && n.x >= 0.0
  }

  /**
   * The checks at the top of `saveStock`, in their order: a loaded edition,
   * an OLID ending in "M", a finite quality in 1..5, a finite quantity of at
   * least 0; a request is sent only when all of them pass.
   */
  function SaveStock(selected: JsValue, quality: JsValue, quantity: JsValue): (r: SaveOutcome)
    ensures r.Send? <==> EditionLoaded(selected) && EndsWith(EditionOlid(selected), "M")
                         && QualityOk(ToNumber(quality)) && QuantityOk(ToNumber(quantity))
    ensures r.Send? ==> r.request == StockRequest(EditionOlid(selected), ToNumber(quality).x, ToNumber(quantity).x, true)
    ensures r.Send? ==> 1.0 <= r.request.quality <= 5.0 && r.request.quantity >= 0.0
    ensures !EditionLoaded(selected) ==> r == Rejected(NoEditionMessage)
    ensures EditionLoaded(selected) && !EndsWith(EditionOlid(selected), "M") ==> r == Rejected(InvalidOlidMessage)
    ensures EditionLoaded(selected) && EndsWith(EditionOlid(selected), "M") && !QualityOk(ToNumber(quality)) ==>
              r == Rejected(QualityMessage)
    ensures (EditionLoaded(selected) && EndsWith(EditionOlid(selected), "M") && QualityOk(ToNumber(quality)) &&
             !QuantityOk(ToNumber(quantity))) ==> r == Rejected(QuantityMessage)
  {
    if !EditionLoaded(selected) then Rejected(NoEditionMessage)
    else
      var olid := EditionOlid(selected);
      if olid == "" || !EndsWith(olid, "M") then Rejected(InvalidOlidMessage)
      else
        var q := ToNumber(quality);
        var qty := ToNumber(quantity);
        if !QualityOk(q) then Rejected(QualityMessage)
        else if !QuantityOk(qty) then Rejected(QuantityMessage)
        else Send(StockRequest(olid, q.x, qty.x, true))
  }

  /** The OLID sent is always the one read from the edition's `/books/<OLID>` key. */
  lemma SaveStockSendsEditionOlid(olid: string, quality: int, quantity: int)
    requires IsOlid(olid) && EndsWith(olid, "M")
    requires 1 <= quality <= 5 && quantity >= 0
    ensures SaveStock(EditionWithKey(olid), Num(quality), Num(quantity))
            == Send(StockRequest(olid, quality as real, quantity as real, true))
  {
    EditionWithKeyLoaded(olid);
    EditionWithKeyOlid(olid);
    SaveStockAccepts(EditionWithKey(olid), quality, quantity);
  }

  /** Whole-number inputs in range, with a usable loaded edition, are sent as they are. */
  lemma SaveStockAccepts(sel: JsValue, quality: int, quantity: int)
    requires EditionLoaded(sel) && EndsWith(EditionOlid(sel), "M")
    requires 1 <= quality <= 5 && quantity >= 0
    ensures SaveStock(sel, Num(quality), Num(quantity))
            == Send(StockRequest(EditionOlid(sel), quality as real, quantity as real, true))
  {
    assert QualityOk(ToNumber(Num(quality))) && QuantityOk(ToNumber(Num(quantity))) by {
      NumberOfNum(quality);
      NumberOfNum(quantity);
    }
    var r := SaveStock(sel, Num(quality), Num(quantity));
    assert r.Send?;
    var o := EditionOlid(sel);
    assert r.request == StockRequest(o, ToNumber(Num(quality)).x, ToNumber(Num(quantity)).x, true);
    NumberOfNum(quality);
    NumberOfNum(quantity);
  }

  lemma NumberOfNum(n: int)
    ensures ToNumber(Num(n)) == Finite(n as real)
  {
  }

  /** A loaded edition record with key `/books/<OLID>`. */
  function EditionWithKey(olid: string): JsValue {
    Obj([Prop("key", Str("/books/" + olid))])
  }

  lemma EditionWithKeyLoaded(olid: string)
    ensures EditionLoaded(EditionWithKey(olid))
  {
    assert Get(EditionWithKey(olid), "error") == Undefined;
  }

  lemma EditionWithKeyOlid(olid: string)
    requires IsOlid(olid)
    ensures EditionOlid(EditionWithKey(olid)) == olid
  {
    var sel := EditionWithKey(olid);
    var key := Str("/books/" + olid);
    assert Get(sel, "key") == key;
    assert ExtractOlidFromKey(key) == olid by { ExtractOlidFromEditionKey(olid); }
    assert Upper(JsTrim(olid)) == olid by { OlidFacts(olid); }
  }

  // ------------------------------------------------------------ paging

  /** `numFound` of a search response when it is a number, else 0. */
  function NumFound(searchRes: JsValue): int {
    var n := Get(searchRes, "numFound");
    if n.Num? then n.n else 0
  }

  /** `totalPages`: 1 when there is nothing or no page size, else the pages of `limit` hits needed for all of them, at least 1. */
  function TotalPages(numFound: int, limit: int): (r: int)
    ensures r >= 1
    ensures numFound == 0 || limit == 0 ==> r == 1
    ensures numFound > 0 && limit > 0 ==> (r - 1) * limit < numFound <= r * limit
  {
    if numFound == 0 || limit == 0 then 1
    else
      var c := CeilDiv(numFound, limit);
      if c < 1 then 1 else c
  }

  /** `goToTypedPage`: the typed page number, 1 when it is missing, blank, zero or not a number, clamped into [1, totalPages]. */
  function GoToTypedPage(gotoPage: string, totalPages: int): (r: int)
    ensures r >= 1
    ensures totalPages >= 1 ==> r <= totalPages
    ensures ParseInt(gotoPage).None? ==> r == 1
    ensures ParseInt(gotoPage).Some? && 1 <= ParseInt(gotoPage).value <= totalPages ==> r == ParseInt(gotoPage).value
    ensures ParseInt(gotoPage).Some? && ParseInt(gotoPage).value > totalPages >= 1 ==> r == totalPages
    ensures ParseInt(gotoPage).Some? && ParseInt(gotoPage).value < 1 ==> r == 1
  {
    ParseIntOfIntString(1);
    assert IntToString(1) == "1";
    var typed := ParseIntOr1(if gotoPage == "" then "1" else gotoPage);
    var m := if totalPages < typed then totalPages else typed;
    if m < 1 then 1 else m
  }

  /** Typing the page that is shown goes to that page. */
  lemma GoToShownPage(page: int, totalPages: int)
    requires 1 <= page <= totalPages
    ensures GoToTypedPage(IntToString(page), totalPages) == page
  {
    ParseIntOfIntString(page);
  }
}

=== FILE: http.dfy ===
/**
 * The URL building and response-body parsing of the front end's HTTP
 * helpers. The configured base URL and prefix are parameters; `JSON.parse`
 * is the foreign function `parse`, `None` standing for a thrown SyntaxError.
 */
module Http {
  import opened Wrappers
  import opened Text
  import opened Js

  /** `joinUrl(base, path)`. */
  function JoinUrl(base: string, path: string): (r: string)
    ensures base == "" ==> r == path
    ensures base != "" ==> StartsWith(r, base) && r[|base|..] == path
  {
    if base == "" then path else base + path
  }

  /** `API_PREFIX`: the configured prefix, "/api" when unset or empty. */
  function ApiPrefix(configured: string): (r: string)
    ensures configured != "" ==> r == configured
    ensures r != ""
  {
    if configured == "" then "/api" else configured
  }

  /** Prepends "/" unless the text already starts with one. */
  function WithSlash(s: string): (r: string)
    ensures StartsWith(r, "/")
    ensures StartsWith(s, "/") ==> r == s
    ensures !StartsWith(s, "/") ==> r == "/" + s
  {
    if StartsWith(s, "/") then s else "/" + s
  }

  /**
   * `apiPath(path)`: a path already under "/api/" is kept; any other path
   * is put under the prefix, each part starting with "/".
   */
  function ApiPath(path: string, configuredPrefix: string): (r: string)
    ensures StartsWith(path, "/api/") ==> r == path
    ensures !StartsWith(path, "/api/") ==>
              r == WithSlash(ApiPrefix(configuredPrefix)) + WithSlash(path)
    ensures StartsWith(r, "/")
  {
    if StartsWith(path, "/api/") then path
    else WithSlash(ApiPrefix(configuredPrefix)) + WithSlash(path)
  }

  /**
   * With the default prefix, "books" and "/books" both become "/api/books",
   * and "/api/books" stays as it is.
   */
  lemma ApiPathDefault(rest: string)
    requires !StartsWith(rest, "/") && !StartsWith(rest, "api/")
    ensures ApiPath(rest, "") == "/api/" + rest
    ensures ApiPath("/" + rest, "") == "/api/" + rest
    ensures ApiPath("/api/" + rest, "") == "/api/" + rest
  {
    assert WithSlash(ApiPrefix("")) == "/api" by {
      assert StartsWith("/api", "/");
    }
    assert ApiPath(rest, "") == "/api/" + rest by {
      NotUnderApi(rest);
      ConcatAssoc("/api", "/", rest);
    }
    assert ApiPath("/" + rest, "") == "/api/" + rest by {
      SlashNotUnderApi(rest);
      assert StartsWith("/" + rest, "/");
      ConcatAssoc("/api", "/", rest);
    }
    assert StartsWith("/api/" + rest, "/api/") by {
      assert ("/api/" + rest)[..5] == "/api/";
    }
  }

  lemma NotUnderApi(rest: string)
    requires !StartsWith(rest, "/")
    ensures !StartsWith(rest, "/api/")
  {
    if |rest| >= 5 {
      assert rest[..1] == rest[..5][..1];
    }
  }

  lemma SlashNotUnderApi(rest: string)
    requires !StartsWith(rest, "api/")
    ensures !StartsWith("/" + rest, "/api/")
  {
    if |rest| >= 4 {
      assert rest[..4] == ("/" + rest)[..5][1..];
    }
  }

  /** `apiPath` applied to its own output changes nothing once the result is under "/api/". */
  lemma ApiPathIdempotent(path: string, configuredPrefix: string)
    requires StartsWith(ApiPath(path, configuredPrefix), "/api/")
    ensures ApiPath(ApiPath(path, configuredPrefix), configuredPrefix) == ApiPath(path, configuredPrefix)
  {
  }

  /**
   * `parseJson(res)` for a body text `txt`: null for an empty body, the
   * parsed value when it parses, and otherwise an object whose `error` is
   * the text, or "HTTP <status>" when the text is empty.
   */
  function ParseJson(txt: string, status: int, parse: string -> Option<JsValue>): (r: JsValue)
    ensures txt == "" ==> r == Null
    ensures txt != "" && parse(txt).Some? ==> r == parse(txt).value
    ensures txt != "" && parse(txt).None? ==> Get(r, "error") == Str(txt)
  {
    if txt == "" then Null
    else match parse(txt)
      case Some(v) => v
      case None => Obj([Prop("error", Str(if txt != "" then txt else "HTTP " + IntToString(status)))])
  }

  /**
   * The "HTTP <status>" fallback is never used: the parse only runs on a
   * non-empty text, so an error object always carries the text itself.
   */
  lemma ParseJsonNeverStatusFallback(txt: string, status: int, parse: string -> Option<JsValue>)
    requires parse(txt).None? || txt == ""
    ensures ParseJson(txt, status, parse) == Null
            || ParseJson(txt, status, parse) == Obj([Prop("error", Str(txt))])
  {
  }
}

=== FILE: js_value.dfy ===
/**
 * The JavaScript values the front end's helpers handle, and the built-in
 * conversions they use: truthiness, `??`, `?.`, `String(v)`, `Number(v)`
 * and `parseInt(s, 10)`. Numbers are integers here; fractional and
 * non-finite numbers only arise as results of `Number`.
 */
module Js {
  import opened Wrappers
  import opened Text
  import Php

  datatype JsValue =
    | Undefined
    | Null
    | Bool(b: bool)
    | Num(n: int)
    | Str(s: string)
    | Arr(items: seq<JsValue>)
    | Obj(props: seq<Prop>)

  /** An own property of an object, in insertion order. */
  datatype Prop = Prop(name: string, val: JsValue)

  /** `v?.name`: the property of an object, `undefined` for anything else or a missing name. */
  function Get(v: JsValue, name: string): JsValue {
    if v.Obj? then Lookup(v.props, name) else Undefined
  }

  function Lookup(props: seq<Prop>, name: string): (r: JsValue)
    ensures r != Undefined ==> exists i :: 0 <= i < |props| && props[i] == Prop(name, r)
    decreases |props|
  {
    if |props| == 0 then Undefined
    else if props[0].name == name then props[0].val
    else Lookup(props[1..], name)
  }

  /** `{...v, [name]: val}` on an object: an existing property is overwritten in place, a new one is appended. */
  function SetProp(props: seq<Prop>, name: string, val: JsValue): (r: seq<Prop>)
    ensures Lookup(r, name) == val
    ensures forall other :: other != name ==> Lookup(r, other) == Lookup(props, other)
    decreases |props|
  {
    if |props| == 0 then [Prop(name, val)]
    else if props[0].name == name then [Prop(name, val)] + props[1..]
    else [props[0]] + SetProp(props[1..], name, val)
  }

  /** JavaScript truthiness: `undefined`, `null`, `false`, `0` and `""` are falsy. */
  predicate Truthy(v: JsValue) {
    match v
    case Undefined => false
    case Null => false
    case Bool(b) => b
    case Num(n) => n != 0
    case Str(s) => s != ""
    case _ => true
  }

  /** `a || b`. */
  function Or(a: JsValue, b: JsValue): (r: JsValue)
    ensures Truthy(a) ==> r == a
    ensures !Truthy(a) ==> r == b
  {
    if Truthy(a) then a else b
  }

  predicate IsNullish(v: JsValue) {
    v == Undefined || v == Null
  }

  /** `a ?? b`. */
  function Coalesce(a: JsValue, b: JsValue): (r: JsValue)
    ensures !IsNullish(a) ==> r == a
    ensures IsNullish(a) ==> r == b
  {
    if IsNullish(a) then b else a
  }

  /** `String(v)`; an array joins its elements with "," (null and undefined as ""). */
  function ToString(v: JsValue): string
    decreases v
  {
    match v
    case Undefined => "undefined"
    case Null => "null"
    case Bool(b) => if b then "true" else "false"
    case Num(n) => IntToString(n)
    case Str(s) => s
    case Arr(items) => JoinItems(items)
    case Obj(_) => "[object Object]"
  }

  function JoinItems(items: seq<JsValue>): string
    decreases items
  {
    if |items| == 0 then ""
    else
      var head := if IsNullish(items[0]) then "" else ToString(items[0]);
      if |items| == 1 then head else head + "," + JoinItems(items[1..])
  }

  /** `String(v ?? "")` and `String(v || "")`, the two ways the helpers read an optional text. */
  function TextOf(v: JsValue): (r: string)
    ensures IsNullish(v) ==> r == ""
    ensures v.Str? ==> r == v.s
  {
    ToString(Coalesce(v, Str("")))
  }

  function TextOr(v: JsValue): (r: string)
    ensures !Truthy(v) ==> r == ""
    ensures v.Str? ==> r == v.s
  {
    ToString(Or(v, Str("")))
  }

  // ------------------------------------------------------------ numbers

  /** The outcome of `Number(v)`. */
  datatype JsNumber = NaN | Finite(x: real)

  /**
   * `Number(s)` for a string: blank is 0, a trimmed decimal literal is its
   * value, anything else is NaN.
   */
  function StringToNumber(s: string): (r: JsNumber)
    ensures JsTrim(s) == "" ==> r == Finite(0.0)
  {
    var t := JsTrim(s);
    if t == "" then Finite(0.0)
    else
      match Php.LeadingNumber(t)
      case Some(n) => if n.end == |t| then Finite(n.value) else NaN
      case None => NaN
  }

  /** `Number(v)`. */
  function ToNumber(v: JsValue): JsNumber {
    match v
    case Undefined => NaN
    case Null => Finite(0.0)
    case Bool(b) => Finite(if b then 1.0 else 0.0)
    case Num(n) => Finite(n as real)
    case Str(s) => StringToNumber(s)
    case Arr(_) => StringToNumber(ToString(v))
    case Obj(_) => NaN
  }

  /** `a === b` on two numbers: NaN equals nothing, not even itself. */
  predicate SameNumber(a: JsNumber, b: JsNumber) {
    a.Finite? && b.Finite? && a.x == b.x
  }

  /** The decimal rendering of an integer reads back as that integer. */
  lemma NumberOfIntString(n: int)
    ensures StringToNumber(IntToString(n)) == Finite(n as real)
  {
    var s := IntToString(n);
    Php.IntStringRoundTrip(n);
    assert s[0] == '-' || IsDigit(s[0]);
    assert IsDigit(s[|s| - 1]);
    TrimNoop(s, IsJsSpace);
    Php.LeadingNumberOfIntString(n);
  }

  /**
   * `parseInt(s, 10)`: leading white space, an optional sign, then the
   * longest run of decimal digits; `None` (NaN) when there is no digit.
   */
  function ParseInt(s: string): (r: Option<int>)
    ensures r.None? <==> var i := TrimOffset(s, IsJsSpace);
                         var j := if i < |s| && (s[i] == '-' || s[i] == '+') then i + 1 else i;
                         j == |s| || !IsDigit(s[j])
  {
    var i := TrimOffset(s, IsJsSpace);
    var j := if i < |s| && (s[i] == '-' || s[i] == '+') then i + 1 else i;
    var k := SkipWhile(s, j, IsDigit);
    if k == j then None
    else
      DigitSpan(s, j, k);
      var v: int := DigitsValue(s[j..k]);
      Some(if j > i && s[i] == '-' then -v else v)
  }

  /** `parseInt` reads an integer's own rendering back. */
  lemma ParseIntOfIntString(n: int)
    ensures ParseInt(IntToString(n)) == Some(n)
  {
    var s := IntToString(n);
    var m: nat := if n >= 0 then n else -n;
    var d := NatToString(m);
    var i1 := if n >= 0 then 0 else 1;
    assert s[i1..] == d;
    assert !IsJsSpace(s[0]);
    assert TrimOffset(s, IsJsSpace) == 0 by { assert SkipWhile(s, 0, IsJsSpace) == 0; }
    SkipAllDigits(s, i1);
    assert s[i1..|s|] == d;
    assert DigitsValue(s[i1..|s|]) == m;
  }

  /**
   * `Math.ceil(n / d)` for integers, `d` non-zero: the least integer not
   * below the quotient. A negative divisor divides `-n` by `-d` instead.
   */
  function CeilDiv(n: int, d: int): (r: int)
    requires d != 0
    ensures d > 0 ==> (r - 1) * d < n <= r * d
    ensures d < 0 ==> r * d <= n < (r - 1) * d
  {
    if d > 0 then CeilDivPositive(n, d); -((-n) / d)
    else
      CeilDivPositive(-n, -d);
      var r := -(n / (-d));
      assert (r - 1) * (-d) == -((r - 1) * d) && r * (-d) == -(r * d);
      r
  }

  /** For a positive divisor, the negated floor of the negated quotient is the fewest multiples that reach `n`. */
  lemma CeilDivPositive(n: int, d: int)
    requires d > 0
    ensures (-((-n) / d) - 1) * d < n <= -((-n) / d) * d
  {
    var q := (-n) / d;
    var m := (-n) % d;
    assert -n == q * d + m && 0 <= m < d;
    assert -q * d == n + m;
    assert (-q - 1) * d == n + m - d;
  }

  /** `parseInt(s, 10) || 1`: NaN and zero fall back to 1. */
  function ParseIntOr1(s: string): (r: int)
    ensures r != 0
    ensures ParseInt(s).Some? && ParseInt(s).value != 0 ==> r == ParseInt(s).value
  {
    match ParseInt(s)
    case Some(v) => if v != 0 then v else 1
    case None => 1
  }
}

=== FILE: lending.dfy ===
/**
 * The lending desk's pure helpers: converting between the database's
 * "YYYY-MM-DD HH:MM:SS" timestamps and the "YYYY-MM-DDTHH:MM" values of a
 * datetime-local input, the checks before a rental request is approved, and
 * the colour class of a status badge.
 */
module Lending {
  import opened Text
  import opened Seqs
  import opened Js

  // ------------------------------------------------------------ timestamps

  /** `toDatetimeLocalValue(dt)`: "" for a falsy value, else the first space turned into "T", cut to 16 characters. */
  function ToDatetimeLocalValue(dt: JsValue): (r: string)
    ensures !Truthy(dt) ==> r == ""
    ensures |r| <= 16
    ensures Truthy(dt) && |ToString(dt)| >= 16 ==> |r| == 16
  {
    if !Truthy(dt) then ""
    else JsSlice(ReplaceFirst(ToString(dt), ' ', 'T'), 0, 16)
  }

  /** `fromDatetimeLocalValue(v)`: "" for a blank value, else the trimmed value with its first "T" turned into a space, plus ":00". */
  function FromDatetimeLocalValue(v: JsValue): (r: string)
    ensures r == "" <==> JsTrim(TextOr(v)) == ""
    ensures r != "" ==> EndsWith(r, ":00") && |r| == |JsTrim(TextOr(v))| + 3
    ensures r != "" ==> 'T' !in JsTrim(TextOr(v)) ==> r == JsTrim(TextOr(v)) + ":00"
    ensures forall k :: 0 <= k < |JsTrim(TextOr(v))| && JsTrim(TextOr(v))[k] == 'T' && 'T' !in JsTrim(TextOr(v))[..k] ==>
              r == JsTrim(TextOr(v))[..k] + " " + JsTrim(TextOr(v))[k + 1..] + ":00"
  {
    var s := JsTrim(TextOr(v));
    if s == "" then ""
    else
      var r := ReplaceFirst(s, 'T', ' ') + ":00";
      assert r[|r| - 3..] == ":00";
      assert forall k :: 0 <= k < |s| && s[k] == 'T' && 'T' !in s[..k] ==> r == s[..k] + " " + s[k + 1..] + ":00" by {
        forall k | 0 <= k < |s| && s[k] == 'T' && 'T' !in s[..k] ensures r == s[..k] + " " + s[k + 1..] + ":00" {
          ReplaceAt(s, 'T', ' ', k);
        }
      }
      r
  }

  /** Two decimal digits at offset `i`. */
  predicate TwoDigits(s: string, i: nat) {
    i + 2 <= |s| && IsDigit(s[i]) && IsDigit(s[i + 1])
  }

  /** The value shape of a datetime-local input: "YYYY-MM-DDTHH:MM". */
  predicate IsLocalValue(v: string) {
    && |v| == 16
    && TwoDigits(v, 0) && TwoDigits(v, 2) && v[4] == '-' && TwoDigits(v, 5) && v[7] == '-'
    && TwoDigits(v, 8) && v[10] == 'T' && TwoDigits(v, 11) && v[13] == ':' && TwoDigits(v, 14)
  }

  /** The database's shape: "YYYY-MM-DD HH:MM:SS". */
  predicate IsDbDatetime(d: string) {
    && |d| == 19
    && TwoDigits(d, 0) && TwoDigits(d, 2) && d[4] == '-' && TwoDigits(d, 5) && d[7] == '-'
    && TwoDigits(d, 8) && d[10] == ' ' && TwoDigits(d, 11) && d[13] == ':' && TwoDigits(d, 14)
    && d[16] == ':' && TwoDigits(d, 17)
  }

  /** The local value with its date/time separator turned into a space and zero seconds appended. */
  function AsDb(v: string): string
    requires |v| == 16
  {
    v[..10] + " " + v[11..] + ":00"
  }

  /** Replacing the first occurrence of a character, when it is known to be at `k`, replaces `k`. */
  lemma ReplaceAt(s: string, from: char, to: char, k: nat)
    requires k < |s| && s[k] == from && from !in s[..k]
    ensures ReplaceFirst(s, from, to) == s[..k] + [to] + s[k + 1..]
  {
    var r := ReplaceFirst(s, from, to);
    var j :| ReplacedAt(s, from, to, r, j);
  }

  lemma LocalValueTrim(v: string)
    requires IsLocalValue(v)
    ensures JsTrim(v) == v
  {
    assert !IsJsSpace(v[0]) && !IsJsSpace(v[15]);
    TrimNoop(v, IsJsSpace);
  }

  lemma LocalValueSeparator(v: string)
    requires IsLocalValue(v)
    ensures ReplaceFirst(v, 'T', ' ') == v[..10] + " " + v[11..]
  {
    assert forall i :: 0 <= i < 10 ==> v[..10][i] == v[i];
    ReplaceAt(v, 'T', ' ', 10);
  }

  lemma AsDbShape(v: string)
    requires IsLocalValue(v)
    ensures IsDbDatetime(AsDb(v))
    ensures AsDb(v)[..16] == v[..10] + " " + v[11..]
  {
  }

  /** A picked datetime-local value is stored as that moment with zero seconds. */
  lemma FromLocalValue(v: string)
    requires IsLocalValue(v)
    ensures FromDatetimeLocalValue(Str(v)) == AsDb(v)
    ensures IsDbDatetime(AsDb(v))
  {
    assert TextOr(Str(v)) == v;
    LocalValueTrim(v);
    LocalValueSeparator(v);
    AsDbShape(v);
  }

  lemma DbSeparator(d: string)
    requires IsDbDatetime(d)
    ensures ReplaceFirst(d, ' ', 'T') == d[..10] + "T" + d[11..]
  {
    assert forall i :: 0 <= i < 10 ==> d[..10][i] == d[i];
    ReplaceAt(d, ' ', 'T', 10);
  }

  /** A stored timestamp is shown as its date, "T", and its hours and minutes. */
  lemma ToLocalOfDb(d: string)
    requires IsDbDatetime(d)
    ensures ToDatetimeLocalValue(Str(d)) == d[..10] + "T" + d[11..16]
  {
    assert Truthy(Str(d)) && ToString(Str(d)) == d;
    var t := ReplaceFirst(d, ' ', 'T');
    assert t == d[..10] + "T" + d[11..] by { DbSeparator(d); }
    CutAfterSeparator(d, t);
  }

  /** The first sixteen characters of a timestamp with its separator replaced. */
  lemma CutAfterSeparator(d: string, t: string)
    requires |d| == 19 && t == d[..10] + "T" + d[11..]
    ensures JsSlice(t, 0, 16) == d[..10] + "T" + d[11..16]
  {
    var u := d[..10] + "T" + d[11..16];
    assert |t| == 19 && |u| == 16;
    forall i | 0 <= i < 16 ensures t[i] == u[i] {
      if i > 10 {
        assert t[i] == d[i] && u[i] == d[i];
      }
    }
    assert t[..16] == u;
  }

  lemma LocalOfDbShape(d: string)
    requires IsDbDatetime(d)
    ensures IsLocalValue(d[..10] + "T" + d[11..16])
  {
  }

  /** Round trip: a picked value, stored and shown again, is the value picked. */
  lemma LocalRoundTrip(v: string)
    requires IsLocalValue(v)
    ensures ToDatetimeLocalValue(Str(FromDatetimeLocalValue(Str(v)))) == v
  {
    var d := FromDatetimeLocalValue(Str(v));
    assert d == AsDb(v) && IsDbDatetime(d) by { FromLocalValue(v); }
    assert ToDatetimeLocalValue(Str(d)) == d[..10] + "T" + d[11..16] by { ToLocalOfDb(d); }
    assert d[..10] + "T" + d[11..16] == v by { AsDbParts(v); }
  }

  lemma AsDbParts(v: string)
    requires IsLocalValue(v)
    ensures AsDb(v)[..10] + "T" + AsDb(v)[11..16] == v
  {
    var d := AsDb(v);
    assert d[..10] == v[..10] && d[11..16] == v[11..16];
    assert v == v[..10] + "T" + v[11..16];
  }

  /** Round trip the other way: a stored timestamp, shown and stored again, keeps everything but its seconds. */
  lemma DbRoundTrip(d: string)
    requires IsDbDatetime(d)
    ensures IsLocalValue(ToDatetimeLocalValue(Str(d)))
    ensures FromDatetimeLocalValue(Str(ToDatetimeLocalValue(Str(d)))) == d[..16] + ":00"
    ensures d[17..] == "00" ==> FromDatetimeLocalValue(Str(ToDatetimeLocalValue(Str(d)))) == d
  {
    var v := ToDatetimeLocalValue(Str(d));
    assert v == d[..10] + "T" + d[11..16] by { ToLocalOfDb(d); }
    assert IsLocalValue(v) by { LocalOfDbShape(d); }
    assert FromDatetimeLocalValue(Str(v)) == AsDb(v) by { FromLocalValue(v); }
    assert AsDb(v) == d[..16] + ":00" by { DbParts(d); }
    if d[17..] == "00" {
      DbZeroSeconds(d);
    }
  }

  lemma DbZeroSeconds(d: string)
    requires IsDbDatetime(d) && d[17..] == "00"
    ensures d[..16] + ":00" == d
  {
    var e := d[..16] + ":00";
    assert |e| == |d|;
    forall i | 0 <= i < |d| ensures e[i] == d[i] {
      if i >= 17 {
        assert d[i] == d[17..][i - 17];
      }
    }
  }

  lemma DbParts(d: string)
    requires IsDbDatetime(d)
    ensures AsDb(d[..10] + "T" + d[11..16]) == d[..16] + ":00"
  {
    var v := d[..10] + "T" + d[11..16];
    assert v[..10] == d[..10] && v[11..] == d[11..16];
  }

  // ------------------------------------------------------------ order

  /** Storing keeps the order of picked values: string comparison of the stored forms agrees with that of the picks. */
  lemma AsDbKeepsOrder(v1: string, v2: string)
    requires IsLocalValue(v1) && IsLocalValue(v2)
    ensures LexLe(AsDb(v1), AsDb(v2)) <==> LexLe(v1, v2)
    ensures AsDb(v1) == AsDb(v2) <==> v1 == v2
  {
    var d1, d2 := AsDb(v1), AsDb(v2);
    if v1 == v2 {
      LexLeReflexive(v1);
      LexLeReflexive(d1);
    } else {
      var k := FirstDifference(v1, v2);
      assert k != 10;
      assert d1[..k] == d2[..k] by {
        forall i | 0 <= i < k ensures d1[i] == d2[i] {
          if i != 10 { assert v1[..k][i] == v2[..k][i]; }
        }
      }
      assert d1[k] == v1[k] && d2[k] == v2[k];
      LexLeFirstDifference(v1, v2, k);
      LexLeFirstDifference(d1, d2, k);
    }
  }

  lemma {:induction false} LexLeReflexive(a: string)
    ensures LexLe(a, a)
    decreases |a|
  {
    if |a| > 0 {
      LexLeReflexive(a[1..]);
    }
  }

  /** The first index where two equally long, different strings differ. */
  function FirstDifference(a: string, b: string): (k: nat)
    requires |a| == |b| && a != b
    ensures k < |a| && a[..k] == b[..k] && a[k] != b[k]
    decreases |a|
  {
    assert |a| > 0;
    if a[0] != b[0] then 0
    else
      assert a == [a[0]] + a[1..] && b == [b[0]] + b[1..];
      var k := FirstDifference(a[1..], b[1..]);
      assert a[..k + 1] == [a[0]] + a[1..][..k];
      assert b[..k + 1] == [b[0]] + b[1..][..k];
      k + 1
  }

  // ------------------------------------------------------------ approving

  /** What `onApprove` does: nothing, an error message, or the approve call with its arguments. */
  datatype ApproveOutcome =
    | NoAction
    | Invalid(message: string)
    | Call(rentalId: JsNumber, startAt: string, endAt: string)

  const TimesRequired := "Start and end time are required."
  const EndAfterStart := "End must be after start."

  /**
   * `onApprove`: without a rental id nothing happens; blank times or an end
   * that does not come after the start (as strings) are refused; otherwise
   * the request is approved with the stored forms of both times.
   */
  function OnApprove(item: JsValue, startAt: JsValue, endAt: JsValue): (r: ApproveOutcome)
    ensures r.Call? <==> Truthy(Get(item, "rentalid")) && FromDatetimeLocalValue(startAt) != ""
                         && FromDatetimeLocalValue(endAt) != ""
                         && !LexLe(FromDatetimeLocalValue(endAt), FromDatetimeLocalValue(startAt))
    ensures r.Call? ==> r.startAt == FromDatetimeLocalValue(startAt) && r.endAt == FromDatetimeLocalValue(endAt)
    ensures r.Call? ==> r.rentalId == ToNumber(Get(item, "rentalid"))
    ensures !Truthy(Get(item, "rentalid")) ==> r == NoAction
    ensures Truthy(Get(item, "rentalid")) && (FromDatetimeLocalValue(startAt) == "" || FromDatetimeLocalValue(endAt) == "") ==>
              r == Invalid(TimesRequired)
    ensures (Truthy(Get(item, "rentalid")) && FromDatetimeLocalValue(startAt) != "" && FromDatetimeLocalValue(endAt) != "" &&
             LexLe(FromDatetimeLocalValue(endAt), FromDatetimeLocalValue(startAt))) ==> r == Invalid(EndAfterStart)
  {
    if !Truthy(Get(item, "rentalid")) then NoAction
    else
      var s := FromDatetimeLocalValue(startAt);
      var e := FromDatetimeLocalValue(endAt);
      if s == "" || e == "" then Invalid(TimesRequired)
      else if LexLe(e, s) then Invalid(EndAfterStart)
      else Call(ToNumber(Get(item, "rentalid")), s, e)
  }

  /** An approval always sends a start strictly before its end. */
  lemma ApproveOrdersTimes(item: JsValue, startAt: JsValue, endAt: JsValue)
    ensures OnApprove(item, startAt, endAt).Call? ==>
              LexLt(OnApprove(item, startAt, endAt).startAt, OnApprove(item, startAt, endAt).endAt)
  {
    var r := OnApprove(item, startAt, endAt);
    if r.Call? {
      LexLeTotal(r.startAt, r.endAt);
      if r.startAt == r.endAt {
        LexLeReflexive(r.endAt);
      }
    }
  }

  /** For two picked values, the request is approved exactly when the end is picked after the start. */
  lemma ApprovePickedTimes(item: JsValue, v1: string, v2: string)
    requires Truthy(Get(item, "rentalid"))
    requires IsLocalValue(v1) && IsLocalValue(v2)
    ensures OnApprove(item, Str(v1), Str(v2)).Call? <==> LexLt(v1, v2)
  {
    FromLocalValue(v1);
    FromLocalValue(v2);
    AsDbKeepsOrder(v2, v1);
    LexLeTotal(v1, v2);
    if v1 == v2 {
      LexLeReflexive(v1);
    } else if LexLe(v1, v2) && LexLe(v2, v1) {
      LexLeAntisymmetric(v1, v2);
    }
  }

  // ------------------------------------------------------------ status badge

  const GreenPill := "bg-green-50 text-green-800 border-green-200"
  const YellowPill := "bg-yellow-50 text-yellow-900 border-yellow-200"
  const GrayPill := "bg-gray-50 text-gray-800 border-gray-200"
  const BluePill := "bg-blue-50 text-blue-800 border-blue-200"
  const RedPill := "bg-red-50 text-red-800 border-red-200"

  /** The status names a badge knows, with their classes. */
  function KnownPill(s: string): (r: string)
    ensures r == GreenPill <==> s == "approved"
    ensures r == YellowPill <==> s == "pending"
    ensures r == BluePill <==> s == "completed"
    ensures r == RedPill <==> s == "not_returned"
    ensures r == GrayPill <==> !(s in {"approved", "pending", "completed", "not_returned"})
  {
    if s == "approved" then GreenPill
    else if s == "pending" then YellowPill
    else if s == "dismissed" then GrayPill
    else if s == "completed" then BluePill
    else if s == "not_returned" then RedPill
    else GrayPill
  }

  /** `statusPill(status)`: the class of the lower-cased status; unknown statuses get the neutral gray. */
  function StatusPill(status: JsValue): (r: string)
    ensures r == KnownPill(Lower(TextOr(status)))
    ensures r in {GreenPill, YellowPill, GrayPill, BluePill, RedPill}
  {
    var s := Lower(TextOr(status));
    if s == "approved" then GreenPill
    else if s == "pending" then YellowPill
    else if s == "dismissed" then GrayPill
    else if s == "completed" then BluePill
    else if s == "not_returned" then RedPill
    else GrayPill
  }

  /** Status names match whatever their letter case. */
  lemma StatusPillIgnoresCase(status: string)
    ensures StatusPill(Str(Upper(status))) == StatusPill(Str(status))
  {
    LowerUpper(status);
  }

  lemma LowerUpper(s: string)
    ensures Lower(Upper(s)) == Lower(s)
  {
  }
}

=== FILE: library.dfy ===
/**
 * The library page's catalogue view: the helpers `clamp`, `firstLetterOf`
 * and `normalizeYear`, and the pipeline that filters the book list by the
 * search box, the letter bar and the filter panel and then sorts it by the
 * chosen key and direction.
 */
module Library {
  import opened Wrappers
  import opened Text
  import opened Seqs
  import opened Js

  // ------------------------------------------------------------ helpers

  /** `clamp(n, min, max)`: `Math.max(min, Math.min(max, n))`. */
  function Clamp(n: int, lo: int, hi: int): (r: int)
    ensures lo <= hi ==> lo <= r <= hi
    ensures lo <= n <= hi ==> r == n
    ensures n < lo ==> r == lo
    ensures lo <= hi && n > hi ==> r == hi
  {
    var m := if hi < n then hi else n;
    if m < lo then lo else m
  }

  /** Clamping a clamped value changes nothing. */
  lemma ClampIdempotent(n: int, lo: int, hi: int)
    requires lo <= hi
    ensures Clamp(Clamp(n, lo, hi), lo, hi) == Clamp(n, lo, hi)
  {
  }

  /** The letter-bar entry that selects every book. */
  const All := "ALL"

  /**
   * `firstLetterOf(title)`: the upper-cased first character of the trimmed
   * title when it is a letter A–Z, otherwise "#".
   */
  function FirstLetterOf(title: JsValue): (r: string)
    ensures r == "#" || (|r| == 1 && IsAsciiUpper(r[0]))
    ensures r != "#" ==> JsTrim(TextOr(title)) != "" && r == [UpperChar(JsTrim(TextOr(title))[0])]
    ensures JsTrim(TextOr(title)) == "" ==> r == "#"
  {
    var t := JsTrim(TextOr(title));
    if t == "" then "#"
    else
      var ch := UpperChar(t[0]);
      if 'A' <= ch <= 'Z' then [ch] else "#"
  }

  /** The letter a title is listed under does not depend on its letter case. */
  lemma FirstLetterIgnoresCase(s: string)
    ensures FirstLetterOf(Str(Upper(s))) == FirstLetterOf(Str(s))
  {
    assert TextOr(Str(Upper(s))) == Upper(s) && TextOr(Str(s)) == s;
    JsTrimUpperFirst(s);
  }

  /** A title whose first non-blank character is a letter is listed under that letter in upper case. */
  lemma FirstLetterOfLetter(s: string)
    requires JsTrim(s) != "" && (IsAsciiUpper(JsTrim(s)[0]) || IsAsciiLower(JsTrim(s)[0]))
    ensures FirstLetterOf(Str(s)) == [UpperChar(JsTrim(s)[0])]
  {
  }

  /** `normalizeYear(publishDate)`: the first run of four digits as a number, `None` (null) when there is none. */
  function NormalizeYear(publishDate: JsValue): (r: Option<int>)
    ensures r.Some? ==> 0 <= r.value <= 9999
    ensures r.None? <==> forall i :: !DigitRunAt(TextOr(publishDate), i)
    ensures r.Some? ==> exists i :: && DigitRunAt(TextOr(publishDate), i)
                                    && r.value == DigitsValue(TextOr(publishDate)[i..i + 4])
                                    && forall j :: 0 <= j < i ==> !DigitRunAt(TextOr(publishDate), j)
  {
    match FirstFourDigits(TextOr(publishDate))
    case Some(y) => Some(y)
    case None => None
  }

  /** A four-digit year is rendered with four digits. */
  lemma YearDigits(y: int)
    requires 1000 <= y <= 9999
    ensures |NatToString(y)| == 4
  {
    assert |NatToString(y / 1000)| == 1;
    assert |NatToString(y / 100)| == 2;
    assert |NatToString(y / 10)| == 3;
  }

  /** The year of a publish date such as "March 5, 1998": text without digits, then the year, then anything. */
  lemma NormalizeYearAfterText(before: string, y: int, after: string)
    requires 1000 <= y <= 9999
    requires forall i :: 0 <= i < |before| ==> !IsDigit(before[i])
    ensures NormalizeYear(Str(before + NatToString(y) + after)) == Some(y)
  {
    var d := NatToString(y);
    YearDigits(y);
    var s := before + d + after;
    assert s[|before|..|before| + 4] == d;
    assert DigitRunAt(s, |before|);
    forall i | 0 <= i < |before| ensures !DigitRunAt(s, i) {
      assert s[i..i + 4][0] == before[i];
    }
    var r := FirstFourDigits(s);
    var i :| DigitRunAt(s, i) && r.value == DigitsValue(s[i..i + 4])
             && forall j :: 0 <= j < i ==> !DigitRunAt(s, j);
    assert i == |before|;
  }

  // ------------------------------------------------------------ filtering

  /** The filter panel's state. */
  datatype Filters = Filters(onlyInStock: JsValue, minCondition: JsValue, author: JsValue,
                             publisher: JsValue, subject: JsValue)

  /** `a > x` on two numbers: false when either is NaN. */
  predicate NumGreater(a: JsNumber, b: JsNumber) {
    a.Finite? && b.Finite? && a.x > b.x
  }

  /** `a >= b` on two numbers: false when either is NaN. */
  predicate NumAtLeast(a: JsNumber, b: JsNumber) {
    a.Finite? && b.Finite? && a.x >= b.x
  }

  /** The search box: an empty query matches everything, otherwise it must occur in the lower-cased title, author or ISBN. */
  predicate MatchesSearch(b: JsValue, query: string) {
    var title := Lower(TextOr(Get(b, "title")));
    var author := Lower(TextOr(Get(b, "author")));
    var isbn := Lower(TextOr(Get(b, "isbn")));
    query == "" || Contains(title, query) || Contains(author, query) || (isbn != "" && Contains(isbn, query))
  }

  predicate MatchesLetter(b: JsValue, letter: string) {
    letter == All || FirstLetterOf(Get(b, "title")) == letter
  }

  predicate InStock(b: JsValue, f: Filters) {
    !Truthy(f.onlyInStock) || NumGreater(ToNumber(Coalesce(Get(b, "quantity"), Num(0))), Finite(0.0))
  }

  predicate GoodEnough(b: JsValue, f: Filters) {
    NumAtLeast(ToNumber(Coalesce(Get(b, "condition"), Num(1))), ToNumber(Coalesce(f.minCondition, Num(1))))
  }

  /** A set text filter must occur, as it is typed, in the book's text. */
  predicate TextFilter(value: JsValue, filter: JsValue) {
    !Truthy(filter) || Contains(TextOr(value), ToString(filter))
  }

  predicate HasSubject(b: JsValue, f: Filters) {
    !Truthy(f.subject) || (Get(b, "subjects").Arr? && f.subject in Get(b, "subjects").items)
  }

  /** The seven filters of the pipeline, in their order. */
  predicate Keep(b: JsValue, query: string, letter: string, f: Filters) {
    && MatchesSearch(b, query)
    && MatchesLetter(b, letter)
    && InStock(b, f)
    && GoodEnough(b, f)
    && TextFilter(Get(b, "author"), f.author)
    && TextFilter(Get(b, "publisher"), f.publisher)
    && HasSubject(b, f)
  }

  function KeepFn(query: string, letter: string, f: Filters): JsValue -> bool {
    b => Keep(b, query, letter, f)
  }

  /**
   * The filter stage: the books passing all seven filters, in catalogue
   * order (consecutive filters are one filter by their conjunction, see
   * `Seqs.FilterFilter`).
   */
  function FilterBooks(books: seq<JsValue>, searchTerm: string, letter: string, f: Filters): (r: seq<JsValue>)
    ensures |r| <= |books|
  {
    Filter(books, KeepFn(Lower(JsTrim(searchTerm)), letter, f))
  }

  /**
   * A book is shown exactly when it is in the catalogue and passes every
   * filter: in particular it is in stock when "only in stock" is set and its
   * condition is at least the minimum.
   */
  lemma FilterBooksMembers(books: seq<JsValue>, searchTerm: string, letter: string, f: Filters, b: JsValue)
    ensures b in FilterBooks(books, searchTerm, letter, f) <==>
              b in books && Keep(b, Lower(JsTrim(searchTerm)), letter, f)
    ensures b in FilterBooks(books, searchTerm, letter, f) && Truthy(f.onlyInStock) ==>
              NumGreater(ToNumber(Coalesce(Get(b, "quantity"), Num(0))), Finite(0.0))
  {
    FilterMembership(books, KeepFn(Lower(JsTrim(searchTerm)), letter, f), b);
  }

  /** With no query, every letter and no panel filter set, every book is shown whose condition reaches the default minimum. */
  lemma NoFiltersKeepAll(books: seq<JsValue>)
    requires forall i :: 0 <= i < |books| ==> GoodEnough(books[i], Filters(Bool(false), Num(1), Str(""), Str(""), Str("")))
    ensures FilterBooks(books, "", All, Filters(Bool(false), Num(1), Str(""), Str(""), Str(""))) == books
  {
    var f := Filters(Bool(false), Num(1), Str(""), Str(""), Str(""));
    assert Lower(JsTrim("")) == "";
    forall i | 0 <= i < |books| ensures KeepFn("", All, f)(books[i]) {
      assert MatchesSearch(books[i], "") && MatchesLetter(books[i], All);
      assert InStock(books[i], f) && HasSubject(books[i], f);
      assert TextFilter(Get(books[i], "author"), f.author) && TextFilter(Get(books[i], "publisher"), f.publisher);
    }
    FilterAll(books, KeepFn("", All, f));
  }

  // ------------------------------------------------------------ sorting

  /**
   * A book's sort key: its title or author text, its year (0 when it has
   * none), or its condition as a number, which may be NaN.
   */
  datatype SortKey = TextKey(t: string) | NumKey(x: real) | NaNKey

  predicate IsTextSort(sortBy: string) {
    sortBy == "title" || sortBy == "author"
  }

  function KeyOf(b: JsValue, sortBy: string): (k: SortKey)
    ensures IsTextSort(sortBy) <==> k.TextKey?
  {
    if sortBy == "title" then TextKey(TextOf(Get(b, "title")))
    else if sortBy == "author" then TextKey(TextOf(Get(b, "author")))
    else if sortBy == "year" then
      NumKey((match NormalizeYear(Get(b, "publishdate")) case Some(y) => y case None => 0) as real)
    else
      match ToNumber(Coalesce(Get(b, "condition"), Num(0)))
      case Finite(x) => NumKey(x)
      case NaN => NaNKey
  }

  /** `a.localeCompare(b)`, as a sign. */
  function Compare(a: string, b: string): (r: int)
    ensures r == 0 <==> a == b
    ensures r < 0 <==> LexLt(a, b)
  {
    if a == b then 0 else if LexLe(a, b) then -1 else 1
  }

  /** The comparator's value for two books: its sign orders them; NaN arises from a NaN condition. */
  function Comparator(a: JsValue, b: JsValue, sortBy: string, sortDir: string): JsNumber {
    KeyCompare(KeyOf(a, sortBy), KeyOf(b, sortBy), if sortDir == "asc" then 1.0 else -1.0)
  }

  /** The comparator's value on two keys, for the direction's sign `dir`. */
  function KeyCompare(ka: SortKey, kb: SortKey, dir: real): JsNumber {
    if ka.TextKey? && kb.TextKey? then Finite(Compare(ka.t, kb.t) as real * dir)
    else if ka.NumKey? && kb.NumKey? then Finite((ka.x - kb.x) * dir)
    else NaN
  }

  /**
   * The key order: text keys by code point, numeric keys by value. The model
   * orders a NaN key after every number, an order the comparator does not
   * define (see `SortedMatchesComparator`).
   */
  predicate KeyLe(a: SortKey, b: SortKey) {
    match (a, b)
    case (TextKey(s), TextKey(t)) => LexLe(s, t)
    case (TextKey(_), _) => true
    case (NumKey(_), TextKey(_)) => false
    case (NumKey(x), NumKey(y)) => x <= y
    case (NumKey(_), NaNKey) => true
    case (NaNKey, TextKey(_)) => false
    case (NaNKey, NumKey(_)) => false
    case (NaNKey, NaNKey) => true
  }

  /** `a` may come before `b` in the sorted list. */
  function BookLe(sortBy: string, sortDir: string): (JsValue, JsValue) -> bool {
    (a, b) => if sortDir == "asc" then KeyLe(KeyOf(a, sortBy), KeyOf(b, sortBy))
              else KeyLe(KeyOf(b, sortBy), KeyOf(a, sortBy))
  }

  lemma KeyLeTotal(a: SortKey, b: SortKey)
    ensures KeyLe(a, b) || KeyLe(b, a)
  {
    if a.TextKey? && b.TextKey? {
      LexLeTotal(a.t, b.t);
    }
  }

  lemma KeyLeTransitive(a: SortKey, b: SortKey, c: SortKey)
    requires KeyLe(a, b) && KeyLe(b, c)
    ensures KeyLe(a, c)
  {
    if a.TextKey? && b.TextKey? && c.TextKey? {
      LexLeTransitive(a.t, b.t, c.t);
    }
  }

  lemma BookLePreorder(sortBy: string, sortDir: string)
    ensures TotalPreorder(BookLe(sortBy, sortDir))
  {
    var le := BookLe(sortBy, sortDir);
    forall a, b ensures le(a, b) || le(b, a) {
      KeyLeTotal(KeyOf(a, sortBy), KeyOf(b, sortBy));
    }
    forall a, b, c | le(a, b) && le(b, c) ensures le(a, c) {
      if sortDir == "asc" {
        KeyLeTransitive(KeyOf(a, sortBy), KeyOf(b, sortBy), KeyOf(c, sortBy));
      } else {
        KeyLeTransitive(KeyOf(c, sortBy), KeyOf(b, sortBy), KeyOf(a, sortBy));
      }
    }
  }

  /** The catalogue view: the filtered books, stably sorted by the chosen key and direction. */
  function LibraryView(books: seq<JsValue>, searchTerm: string, letter: string, f: Filters,
                       sortBy: string, sortDir: string): (r: seq<JsValue>)
    ensures SortedBy(r, BookLe(sortBy, sortDir))
    ensures multiset(r) == multiset(FilterBooks(books, searchTerm, letter, f))
  {
    BookLePreorder(sortBy, sortDir);
    SortBy(FilterBooks(books, searchTerm, letter, f), BookLe(sortBy, sortDir))
  }

  /** `Array.prototype.sort` is stable: books that tie under the chosen order keep their filtered order. */
  lemma LibraryViewStable(books: seq<JsValue>, searchTerm: string, letter: string, f: Filters,
                          sortBy: string, sortDir: string, k: JsValue)
    ensures Filter(LibraryView(books, searchTerm, letter, f, sortBy, sortDir), Tied(BookLe(sortBy, sortDir), k))
            == Filter(FilterBooks(books, searchTerm, letter, f), Tied(BookLe(sortBy, sortDir), k))
  {
    BookLePreorder(sortBy, sortDir);
    SortByStable(FilterBooks(books, searchTerm, letter, f), BookLe(sortBy, sortDir), k);
  }

  /**
   * Where neither key is NaN, "may come before" is exactly what the source's
   * comparator says: its value is not positive.
   */
  lemma SortedMatchesComparator(a: JsValue, b: JsValue, sortBy: string, sortDir: string)
    requires !KeyOf(a, sortBy).NaNKey? && !KeyOf(b, sortBy).NaNKey?
    ensures Comparator(a, b, sortBy, sortDir).Finite?
    ensures BookLe(sortBy, sortDir)(a, b) <==> Comparator(a, b, sortBy, sortDir).x <= 0.0
  {
    var ka, kb := KeyOf(a, sortBy), KeyOf(b, sortBy);
    assert ka.TextKey? <==> kb.TextKey?;
    if sortDir == "asc" {
      KeyLeMatchesCompare(ka, kb);
    } else {
      KeyLeMatchesCompare(kb, ka);
      KeyCompareFlip(ka, kb);
    }
  }

  /** On two keys of one kind, `KeyLe` holds exactly when the ascending comparator's value is not positive. */
  lemma KeyLeMatchesCompare(ka: SortKey, kb: SortKey)
    requires !ka.NaNKey? && !kb.NaNKey? && (ka.TextKey? <==> kb.TextKey?)
    ensures KeyCompare(ka, kb, 1.0).Finite?
    ensures KeyLe(ka, kb) <==> KeyCompare(ka, kb, 1.0).x <= 0.0
  {
    if ka.TextKey? {
      LexLeTotal(ka.t, kb.t);
      if ka.t != kb.t && LexLe(ka.t, kb.t) && LexLe(kb.t, ka.t) {
        LexLeAntisymmetric(ka.t, kb.t);
      }
      if ka.t == kb.t {
        LexLeTotal(ka.t, ka.t);
      }
    }
  }

  /** The descending comparator on `ka, kb` is the ascending one on `kb, ka`. */
  lemma KeyCompareFlip(ka: SortKey, kb: SortKey)
    ensures KeyCompare(ka, kb, -1.0) == KeyCompare(kb, ka, 1.0)
  {
    if ka.TextKey? && kb.TextKey? && ka.t != kb.t {
      LexLeTotal(ka.t, kb.t);
      if LexLe(ka.t, kb.t) && LexLe(kb.t, ka.t) {
        LexLeAntisymmetric(ka.t, kb.t);
      }
    }
  }

  /**
   * Sorted by year or by a numeric condition, the view is non-decreasing in
   * the key for "asc" and non-increasing for any other direction.
   */
  lemma LibraryViewNumericOrder(books: seq<JsValue>, searchTerm: string, letter: string, f: Filters,
                                sortBy: string, sortDir: string, i: int, j: int)
    requires !IsTextSort(sortBy)
    requires var r := LibraryView(books, searchTerm, letter, f, sortBy, sortDir);
             0 <= i < j < |r| && KeyOf(r[i], sortBy).NumKey? && KeyOf(r[j], sortBy).NumKey?
    ensures var r := LibraryView(books, searchTerm, letter, f, sortBy, sortDir);
            if sortDir == "asc" then KeyOf(r[i], sortBy).x <= KeyOf(r[j], sortBy).x
            else KeyOf(r[i], sortBy).x >= KeyOf(r[j], sortBy).x
  {
    var r := LibraryView(books, searchTerm, letter, f, sortBy, sortDir);
    assert BookLe(sortBy, sortDir)(r[i], r[j]);
  }

  /** Sorting by year never meets a NaN key: a book without a year sorts as year 0. */
  lemma YearKeysAreNumbers(b: JsValue)
    ensures KeyOf(b, "year").NumKey?
    ensures NormalizeYear(Get(b, "publishdate")).None? ==> KeyOf(b, "year") == NumKey(0.0)
  {
  }
}

=== FILE: php_value.dfy ===
/**
 * The loosely-typed values PHP's `json_decode($raw, true)` produces, and the
 * PHP conversions the back end applies to them: `isset`/`??` lookup,
 * `is_string`/`is_array`/`is_numeric`, and the `(int)`, `(string)` and
 * `(bool)` casts.
 */
module Php {
  import opened Wrappers
  import opened Text

  /**
   * Array keys. PHP stores a decimal-integer string key such as "0" as the
   * integer key 0, and an array never holds the same key twice. The type is
   * wider: it can also hold `StrKey("0")` and repeated keys. Nothing in the
   * model depends on that canonical form, because `Get` reads the first entry
   * under a key and the back end only looks up non-numeric names.
   */
  datatype Key = IntKey(i: int) | StrKey(s: string)

  /**
   * A decoded JSON value. PHP arrays are ordered maps, so an array is a
   * sequence of entries in insertion order; JSON lists have keys 0, 1, 2, ...
   */
  datatype Value = Null | Bool(b: bool) | Int(i: int) | Str(s: string) | Arr(entries: seq<Entry>)

  datatype Entry = Entry(key: Key, val: Value)

  /** `$a[$k] ?? null`: the value stored under `k`, or `Null` when the key is absent. */
  function Get(entries: seq<Entry>, k: Key): (r: Value)
    ensures r != Null ==> exists i :: 0 <= i < |entries| && entries[i].key == k && entries[i].val == r
    ensures (forall i :: 0 <= i < |entries| ==> entries[i].key != k) ==> r == Null
    decreases |entries|
  {
    if |entries| == 0 then Null
    else if entries[0].key == k then entries[0].val
    else
      var r := Get(entries[1..], k);
      assert r != Null ==> exists i :: 0 <= i < |entries| && entries[i].key == k && entries[i].val == r by {
        if r != Null {
          var i :| 0 <= i < |entries[1..]| && entries[1..][i].key == k && entries[1..][i].val == r;
          assert entries[i + 1].key == k;
        }
      }
      r
  }

  /** `$v[$k] ?? null` on any value: only arrays have entries. */
  function Field(v: Value, k: string): Value {
    if v.Arr? then Get(v.entries, StrKey(k)) else Null
  }

  /** `$v[0] ?? null` on any value. */
  function First(v: Value): Value {
    if v.Arr? then Get(v.entries, IntKey(0)) else Null
  }

  /** `isset($v[0])` on a value known to be an array. */
  predicate HasFirst(v: Value) {
    First(v) != Null
  }

  /** PHP truthiness, i.e. `(bool)$v`: `null`, `false`, `0`, `""`, `"0"` and `[]` are false. */
  predicate Truthy(v: Value) {
    match v
    case Null => false
    case Bool(b) => b
    case Int(i) => i != 0
    case Str(s) => s != "" && s != "0"
    case Arr(es) => |es| > 0
  }

  /** PHP truthiness of a string, as `?:` applies it. */
  predicate StrTruthy(s: string) {
    Truthy(Str(s))
  }

  /** `(string)$v`; arrays become "Array" (PHP also emits a warning, which the model drops). */
  function ToStr(v: Value): string {
    match v
    case Null => ""
    case Bool(b) => if b then "1" else ""
    case Int(i) => IntToString(i)
    case Str(s) => s
    case Arr(_) => "Array"
  }

  // ------------------------------------------------------ numeric strings

  /** White space PHP allows around a numeric string: " \t\n\r\v\f". */
  predicate IsNumericSpace(c: char) {
    c == ' ' || c == '\t' || c == '\n' || c == '\r' || c == '\U{000B}' || c == '\U{000C}'
  }

  /** A numeric prefix: its value and the index just past it. */
  datatype Number = Number(value: real, end: nat)

  function Pow10Real(e: int): (r: real)
    ensures r > 0.0
  {
    if e >= 0 then Pow10(e) as real else 1.0 / Pow10(-e) as real
  }

  /** An exponent `[eE][+-]?[0-9]+` at `i`: its value and end, or (0, i) when there is none. */
  function Exponent(s: string, i: nat): (r: (int, nat))
    requires i <= |s|
    ensures i <= r.1 <= |s|
  {
    if i < |s| && (s[i] == 'e' || s[i] == 'E') then
      var j := if i + 1 < |s| && (s[i + 1] == '+' || s[i + 1] == '-') then i + 2 else i + 1;
      var k := SkipWhile(s, j, IsDigit);
      if k > j then
        var e: int := DigitsValue(s[j..k]);
        (if s[j - 1] == '-' then -e else e, k)
      else (0, i)
    else (0, i)
  }

  /**
   * The longest leading numeric part of `s` that PHP's string-to-number
   * conversion reads: white space, a sign, digits with an optional fraction,
   * an optional exponent. `None` when no digit is found.
   */
  function LeadingNumber(s: string): (r: Option<Number>)
    ensures r.Some? ==> r.value.end <= |s|
  {
    var i0 := SkipWhile(s, 0, IsNumericSpace);
    var i1 := if i0 < |s| && (s[i0] == '-' || s[i0] == '+') then i0 + 1 else i0;
    var i2 := SkipWhile(s, i1, IsDigit);
    var hasDot := i2 < |s| && s[i2] == '.';
    var i3 := if hasDot then SkipWhile(s, i2 + 1, IsDigit) else i2;
    var whole := s[i1..i2];
    var fracStart := if hasDot then i2 + 1 else i2;
    var frac := s[fracStart..i3];
    DigitSpan(s, i1, i2);
    DigitSpan(s, fracStart, i3);
    if |whole| == 0 && |frac| == 0 then None
    else
      var mantissa := DigitsValue(whole) as real + DigitsValue(frac) as real / Pow10(|frac|) as real;
      var (e, i4) := Exponent(s, i3);
      var magnitude := mantissa * Pow10Real(e);
      Some(Number(if i1 > i0 && s[i0] == '-' then -magnitude else magnitude, i4))
  }

  /** `is_numeric($s)` for a string: a numeric prefix followed by nothing but white space. */
  predicate IsNumericString(s: string) {
    match LeadingNumber(s)
    case None => false
    case Some(n) => forall k :: n.end <= k < |s| ==> IsNumericSpace(s[k])
  }

  /** `is_numeric($v)`; floats are outside the model, so only integers and strings qualify. */
  predicate IsNumeric(v: Value) {
    match v
    case Int(_) => true
    case Str(s) => IsNumericString(s)
    case _ => false
  }

  /** Truncation toward zero, as `(int)` applies it to a float. */
  function Truncate(x: real): (r: int)
    ensures x >= 0.0 ==> r as real <= x < r as real + 1.0
    ensures x < 0.0 ==> r as real - 1.0 < x <= r as real
  {
    if x >= 0.0 then x.Floor else -((-x).Floor)
  }

  /** `(int)$s`: the leading number truncated toward zero, 0 when there is none. */
  function StrToInt(s: string): int {
    match LeadingNumber(s)
    case None => 0
    case Some(n) => Truncate(n.value)
  }

  /** `(int)$v`. */
  function ToInt(v: Value): int {
    match v
    case Null => 0
    case Bool(b) => if b then 1 else 0
    case Int(i) => i
    case Str(s) => StrToInt(s)
    case Arr(es) => if |es| == 0 then 0 else 1
  }

  /** The decimal rendering of an integer is numeric and casts back to the same integer. */
  lemma IntStringRoundTrip(n: int)
    ensures IsNumericString(IntToString(n))
    ensures StrToInt(IntToString(n)) == n
  {
    LeadingNumberOfIntString(n);
  }

  /** PHP's leading-number reader consumes the whole of an integer's rendering, yielding its value. */
  lemma LeadingNumberOfIntString(n: int)
    ensures LeadingNumber(IntToString(n)).Some?
    ensures LeadingNumber(IntToString(n)).value.end == |IntToString(n)|
    ensures LeadingNumber(IntToString(n)).value.value == n as real
  {
    var s := IntToString(n);
    var d := NatToString(if n >= 0 then n else -n);
    var i1 := if n >= 0 then 0 else 1;
    assert s[i1..] == d;
    assert SkipWhile(s, 0, IsNumericSpace) == 0;
    SkipAllDigits(s, i1);
    assert s[i1..|s|] == d;
    assert Pow10(0) == 1;
    assert Exponent(s, |s|) == (0, |s|);
    assert Pow10Real(0) == 1.0;
  }
}

=== FILE: rentals_store.dfy ===
/**
 * The client-side cache of rental lists: the user's own rentals and the
 * admin's pending requests, approved and active rentals, each with a
 * "loaded" flag. Actions call the API first (its outcome is a parameter) and
 * only on success edit a list and mark lists stale.
 */
module RentalsStore {
  import opened Wrappers
  import opened Seqs
  import opened Js

  /** The four cached lists. */
  datatype ListKind = My | Requests | Approved | Active

  datatype RentalsState = RentalsState(
    myLoaded: bool, myItems: seq<JsValue>,
    reqLoaded: bool, requests: seq<JsValue>,
    apprLoaded: bool, approved: seq<JsValue>,
    activeLoaded: bool, active: seq<JsValue>)

  /** The state before anything is loaded. */
  const Initial := RentalsState(false, [], false, [], false, [], false, [])

  function Loaded(st: RentalsState, k: ListKind): bool {
    match k
    case My => st.myLoaded
    case Requests => st.reqLoaded
    case Approved => st.apprLoaded
    case Active => st.activeLoaded
  }

  function Items(st: RentalsState, k: ListKind): seq<JsValue> {
    match k
    case My => st.myItems
    case Requests => st.requests
    case Approved => st.approved
    case Active => st.active
  }

  /** `Array.isArray(rows) ? rows : []`. */
  function AsArray(v: JsValue): (r: seq<JsValue>)
    ensures v.Arr? ==> r == v.items
    ensures !v.Arr? ==> r == []
  {
    if v.Arr? then v.items else []
  }

  /** `st` with list `k` replaced by `items` and marked loaded. */
  function Fill(st: RentalsState, k: ListKind, items: seq<JsValue>): RentalsState {
    match k
    case My => st.(myItems := items, myLoaded := true)
    case Requests => st.(requests := items, reqLoaded := true)
    case Approved => st.(approved := items, apprLoaded := true)
    case Active => st.(active := items, activeLoaded := true)
  }

  /**
   * `loadMyOnce`, `loadRequestsOnce`, `loadApprovedOnce` and
   * `loadActiveOnce`: nothing happens when the list is loaded; otherwise a
   * successful fetch replaces the list and sets its flag, and a failed one
   * changes nothing.
   */
  function LoadOnce(st: RentalsState, k: ListKind, fetched: Result<JsValue>): (r: RentalsState)
    ensures Loaded(st, k) || fetched.Err? ==> r == st
    ensures !Loaded(st, k) && fetched.Ok? ==> Loaded(r, k) && Items(r, k) == AsArray(fetched.value)
    ensures forall other :: other != k ==> Loaded(r, other) == Loaded(st, other) && Items(r, other) == Items(st, other)
  {
    if Loaded(st, k) || fetched.Err? then st else Fill(st, k, AsArray(fetched.value))
  }

  /** Loading a list twice fetches it once: the second call is a no-op whatever it would fetch. */
  lemma LoadOnceIdempotent(st: RentalsState, k: ListKind, f1: Result<JsValue>, f2: Result<JsValue>)
    requires f1.Ok?
    ensures LoadOnce(LoadOnce(st, k, f1), k, f2) == LoadOnce(st, k, f1)
  {
  }

  /** `invalidateAll`: every list is stale; the cached rows stay. */
  function InvalidateAll(st: RentalsState): (r: RentalsState)
    ensures forall k :: !Loaded(r, k) && Items(r, k) == Items(st, k)
  {
    st.(myLoaded := false, reqLoaded := false, apprLoaded := false, activeLoaded := false)
  }

  /** The number `r?.rentalid ?? r?.requestid` denotes: the id a pending row is matched by. */
  function RequestIdOf(row: JsValue): JsNumber {
    ToNumber(Coalesce(Get(row, "rentalid"), Get(row, "requestid")))
  }

  /** The pending row belongs to request `id`. */
  predicate IsRequest(row: JsValue, id: JsValue) {
    SameNumber(RequestIdOf(row), ToNumber(id))
  }

  /** The rows a request's id picks out. */
  function RequestRows(id: JsValue): JsValue -> bool {
    (row: JsValue) => IsRequest(row, id)
  }

  /** The filter callback `approveRentalRequest` and `dismissRentalRequest` keep rows by. */
  function NotRequest(id: JsValue): JsValue -> bool {
    (row: JsValue) => !IsRequest(row, id)
  }

  /** The pending rows that do not belong to request `id`, in their order. */
  function WithoutRequest(rows: seq<JsValue>, id: JsValue): (r: seq<JsValue>)
    ensures forall i :: 0 <= i < |r| ==> r[i] in rows && !IsRequest(r[i], id)
    ensures forall i :: 0 <= i < |rows| && !IsRequest(rows[i], id) ==> rows[i] in r
  {
    Filter(rows, NotRequest(id))
  }

  /**
   * Dropping a request is a filter: it works row by row, so the rows that
   * stay keep their order and their number, and a row of the request always goes.
   */
  lemma WithoutRequestKeepsOrder(a: seq<JsValue>, b: seq<JsValue>, row: JsValue, id: JsValue)
    ensures WithoutRequest(a + b, id) == WithoutRequest(a, id) + WithoutRequest(b, id)
    ensures WithoutRequest([row], id) == if IsRequest(row, id) then [] else [row]
  {
    FilterConcat(a, b, NotRequest(id));
    assert [row][1..] == [];
  }

  /** The filter callback `completeRental` keeps active rows by. */
  function NotRental(id: JsValue): JsValue -> bool {
    (row: JsValue) => !SameNumber(ToNumber(Get(row, "rentalid")), ToNumber(id))
  }

  /** The active rows whose `rentalid` is not `id`, in their order. */
  function WithoutRental(rows: seq<JsValue>, id: JsValue): (r: seq<JsValue>)
    ensures forall i :: 0 <= i < |r| ==> r[i] in rows && !SameNumber(ToNumber(Get(r[i], "rentalid")), ToNumber(id))
    ensures forall i :: 0 <= i < |rows| && !SameNumber(ToNumber(Get(rows[i], "rentalid")), ToNumber(id)) ==> rows[i] in r
  {
    Filter(rows, NotRental(id))
  }

  /**
   * Dropping a rental is a filter: the rows that stay keep their order and
   * their number, and a row with that `rentalid` always goes.
   */
  lemma WithoutRentalKeepsOrder(a: seq<JsValue>, b: seq<JsValue>, row: JsValue, id: JsValue)
    ensures WithoutRental(a + b, id) == WithoutRental(a, id) + WithoutRental(b, id)
    ensures WithoutRental([row], id) ==
              if SameNumber(ToNumber(Get(row, "rentalid")), ToNumber(id)) then [] else [row]
  {
    FilterConcat(a, b, NotRental(id));
    assert [row][1..] == [];
  }

  /**
   * `approveRentalRequest`: after the API call succeeds, the request leaves
   * the pending list and the approved, active and own lists go stale. A
   * failed call changes nothing and its error is passed on.
   */
  function Approve(st: RentalsState, requestId: JsValue, api: Result<JsValue>): (r: (RentalsState, Result<JsValue>))
    ensures r.1 == api
    ensures api.Err? ==> r.0 == st
    ensures api.Ok? ==> && r.0.requests == WithoutRequest(st.requests, requestId)
                        && !r.0.apprLoaded && !r.0.activeLoaded && !r.0.myLoaded
                        && r.0.reqLoaded == st.reqLoaded
                        && r.0.myItems == st.myItems && r.0.approved == st.approved && r.0.active == st.active
  {
    if api.Err? then (st, api)
    else
      (st.(requests := WithoutRequest(st.requests, requestId),
           apprLoaded := false, activeLoaded := false, myLoaded := false), api)
  }

  /** `dismissRentalRequest`: the request leaves the pending list and only the own list goes stale. */
  function Dismiss(st: RentalsState, requestId: JsValue, api: Result<JsValue>): (r: (RentalsState, Result<JsValue>))
    ensures r.1 == api
    ensures api.Err? ==> r.0 == st
    ensures api.Ok? ==> && r.0.requests == WithoutRequest(st.requests, requestId)
                        && !r.0.myLoaded
                        && r.0.reqLoaded == st.reqLoaded && r.0.apprLoaded == st.apprLoaded
                        && r.0.activeLoaded == st.activeLoaded
                        && r.0.myItems == st.myItems && r.0.approved == st.approved && r.0.active == st.active
  {
    if api.Err? then (st, api)
    else (st.(requests := WithoutRequest(st.requests, requestId), myLoaded := false), api)
  }

  /** `completeRental`: the rental leaves the active list; the approved and own lists go stale. */
  function Complete(st: RentalsState, rentalId: JsValue, api: Result<JsValue>): (r: (RentalsState, Result<JsValue>))
    ensures r.1 == api
    ensures api.Err? ==> r.0 == st
    ensures api.Ok? ==> && r.0.active == WithoutRental(st.active, rentalId)
                        && !r.0.apprLoaded && !r.0.myLoaded
                        && r.0.reqLoaded == st.reqLoaded && r.0.activeLoaded == st.activeLoaded
                        && r.0.myItems == st.myItems && r.0.requests == st.requests && r.0.approved == st.approved
  {
    if api.Err? then (st, api)
    else (st.(active := WithoutRental(st.active, rentalId), apprLoaded := false, myLoaded := false), api)
  }

  /** `requestRental`: every list goes stale once the request is sent. */
  function Request(st: RentalsState, api: Result<JsValue>): (r: (RentalsState, Result<JsValue>))
    ensures r.1 == api
    ensures api.Err? ==> r.0 == st
    ensures api.Ok? ==> forall k :: !Loaded(r.0, k) && Items(r.0, k) == Items(st, k)
  {
    if api.Err? then (st, api) else (InvalidateAll(st), api)
  }

  /** `invalidateRentals`. */
  function Invalidate(st: RentalsState): (r: RentalsState)
    ensures forall k :: !Loaded(r, k) && Items(r, k) == Items(st, k)
  {
    InvalidateAll(st)
  }

  /** `getAdminPendingCount`: the length of the pending list as currently cached. */
  function PendingCount(st: RentalsState): nat {
    |st.requests|
  }

  /** Dropping a request removes exactly the rows that carry its id. */
  lemma WithoutRequestCount(rows: seq<JsValue>, id: JsValue)
    ensures |WithoutRequest(rows, id)| == |rows| - CountIf(rows, RequestRows(id))
  {
    FilterLength(rows, NotRequest(id));
    CountIfComplement(rows, RequestRows(id), NotRequest(id));
  }

  /**
   * Approving lowers the pending count by exactly the number of cached rows
   * that carry the request's id.
   */
  lemma PendingCountAfterApprove(st: RentalsState, requestId: JsValue, api: Result<JsValue>)
    requires api.Ok?
    ensures PendingCount(Approve(st, requestId, api).0)
            == PendingCount(st) - CountIf(st.requests, RequestRows(requestId))
  {
    WithoutRequestCount(st.requests, requestId);
  }
}

=== FILE: seqs.dfy ===
/**
 * Sequence operations the JavaScript and SQL code relies on: `filter`, a
 * comparator-driven stable sort (`Array.prototype.sort` is stable since
 * ES2019), and `slice` with its index clamping.
 */
module Seqs {

  /** `Array.prototype.filter`: the elements that satisfy `p`, in their original order. */
  function Filter<T>(s: seq<T>, p: T -> bool): (r: seq<T>)
    ensures |r| <= |s|
    ensures forall i :: 0 <= i < |r| ==> p(r[i])
    ensures forall i :: 0 <= i < |r| ==> r[i] in s
    ensures forall i :: 0 <= i < |s| && p(s[i]) ==> s[i] in r
    decreases |s|
  {
    if |s| == 0 then []
    else if p(s[0]) then [s[0]] + Filter(s[1..], p)
    else Filter(s[1..], p)
  }

  /** Filtering distributes over concatenation, so kept elements keep their relative order. */
  lemma {:induction false} FilterConcat<T>(a: seq<T>, b: seq<T>, p: T -> bool)
    ensures Filter(a + b, p) == Filter(a, p) + Filter(b, p)
    decreases |a|
  {
    if |a| > 0 {
      assert (a + b)[1..] == a[1..] + b;
      FilterConcat(a[1..], b, p);
    } else {
      assert a + b == b;
    }
  }

  /** A filter that every element passes changes nothing. */
  lemma {:induction false} FilterAll<T>(s: seq<T>, p: T -> bool)
    requires forall i :: 0 <= i < |s| ==> p(s[i])
    ensures Filter(s, p) == s
    decreases |s|
  {
    if |s| > 0 {
      FilterAll(s[1..], p);
    }
  }

  /** An element is kept by a filter exactly when it occurs in the input and passes. */
  lemma FilterMembership<T>(s: seq<T>, p: T -> bool, x: T)
    ensures x in Filter(s, p) <==> x in s && p(x)
  {
    var r := Filter(s, p);
    if x in r {
      var i :| 0 <= i < |r| && r[i] == x;
    }
    if x in s && p(x) {
      var i :| 0 <= i < |s| && s[i] == x;
    }
  }

  /** Two filters in a row are one filter by both tests. */
  lemma {:induction false} FilterFilter<T>(s: seq<T>, p: T -> bool, q: T -> bool, both: T -> bool)
    requires forall x :: both(x) == (p(x) && q(x))
    ensures Filter(Filter(s, p), q) == Filter(s, both)
    decreases |s|
  {
    if |s| > 0 {
      FilterFilter(s[1..], p, q, both);
    }
  }

  /** No two elements of `s` share a key. */
  ghost predicate DistinctBy<T, K>(s: seq<T>, key: T -> K) {
    forall i, j :: 0 <= i < j < |s| ==> key(s[i]) != key(s[j])
  }

  /** Filtering keeps keys distinct. */
  lemma {:induction false} FilterKeepsDistinct<T, K>(s: seq<T>, key: T -> K, p: T -> bool)
    requires DistinctBy(s, key)
    ensures DistinctBy(Filter(s, p), key)
    decreases |s|
  {
    if |s| > 0 {
      var t := s[1..];
      assert DistinctBy(t, key) by {
        assert forall i :: 0 <= i < |t| ==> t[i] == s[i + 1];
      }
      FilterKeepsDistinct(t, key, p);
      if p(s[0]) {
        var ft := Filter(t, p);
        forall e | e in ft ensures key(e) != key(s[0]) {
          var b :| 0 <= b < |t| && t[b] == e;
          assert e == s[b + 1];
        }
        var r := [s[0]] + ft;
        assert forall j :: 0 < j < |r| ==> r[j] == ft[j - 1] && r[j] in ft;
      }
    }
  }

  /** The elements a filter drops are exactly those failing `p`: it keeps |s| minus their number. */
  function CountIf<T>(s: seq<T>, p: T -> bool): nat
    decreases |s|
  {
    if |s| == 0 then 0 else (if p(s[0]) then 1 else 0) + CountIf(s[1..], p)
  }

  /** Every element satisfies exactly one of two complementary predicates. */
  lemma {:induction false} CountIfComplement<T>(s: seq<T>, p: T -> bool, q: T -> bool)
    requires forall x :: q(x) == !p(x)
    ensures CountIf(s, p) + CountIf(s, q) == |s|
    decreases |s|
  {
    if |s| > 0 {
      CountIfComplement(s[1..], p, q);
    }
  }

  lemma {:induction false} FilterLength<T>(s: seq<T>, p: T -> bool)
    ensures |Filter(s, p)| == CountIf(s, p)
    decreases |s|
  {
    if |s| > 0 {
      FilterLength(s[1..], p);
    }
  }

  // -------------------------------------------------------------- sorting

  /** `le` is total and transitive: a comparator that `sort` can honour. */
  ghost predicate TotalPreorder<T(!new)>(le: (T, T) -> bool) {
    && (forall a, b :: le(a, b) || le(b, a))
    && (forall a, b, c :: le(a, b) && le(b, c) ==> le(a, c))
  }

  predicate SortedBy<T>(s: seq<T>, le: (T, T) -> bool) {
    forall i, j :: 0 <= i < j < |s| ==> le(s[i], s[j])
  }

  /** Places `x` before the first element it is `le` to, so it precedes its ties. */
  function Insert<T>(x: T, s: seq<T>, le: (T, T) -> bool): seq<T>
    decreases |s|
  {
    if |s| == 0 then [x]
    else if le(x, s[0]) then [x] + s
    else [s[0]] + Insert(x, s[1..], le)
  }

  /**
   * A stable sort: each element is inserted ahead of the later elements it is
   * `le` to, so elements that compare equal keep their input order.
   */
  function SortBy<T(!new)>(s: seq<T>, le: (T, T) -> bool): (r: seq<T>)
    requires TotalPreorder(le)
    ensures SortedBy(r, le)
    ensures multiset(r) == multiset(s)
    decreases |s|
  {
    if |s| == 0 then []
    else
      var rest := SortBy(s[1..], le);
      InsertSorted(s[0], rest, le);
      assert s == [s[0]] + s[1..];
      Insert(s[0], rest, le)
  }

  /** The elements that tie with `k`: each is `le` to `k` and `k` is `le` to it. */
  function Tied<T>(le: (T, T) -> bool, k: T): T -> bool {
    (y: T) => le(y, k) && le(k, y)
  }

  /** The sort is stable: the elements tying with any `k` come out in their input order. */
  lemma {:induction false} SortByStable<T(!new)>(s: seq<T>, le: (T, T) -> bool, k: T)
    requires TotalPreorder(le)
    ensures Filter(SortBy(s, le), Tied(le, k)) == Filter(s, Tied(le, k))
    decreases |s|
  {
    if |s| > 0 {
      var rest := SortBy(s[1..], le);
      SortByStable(s[1..], le, k);
      InsertKeepsTies(s[0], rest, le, k);
      assert s == [s[0]] + s[1..];
      FilterConcat([s[0]], rest, Tied(le, k));
      FilterConcat([s[0]], s[1..], Tied(le, k));
    }
  }

  /** Inserting `x` puts it ahead of everything tying with it, so among any tie class it comes first. */
  lemma {:induction false} InsertKeepsTies<T(!new)>(x: T, s: seq<T>, le: (T, T) -> bool, k: T)
    requires TotalPreorder(le)
    ensures Filter(Insert(x, s, le), Tied(le, k)) == Filter([x] + s, Tied(le, k))
    decreases |s|
  {
    var p := Tied(le, k);
    if |s| > 0 && !le(x, s[0]) {
      InsertKeepsTies(x, s[1..], le, k);
      assert s == [s[0]] + s[1..];
      FilterConcat([s[0]], Insert(x, s[1..], le), p);
      FilterConcat([x], s[1..], p);
      FilterConcat([s[0]], s[1..], p);
      FilterConcat([x], s, p);
      assert !(p(x) && p(s[0]));
    }
  }

  lemma {:induction false} InsertSorted<T(!new)>(x: T, s: seq<T>, le: (T, T) -> bool)
    requires TotalPreorder(le)
    requires SortedBy(s, le)
    ensures SortedBy(Insert(x, s, le), le)
    ensures multiset(Insert(x, s, le)) == multiset(s) + multiset{x}
    decreases |s|
  {
    InsertMultiset(x, s, le);
    if |s| > 0 {
      if le(x, s[0]) {
        forall j | 0 <= j < |s|
          ensures le(x, s[j])
        {
          if j > 0 {
            assert le(s[0], s[j]);
          }
        }
        ConsSorted(x, s, le);
      } else {
        var tail := Insert(x, s[1..], le);
        assert SortedBy(s[1..], le);
        InsertSorted(x, s[1..], le);
        assert s == [s[0]] + s[1..];
        InsertAfterHead(x, s, tail, le);
      }
    }
  }

  /** Inserting adds `x` and loses nothing. */
  lemma {:induction false} InsertMultiset<T>(x: T, s: seq<T>, le: (T, T) -> bool)
    ensures multiset(Insert(x, s, le)) == multiset(s) + multiset{x}
    decreases |s|
  {
    if |s| > 0 && !le(x, s[0]) {
      InsertMultiset(x, s[1..], le);
      assert s == [s[0]] + s[1..];
    }
  }

  /** When `x` goes after the head, the head is `le` to everything the rest becomes. */
  lemma InsertAfterHead<T(!new)>(x: T, s: seq<T>, tail: seq<T>, le: (T, T) -> bool)
    requires TotalPreorder(le)
    requires SortedBy(s, le) && |s| > 0 && !le(x, s[0])
    requires SortedBy(tail, le) && multiset(tail) == multiset(s[1..]) + multiset{x}
    ensures SortedBy([s[0]] + tail, le)
  {
    assert le(s[0], x);
    forall j | 0 <= j < |tail|
      ensures le(s[0], tail[j])
    {
      assert tail[j] in multiset(s[1..]) + multiset{x};
      if tail[j] != x {
        assert tail[j] in s[1..];
      }
    }
    ConsSorted(s[0], tail, le);
  }

  /** An element `le` to every element of a sorted sequence can go in front of it. */
  lemma ConsSorted<T>(a: T, t: seq<T>, le: (T, T) -> bool)
    requires SortedBy(t, le)
    requires forall j :: 0 <= j < |t| ==> le(a, t[j])
    ensures SortedBy([a] + t, le)
  {
    var r := [a] + t;
    assert forall j :: 0 < j < |r| ==> r[j] == t[j - 1];
  }

  /** Sorting a sequence that is already sorted by a total order changes nothing. */
  lemma {:induction false} SortBySorted<T(!new)>(s: seq<T>, le: (T, T) -> bool)
    requires TotalPreorder(le)
    requires SortedBy(s, le)
    ensures SortBy(s, le) == s
    decreases |s|
  {
    if |s| > 0 {
      SortBySorted(s[1..], le);
      assert SortBy(s[1..], le) == s[1..];
      if |s| > 1 {
        assert le(s[0], s[1]);
      }
    }
  }

  // -------------------------------------------------------------- slicing

  /** How `slice` resolves a relative index against a length. */
  function RelativeIndex(k: int, len: nat): (r: nat)
    ensures r <= len
  {
    if k < 0 then (if len + k < 0 then 0 else len + k) else if k > len then len else k
  }

  /** `Array.prototype.slice` / `String.prototype.slice`: out-of-range bounds are clamped, never an error. */
  function JsSlice<T>(s: seq<T>, start: int, end: int): (r: seq<T>)
    ensures |r| <= |s|
    ensures 0 <= start <= end <= |s| ==> r == s[start..end]
    ensures 0 <= start && 0 <= end ==> |r| <= end - start || r == []
  {
    var a := RelativeIndex(start, |s|);
    var b := RelativeIndex(end, |s|);
    if a < b then s[a..b] else []
  }
}

=== FILE: stock_controller.dfy ===
/**
 * StockController: the `set`, `list` and `delete` endpoints over the stock
 * and book tables. Fetching an edition from Open Library is the foreign
 * function `fetch`, whose `Err` is the client's exception message.
 */
module StockController {
  import opened Wrappers
  import opened Php
  import opened Seqs
  import opened Controller
  import opened BookMapper
  import opened BookRepository
  import opened StockRepository

  /** The two tables the endpoints touch. */
  datatype Db = Db(stock: Stock, books: Books)

  datatype ReplyBody = OkBody | ErrorBody(error: string) | ListBody(rows: seq<ListedRow>)

  datatype Reply = Reply(status: int, body: ReplyBody)

  /** The fields `set` reads from its body. */
  datatype SetRequest = SetRequest(olid: string, quality: int, quantity: int, importIfMissing: bool)

  /**
   * The reading part of `set`: the body, then `olid`, `quality` and
   * `quantity` in that order (first failure wins); `importIfMissing` is the
   * truthiness of the field, true when it is absent or null.
   */
  function ReadSet(body: Result<seq<Entry>>): (r: Result<SetRequest>)
    ensures body.Err? ==> r == Err(body.msg)
    ensures r.Ok? <==> && body.Ok? && RequireString(body.value, "olid").Ok?
                       && RequireInt(body.value, "quality").Ok? && RequireInt(body.value, "quantity").Ok?
    ensures r.Ok? ==> && r.value.olid == RequireString(body.value, "olid").value
                      && r.value.quality == RequireInt(body.value, "quality").value
                      && r.value.quantity == RequireInt(body.value, "quantity").value
                      && r.value.quality >= 0 && r.value.quantity >= 0 && r.value.olid != ""
    ensures r.Ok? ==> var flag := Get(body.value, StrKey("importIfMissing"));
                      r.value.importIfMissing == (flag == Null || Truthy(flag))
  {
    var b :- body;
    var olid :- RequireString(b, "olid");
    var quality :- RequireInt(b, "quality");
    var quantity :- RequireInt(b, "quantity");
    var flag := Get(b, StrKey("importIfMissing"));
    Ok(SetRequest(olid, quality, quantity, if flag == Null then true else Truthy(flag)))
  }

  /** `set` imports the edition exactly when asked to and the book is not stored yet. */
  predicate NeedsImport(db: Db, req: SetRequest) {
    req.importIfMissing && !Exists(db.books, req.olid)
  }

  /**
   * `set` once its body has been read (`input`): imports the edition when
   * needed, then upserts the stock row. Any failure answers 400 with its
   * message and writes nothing.
   */
  function Set(db: Db, input: Result<SetRequest>, fetch: string -> Result<seq<Entry>>,
               htmlToText: string -> string): (r: (Db, Reply))
    requires ValidStock(db.stock)
    ensures ValidStock(r.0.stock)
    ensures r.1.status != 200 ==> r.0 == db && r.1.status == 400 && r.1.body.ErrorBody?
    ensures input.Err? ==> r.1 == Reply(400, ErrorBody(input.msg))
    ensures r.1.status == 200 <==> input.Ok? && (NeedsImport(db, input.value) ==> fetch(input.value.olid).Ok?)
    ensures r.1.status == 200 ==>
              var req := input.value;
              && r.1.body == OkBody
              && r.0.stock == SetStock(db.stock, req.olid, req.quality, req.quantity)
              && r.0.books == (if NeedsImport(db, req)
                               then Upsert(db.books, FromEditionJson(fetch(req.olid).value, req.olid, htmlToText))
                               else db.books)
    ensures input.Ok? && NeedsImport(db, input.value) && fetch(input.value.olid).Err? ==>
              r.1 == Reply(400, ErrorBody(fetch(input.value.olid).msg))
  {
    match input
    case Err(m) => (db, Reply(400, ErrorBody(m)))
    case Ok(req) =>
      if NeedsImport(db, req) && fetch(req.olid).Err? then
        (db, Reply(400, ErrorBody(fetch(req.olid).msg)))
      else
        var books := if NeedsImport(db, req)
                     then Upsert(db.books, FromEditionJson(fetch(req.olid).value, req.olid, htmlToText))
                     else db.books;
        (Db(SetStock(db.stock, req.olid, req.quality, req.quantity), books), Reply(200, OkBody))
  }

  /** After a successful `set` the book of the stock row is stored whenever importing was allowed. */
  lemma SetImportsBook(db: Db, req: SetRequest, fetch: string -> Result<seq<Entry>>, htmlToText: string -> string)
    requires ValidStock(db.stock) && req.importIfMissing && req.olid != ""
    requires Set(db, Ok(req), fetch, htmlToText).1.status == 200
    ensures Exists(Set(db, Ok(req), fetch, htmlToText).0.books, req.olid)
  {
  }

  /** An already stored book is never fetched again: `set` leaves the book table alone. */
  lemma SetKeepsStoredBook(db: Db, req: SetRequest, fetch: string -> Result<seq<Entry>>, htmlToText: string -> string)
    requires ValidStock(db.stock) && Exists(db.books, req.olid)
    ensures Set(db, Ok(req), fetch, htmlToText).1 == Reply(200, OkBody)
    ensures Set(db, Ok(req), fetch, htmlToText).0.books == db.books
  {
  }

  /** Any non-negative quality is accepted: the server imposes no upper bound. */
  lemma SetAnyQuality(b: seq<Entry>, quality: nat)
    requires RequireString(b, "olid").Ok? && RequireInt(b, "quantity").Ok?
    requires Get(b, StrKey("quality")) == Int(quality)
    ensures ReadSet(Ok(b)).Ok? && ReadSet(Ok(b)).value.quality == quality
  {
  }

  /** Without an `importIfMissing` field the edition is imported when missing. */
  lemma SetImportsByDefault(b: seq<Entry>)
    requires ReadSet(Ok(b)).Ok?
    requires Get(b, StrKey("importIfMissing")) == Null
    ensures ReadSet(Ok(b)).value.importIfMissing
  {
  }

  /** `list`: the joined, ordered stock listing. */
  function List(db: Db): (r: Reply)
    ensures r.status == 200 && r.body.ListBody?
    ensures SortedBy(r.body.rows, TitleQualityLe)
    ensures multiset(r.body.rows) == multiset(Join(db.stock.rows, db.books))
  {
    Reply(200, ListBody(ListStockWithBook(db.stock, db.books)))
  }

  /** The reading part of `delete`: the body, then a non-negative `stockId`. */
  function ReadDelete(body: Result<seq<Entry>>): (r: Result<int>)
    ensures body.Err? ==> r == Err(body.msg)
    ensures body.Ok? ==> r == RequireInt(body.value, "stockId")
  {
    var b :- body;
    RequireInt(b, "stockId")
  }

  /**
   * `delete` once its body has been read (`input`): deletes the stock row;
   * a bad id or a missing row answers 400 and deletes nothing.
   */
  function Delete(db: Db, input: Result<int>): (r: (Db, Reply))
    requires ValidStock(db.stock)
    ensures ValidStock(r.0.stock) && r.0.books == db.books
    ensures input.Err? ==> r == (db, Reply(400, ErrorBody(input.msg)))
    ensures r.1.status != 200 ==> r.0 == db && r.1.status == 400
    ensures input.Ok? ==>
              (r.1.status == 200 <==> exists i :: 0 <= i < |db.stock.rows| && db.stock.rows[i].stockid == input.value)
    ensures input.Ok? && r.1.status != 200 ==> r.1.body == ErrorBody("Stock not found")
    ensures r.1.status == 200 ==> |r.0.stock.rows| == |db.stock.rows| - 1
    ensures r.1.status == 200 ==> forall i :: 0 <= i < |r.0.stock.rows| ==> r.0.stock.rows[i].stockid != input.value
    ensures r.1.status == 200 ==> input.Ok? && r.0.stock == Stock(Kept(db.stock.rows, input.value), db.stock.nextId)
  {
    match input
    case Err(m) => (db, Reply(400, ErrorBody(m)))
    case Ok(id) =>
      DeleteByIdValid(db.stock, id);
      match DeleteById(db.stock, id)
      case Err(m) => (db, Reply(400, ErrorBody(m)))
      case Ok(stock) => (db.(stock := stock), Reply(200, OkBody))
  }
}

=== FILE: stock_csv.dfy ===
/**
 * The stock table's CSV export: `csvEscape` and `stockToCsv`, together with
 * a reader for the CSV they produce, which the round-trip lemmas use as the
 * export's inverse.
 */
module StockCsv {
  import opened Text
  import opened Js

  // ------------------------------------------------------------ writing

  /** The characters that force a field into quotes: `/[",\n]/`. */
  predicate IsSpecial(c: char) {
    c == '"' || c == ',' || c == '\n'
  }

  predicate NeedsQuotes(s: string) {
    exists i | 0 <= i < |s| :: IsSpecial(s[i])
  }

  /** One character of a quoted field: a quote is doubled, anything else stays. */
  function QuoteChar(c: char): string {
    if c == '"' then "\"\"" else [c]
  }

  /** `s.replace(/"/g, '""')`. */
  function DoubleQuotes(s: string): (r: string)
    ensures |r| >= |s|
  {
    if |s| == 0 then "" else QuoteChar(s[0]) + DoubleQuotes(s[1..])
  }

  /** The escaping of a text: quoted with inner quotes doubled when it holds a quote, comma or newline. */
  function EscapeText(s: string): (r: string)
    ensures !NeedsQuotes(s) ==> r == s
    ensures NeedsQuotes(s) ==> |r| >= 2 && r[0] == '"' && r[|r| - 1] == '"'
  {
    if NeedsQuotes(s) then "\"" + DoubleQuotes(s) + "\"" else s
  }

  /** `csvEscape(v)`: the escaping of `String(v ?? "")`. */
  function CsvEscape(v: JsValue): string {
    EscapeText(TextOf(v))
  }

  /** `fields.join(sep)`. */
  function Join(parts: seq<string>, sep: string): string
    decreases |parts|
  {
    if |parts| == 0 then ""
    else if |parts| == 1 then parts[0]
    else parts[0] + sep + Join(parts[1..], sep)
  }

  /** One CSV line: the escaped fields joined by commas. */
  function Line(fields: seq<string>): string {
    Join(seq(|fields|, i requires 0 <= i < |fields| => EscapeText(fields[i])), ",")
  }

  const Header: seq<string> := ["Title", "Author", "Year", "Quality", "Qty", "OLID", "ISBN"]

  /** The seven exported columns of a stock row, as text; the year falls back to `release_year`. */
  function RowFields(r: JsValue): (f: seq<string>)
    ensures |f| == 7
  {
    [ TextOf(Get(r, "title")),
      TextOf(Get(r, "author")),
      TextOf(Coalesce(Coalesce(Get(r, "releaseyear"), Get(r, "release_year")), Str(""))),
      TextOf(Get(r, "quality")),
      TextOf(Get(r, "quantity")),
      TextOf(Get(r, "openlibraryid")),
      TextOf(Get(r, "isbn")) ]
  }

  /** The records `stockToCsv` writes: the header, then one per row. */
  function Records(rows: seq<JsValue>): (recs: seq<seq<string>>)
    ensures |recs| == |rows| + 1 && recs[0] == Header
    ensures forall i :: 1 <= i < |recs| ==> recs[i] == RowFields(rows[i - 1])
  {
    seq(|rows| + 1, i requires 0 <= i <= |rows| => if i == 0 then Header else RowFields(rows[i - 1]))
  }

  /** `stockToCsv(rows)`: the lines of the records joined by newlines. */
  function StockToCsv(rows: seq<JsValue>): string {
    var recs := Records(rows);
    Join(seq(|recs|, i requires 0 <= i < |recs| => Line(recs[i])), "\n")
  }

  // ------------------------------------------------------------ reading

  /** A field and the text after it. */
  datatype Read = Read(value: string, rest: string)

  /** Reads a quoted field's body (after the opening quote) up to its closing quote. */
  function ReadQuoted(s: string): (r: Read)
    ensures |r.rest| <= |s|
    decreases |s|
  {
    if |s| == 0 then Read("", "")
    else if s[0] == '"' && |s| > 1 && s[1] == '"' then
      var t := ReadQuoted(s[2..]);
      Read("\"" + t.value, t.rest)
    else if s[0] == '"' then Read("", s[1..])
    else
      var t := ReadQuoted(s[1..]);
      Read([s[0]] + t.value, t.rest)
  }

  /** Reads an unquoted field up to the next comma or newline. */
  function ReadPlain(s: string): (r: Read)
    ensures |r.rest| <= |s|
    ensures r.rest == "" || r.rest[0] == ',' || r.rest[0] == '\n'
    decreases |s|
  {
    if |s| == 0 || s[0] == ',' || s[0] == '\n' then Read("", s)
    else
      var t := ReadPlain(s[1..]);
      Read([s[0]] + t.value, t.rest)
  }

  function ReadField(s: string): (r: Read)
    ensures |r.rest| <= |s|
    ensures s != "" && s[0] == '"' ==> |r.rest| < |s|
  {
    if s != "" && s[0] == '"' then ReadQuoted(s[1..]) else ReadPlain(s)
  }

  /** A record's fields and the text after its newline. */
  datatype Record = Record(fields: seq<string>, rest: string)

  /** Reads comma-separated fields up to a newline (consumed) or the end of the text. */
  function ReadRecord(s: string): (r: Record)
    ensures |r.fields| >= 1
    ensures |r.rest| <= |s|
    ensures s != "" ==> |r.rest| < |s|
    decreases |s|
  {
    var f := ReadField(s);
    if f.rest != "" && f.rest[0] == ',' then
      var t := ReadRecord(f.rest[1..]);
      Record([f.value] + t.fields, t.rest)
    else if f.rest != "" && f.rest[0] == '\n' then Record([f.value], f.rest[1..])
    else Record([f.value], f.rest)
  }

  /** Reads all records of a CSV text. */
  function ReadCsv(s: string): seq<seq<string>>
    decreases |s|
  {
    if s == "" then []
    else
      var r := ReadRecord(s);
      [r.fields] + ReadCsv(r.rest)
  }

  // ------------------------------------------------------------ round trip

  /** Text that may follow a field: nothing, or a separator. */
  predicate FieldEnd(rest: string) {
    rest == "" || rest[0] == ',' || rest[0] == '\n'
  }

  /** Reading a quoted field's body, with its quotes doubled and then closed, gives back the text. */
  lemma {:induction false} ReadQuotedDoubled(f: string, rest: string)
    requires rest == "" || rest[0] != '"'
    ensures ReadQuoted(DoubleQuotes(f) + ("\"" + rest)) == Read(f, rest)
    decreases |f|
  {
    if |f| == 0 {
      assert DoubleQuotes(f) + ("\"" + rest) == "\"" + rest;
      ReadQuotedClose(rest);
    } else {
      var tail := DoubleQuotes(f[1..]) + ("\"" + rest);
      ReadQuotedDoubled(f[1..], rest);
      DoubleQuotesCons(f, "\"" + rest);
      ReadQuotedStep(f[0], tail);
      assert f == [f[0]] + f[1..];
    }
  }

  /** The closing quote ends a quoted field. */
  lemma ReadQuotedClose(rest: string)
    requires rest == "" || rest[0] != '"'
    ensures ReadQuoted("\"" + rest) == Read("", rest)
  {
    var s := "\"" + rest;
    assert s[0] == '"' && s[1..] == rest;
  }

  /** Inside a quoted field a doubled quote stands for one quote and any other character for itself. */
  lemma ReadQuotedStep(c: char, tail: string)
    ensures ReadQuoted(QuoteChar(c) + tail) == Read([c] + ReadQuoted(tail).value, ReadQuoted(tail).rest)
  {
    var s := QuoteChar(c) + tail;
    if c == '"' {
      assert s[0] == '"' && s[1] == '"' && s[2..] == tail;
    } else {
      assert s[0] == c && s[1..] == tail;
    }
  }

  /** Doubling quotes works character by character. */
  lemma DoubleQuotesCons(f: string, after: string)
    requires |f| > 0
    ensures DoubleQuotes(f) + after == QuoteChar(f[0]) + (DoubleQuotes(f[1..]) + after)
  {
    var h, d := QuoteChar(f[0]), DoubleQuotes(f[1..]);
    assert DoubleQuotes(f) == h + d;
    ConcatAssoc(h, d, after);
  }

  lemma {:induction false} ReadPlainClean(f: string, rest: string)
    requires !NeedsQuotes(f) && FieldEnd(rest)
    ensures ReadPlain(f + rest) == Read(f, rest)
    decreases |f|
  {
    if |f| == 0 {
      assert f + rest == rest;
    } else {
      assert !IsSpecial(f[0]);
      assert !NeedsQuotes(f[1..]) by {
        forall i | 0 <= i < |f[1..]| ensures !IsSpecial(f[1..][i]) { assert f[1..][i] == f[i + 1]; }
      }
      ReadPlainClean(f[1..], rest);
      assert (f + rest)[1..] == f[1..] + rest;
      assert f == [f[0]] + f[1..];
    }
  }

  /** Reading an escaped field gives back the text, stopping at the separator after it. */
  lemma ReadFieldEscaped(f: string, rest: string)
    requires FieldEnd(rest)
    ensures ReadField(EscapeText(f) + rest) == Read(f, rest)
  {
    if NeedsQuotes(f) {
      ReadFieldQuoted(f, rest);
    } else {
      ReadFieldPlain(f, rest);
    }
  }

  lemma ReadFieldQuoted(f: string, rest: string)
    requires NeedsQuotes(f) && FieldEnd(rest)
    ensures ReadField(EscapeText(f) + rest) == Read(f, rest)
  {
    var body := DoubleQuotes(f) + ("\"" + rest);
    var s := EscapeText(f) + rest;
    assert s == "\"" + body by {
      ConcatAssoc("\"" + DoubleQuotes(f), "\"", rest);
      ConcatAssoc("\"", DoubleQuotes(f), "\"" + rest);
    }
    assert s[0] == '"' && s[1..] == body;
    ReadQuotedDoubled(f, rest);
  }

  lemma ReadFieldPlain(f: string, rest: string)
    requires !NeedsQuotes(f) && FieldEnd(rest)
    ensures ReadField(EscapeText(f) + rest) == Read(f, rest)
  {
    ReadPlainClean(f, rest);
    if f != "" {
      assert !IsSpecial(f[0]);
      assert (f + rest)[0] == f[0];
    }
  }

  lemma LineSingle(fields: seq<string>)
    requires |fields| == 1
    ensures Line(fields) == EscapeText(fields[0])
  {
  }

  lemma LineCons(fields: seq<string>)
    requires |fields| >= 2
    ensures Line(fields) == EscapeText(fields[0]) + "," + Line(fields[1..])
  {
    var esc := seq(|fields|, i requires 0 <= i < |fields| => EscapeText(fields[i]));
    var esc1 := seq(|fields[1..]|, i requires 0 <= i < |fields[1..]| => EscapeText(fields[1..][i]));
    assert esc[1..] == esc1;
  }

  /** After a field that ends at a comma, a record goes on with the text after the comma. */
  lemma ReadRecordComma(s: string, v: string, u: string)
    requires ReadField(s) == Read(v, "," + u)
    ensures ReadRecord(s) == Record([v] + ReadRecord(u).fields, ReadRecord(u).rest)
  {
    assert ("," + u)[1..] == u;
  }

  /** Reading a line of at least one escaped field gives back the fields. */
  lemma {:induction false} ReadRecordLine(fields: seq<string>, rest: string)
    requires |fields| >= 1
    requires rest == "" || rest[0] == '\n'
    ensures ReadRecord(Line(fields) + rest) == Record(fields, if rest == "" then "" else rest[1..])
    decreases |fields|
  {
    if |fields| == 1 {
      ReadRecordLast(fields[0], rest);
      LineSingle(fields);
    } else {
      ReadRecordNext(fields, rest);
      ReadRecordLine(fields[1..], rest);
      assert fields == [fields[0]] + fields[1..];
    }
  }

  /** A last field is read up to the end of its line. */
  lemma ReadRecordLast(f: string, rest: string)
    requires rest == "" || rest[0] == '\n'
    ensures ReadRecord(EscapeText(f) + rest) == Record([f], if rest == "" then "" else rest[1..])
  {
    ReadFieldEscaped(f, rest);
  }

  /** A field followed by a comma is read, and reading goes on after the comma. */
  lemma ReadRecordNext(fields: seq<string>, rest: string)
    requires |fields| >= 2
    ensures ReadRecord(Line(fields) + rest)
            == Record([fields[0]] + ReadRecord(Line(fields[1..]) + rest).fields, ReadRecord(Line(fields[1..]) + rest).rest)
  {
    var u := Line(fields[1..]) + rest;
    LineCons(fields);
    assert Line(fields) + rest == EscapeText(fields[0]) + ("," + u) by {
      ConcatAssoc(EscapeText(fields[0]) + ",", Line(fields[1..]), rest);
      ConcatAssoc(EscapeText(fields[0]), ",", u);
    }
    ReadFieldEscaped(fields[0], "," + u);
    ReadRecordComma(Line(fields) + rest, fields[0], u);
  }

  /** The text of several lines of at least two fields each, joined by newlines. */
  function Lines(recs: seq<seq<string>>): string {
    Join(seq(|recs|, i requires 0 <= i < |recs| => Line(recs[i])), "\n")
  }

  /** A line of two or more fields holds at least the comma between them. */
  lemma LineNonEmpty(fields: seq<string>)
    requires |fields| >= 2
    ensures Line(fields) != ""
  {
    var esc := seq(|fields|, i requires 0 <= i < |fields| => EscapeText(fields[i]));
    assert Line(fields) == esc[0] + "," + Join(esc[1..], ",");
  }

  /** Reading joined lines gives back the records. */
  lemma {:induction false} ReadCsvLines(recs: seq<seq<string>>)
    requires forall i :: 0 <= i < |recs| ==> |recs[i]| >= 2
    ensures ReadCsv(Lines(recs)) == recs
    decreases |recs|
  {
    if |recs| == 1 {
      ReadCsvOneLine(recs[0]);
      assert Lines(recs) == Line(recs[0]);
      assert recs == [recs[0]];
    } else if |recs| > 1 {
      var rest := recs[1..];
      LinesCons(recs);
      ReadCsvFirstLine(recs[0], Lines(rest));
      ReadCsvLines(rest);
      assert recs == [recs[0]] + rest;
    }
  }

  lemma LinesCons(recs: seq<seq<string>>)
    requires |recs| >= 2
    ensures Lines(recs) == Line(recs[0]) + "\n" + Lines(recs[1..])
  {
    var lines := seq(|recs|, i requires 0 <= i < |recs| => Line(recs[i]));
    var rest := recs[1..];
    var tail := seq(|rest|, i requires 0 <= i < |rest| => Line(rest[i]));
    assert lines[1..] == tail;
  }

  lemma ReadCsvOneLine(fields: seq<string>)
    requires |fields| >= 2
    ensures ReadCsv(Line(fields)) == [fields]
  {
    LineNonEmpty(fields);
    assert Line(fields) + "" == Line(fields);
    ReadRecordLine(fields, "");
    assert ReadCsv("") == [];
  }

  /** The first of several lines is read as one record, and reading goes on after its newline. */
  lemma ReadCsvFirstLine(fields: seq<string>, more: string)
    requires |fields| >= 2
    ensures ReadCsv(Line(fields) + "\n" + more) == [fields] + ReadCsv(more)
  {
    var s := Line(fields) + "\n" + more;
    LineNonEmpty(fields);
    ConcatAssoc(Line(fields), "\n", more);
    ReadRecordLine(fields, "\n" + more);
    assert ("\n" + more)[1..] == more;
    assert ReadRecord(s) == Record(fields, more);
  }

  /**
   * The export can be read back: a CSV reader recovers the header and, for
   * each row, its seven fields as text, whatever commas, quotes or newlines
   * they hold.
   */
  lemma StockToCsvRoundTrip(rows: seq<JsValue>)
    ensures ReadCsv(StockToCsv(rows)) == Records(rows)
    ensures |ReadCsv(StockToCsv(rows))| == |rows| + 1
  {
    var recs := Records(rows);
    assert forall i :: 0 <= i < |recs| ==> |recs[i]| >= 2;
    assert StockToCsv(rows) == Lines(recs);
    ReadCsvLines(recs);
  }

  /** Reading back what `csvEscape` wrote yields the value's text, with whatever follows the field left over. */
  lemma CsvEscapeReadsBack(v: JsValue, rest: string)
    requires FieldEnd(rest)
    ensures ReadField(CsvEscape(v) + rest) == Read(TextOf(v), rest)
  {
    ReadFieldEscaped(TextOf(v), rest);
  }

  /** A text without quote, comma or newline is written as it is, anything else in quotes. */
  lemma EscapeTextCases(s: string)
    ensures EscapeText(s) == s <==> !NeedsQuotes(s)
  {
    if NeedsQuotes(s) {
      assert |EscapeText(s)| >= |s| + 2;
    }
  }
}

=== FILE: stock_repository.dfy ===
/**
 * StockRepository over the `stock` table: the upsert on the
 * (openlibraryid, quality) key, deletion by id, and the listing joined with
 * the `book` table and ordered by title, then quality.
 */
module StockRepository {
  import opened Wrappers
  import opened Text
  import opened Seqs
  import opened BookRepository
  import opened Covers

  /** A row of the `stock` table. */
  datatype StockRow = StockRow(stockid: int, openlibraryid: string, quality: int, quantity: int)

  /** The `stock` table in insertion order, with the next auto-increment id. */
  datatype Stock = Stock(rows: seq<StockRow>, nextId: int)

  /** Two rows share the unique key the upsert conflicts on. */
  predicate SameKey(a: StockRow, olid: string, quality: int) {
    a.openlibraryid == olid && a.quality == quality
  }

  /**
   * The table's keys: `stockid` is a primary key below the next
   * auto-increment value, and (openlibraryid, quality) is unique.
   */
  predicate ValidStock(s: Stock) {
    && (forall i :: 0 <= i < |s.rows| ==> s.rows[i].stockid < s.nextId)
    && (forall i, j :: 0 <= i < j < |s.rows| ==> s.rows[i].stockid != s.rows[j].stockid)
    && (forall i, j :: 0 <= i < j < |s.rows| ==>
          !SameKey(s.rows[j], s.rows[i].openlibraryid, s.rows[i].quality))
  }

  /** The index of the row holding (olid, quality), if any. */
  function FindKey(rows: seq<StockRow>, olid: string, quality: int): (r: Option<nat>)
    ensures r.Some? ==> r.value < |rows| && SameKey(rows[r.value], olid, quality)
    ensures r.None? <==> forall i :: 0 <= i < |rows| ==> !SameKey(rows[i], olid, quality)
    decreases |rows|
  {
    if |rows| == 0 then None
    else if SameKey(rows[0], olid, quality) then Some(0)
    else match FindKey(rows[1..], olid, quality)
      case None => None
      case Some(k) => Some(k + 1)
  }

  /**
   * `setStock`: inserts (olid, quality, quantity) under a fresh id, or, when
   * a row with that olid and quality exists, overwrites only its quantity.
   */
  function SetStock(s: Stock, olid: string, quality: int, quantity: int): (r: Stock)
    requires ValidStock(s)
    ensures ValidStock(r)
    ensures exists i :: 0 <= i < |r.rows| && SameKey(r.rows[i], olid, quality) && r.rows[i].quantity == quantity
    ensures FindKey(s.rows, olid, quality).None? ==>
              r == Stock(s.rows + [StockRow(s.nextId, olid, quality, quantity)], s.nextId + 1)
    ensures FindKey(s.rows, olid, quality).Some? ==>
              var k := FindKey(s.rows, olid, quality).value;
              r == Stock(s.rows[k := s.rows[k].(quantity := quantity)], s.nextId)
  {
    match FindKey(s.rows, olid, quality)
    case None =>
      var row := StockRow(s.nextId, olid, quality, quantity);
      AppendValid(s, row);
      Stock(s.rows + [row], s.nextId + 1)
    case Some(k) =>
      UpdateValid(s, k, quantity);
      Stock(s.rows[k := s.rows[k].(quantity := quantity)], s.nextId)
  }

  /** A row under the next id and a key no row holds extends a valid table. */
  lemma AppendValid(s: Stock, row: StockRow)
    requires ValidStock(s) && row.stockid == s.nextId
    requires forall i :: 0 <= i < |s.rows| ==> !SameKey(s.rows[i], row.openlibraryid, row.quality)
    ensures ValidStock(Stock(s.rows + [row], s.nextId + 1))
    ensures (s.rows + [row])[|s.rows|] == row
  {
    var rows := s.rows + [row];
    assert forall i :: 0 <= i < |s.rows| ==> rows[i] == s.rows[i];
  }

  /** Overwriting a quantity leaves ids and keys as they were. */
  lemma UpdateValid(s: Stock, k: nat, quantity: int)
    requires ValidStock(s) && k < |s.rows|
    ensures ValidStock(Stock(s.rows[k := s.rows[k].(quantity := quantity)], s.nextId))
    ensures s.rows[k := s.rows[k].(quantity := quantity)][k].quantity == quantity
  {
  }

  /** Setting the same key twice keeps only the second quantity and no second row. */
  lemma SetStockTwice(s: Stock, olid: string, quality: int, q1: int, q2: int)
    requires ValidStock(s)
    ensures SetStock(SetStock(s, olid, quality, q1), olid, quality, q2).rows
            == SetStock(s, olid, quality, q2).rows
  {
    var s1 := SetStock(s, olid, quality, q1);
    match FindKey(s.rows, olid, quality)
    case None =>
      var n := |s.rows|;
      assert s1.rows[n].openlibraryid == olid && s1.rows[n].quality == quality;
      assert forall i :: 0 <= i < n ==> !SameKey(s1.rows[i], olid, quality);
      assert FindKey(s1.rows, olid, quality) == Some(n) by { FindKeyUnique(s1.rows, olid, quality, n); }
    case Some(k) =>
      assert FindKey(s1.rows, olid, quality) == Some(k) by { FindKeyUnique(s1.rows, olid, quality, k); }
  }

  /** When exactly one row holds the key, `FindKey` finds it. */
  lemma FindKeyUnique(rows: seq<StockRow>, olid: string, quality: int, k: nat)
    requires k < |rows| && SameKey(rows[k], olid, quality)
    requires forall i :: 0 <= i < |rows| && i != k ==> !SameKey(rows[i], olid, quality)
    ensures FindKey(rows, olid, quality) == Some(k)
  {
    var r := FindKey(rows, olid, quality);
    assert r.Some?;
  }

  /** Rows not deleted by `DELETE ... WHERE stockid = id`. */
  function Kept(rows: seq<StockRow>, id: int): (r: seq<StockRow>)
    ensures forall i :: 0 <= i < |r| ==> r[i].stockid != id
    ensures forall i :: 0 <= i < |rows| && rows[i].stockid != id ==> rows[i] in r
  {
    Filter(rows, OtherId(id))
  }

  /** The rows that survive deleting `id`. */
  function OtherId(id: int): StockRow -> bool {
    (row: StockRow) => row.stockid != id
  }

  /**
   * `deleteById`: removes the rows with this id; unless exactly one row went,
   * the call fails with "Stock not found".
   */
  function DeleteById(s: Stock, id: int): (r: Result<Stock>)
    ensures r.Err? <==> |s.rows| - |Kept(s.rows, id)| != 1
    ensures r.Err? ==> r.msg == "Stock not found"
    ensures r.Ok? ==> r.value == Stock(Kept(s.rows, id), s.nextId)
  {
    var kept := Kept(s.rows, id);
    if |s.rows| - |kept| != 1 then Err("Stock not found") else Ok(Stock(kept, s.nextId))
  }

  /**
   * On a valid table, deletion fails exactly when no row has the id, and a
   * successful one removes just that row and keeps the table valid.
   */
  lemma DeleteByIdValid(s: Stock, id: int)
    requires ValidStock(s)
    ensures DeleteById(s, id).Err? <==> forall i :: 0 <= i < |s.rows| ==> s.rows[i].stockid != id
    ensures DeleteById(s, id).Ok? ==> |DeleteById(s, id).value.rows| == |s.rows| - 1
    ensures DeleteById(s, id).Ok? ==> ValidStock(DeleteById(s, id).value)
  {
    KeptCount(s.rows, id);
    CountIdZero(s.rows, id);
    CountIdAtMostOne(s.rows, id);
    KeptKeepsKeys(s.rows, id);
  }

  /** Counts the rows with stock id `id`. */
  function CountId(rows: seq<StockRow>, id: int): nat
    decreases |rows|
  {
    if |rows| == 0 then 0 else (if rows[0].stockid == id then 1 else 0) + CountId(rows[1..], id)
  }

  lemma {:induction false} KeptCount(rows: seq<StockRow>, id: int)
    ensures |Kept(rows, id)| == |rows| - CountId(rows, id)
    decreases |rows|
  {
    if |rows| > 0 {
      KeptCount(rows[1..], id);
      assert rows == [rows[0]] + rows[1..];
      FilterConcat([rows[0]], rows[1..], OtherId(id));
    }
  }

  lemma {:induction false} CountIdZero(rows: seq<StockRow>, id: int)
    ensures CountId(rows, id) == 0 <==> forall i :: 0 <= i < |rows| ==> rows[i].stockid != id
    decreases |rows|
  {
    if |rows| > 0 {
      CountIdZero(rows[1..], id);
      assert forall i :: 0 <= i < |rows[1..]| ==> rows[1..][i] == rows[i + 1];
    }
  }

  /** The ids of `rows` are pairwise distinct. */
  predicate UniqueIds(rows: seq<StockRow>) {
    forall i, j :: 0 <= i < j < |rows| ==> rows[i].stockid != rows[j].stockid
  }

  /** The (openlibraryid, quality) keys of `rows` are pairwise distinct. */
  predicate UniqueKeys(rows: seq<StockRow>) {
    forall i, j :: 0 <= i < j < |rows| ==> !SameKey(rows[j], rows[i].openlibraryid, rows[i].quality)
  }

  lemma {:induction false} CountIdAtMostOne(rows: seq<StockRow>, id: int)
    requires UniqueIds(rows)
    ensures CountId(rows, id) <= 1
    decreases |rows|
  {
    if |rows| > 0 {
      var t := rows[1..];
      assert forall i :: 0 <= i < |t| ==> t[i] == rows[i + 1];
      CountIdAtMostOne(t, id);
      if rows[0].stockid == id {
        CountIdZero(t, id);
      }
    }
  }

  /** Deleting rows keeps ids and keys unique. */
  lemma KeptKeepsKeys(rows: seq<StockRow>, id: int)
    requires UniqueIds(rows) && UniqueKeys(rows)
    ensures UniqueIds(Kept(rows, id)) && UniqueKeys(Kept(rows, id))
  {
    var ids := (row: StockRow) => row.stockid;
    var keys := (row: StockRow) => (row.openlibraryid, row.quality);
    assert DistinctBy(rows, ids) && DistinctBy(rows, keys);
    FilterKeepsDistinct(rows, ids, OtherId(id));
    FilterKeepsDistinct(rows, keys, OtherId(id));
  }

  // ------------------------------------------------------------ listing

  /** A row of `listStockWithBook`: the stock columns, the book's columns and a cover URL. */
  datatype ListedRow = ListedRow(stockid: int, openlibraryid: string, quality: int, quantity: int,
                                 book: BookRow, coverurl: string)

  function Listed(row: StockRow, book: BookRow): ListedRow {
    ListedRow(row.stockid, row.openlibraryid, row.quality, row.quantity, book, OlidCoverUrl(row.openlibraryid))
  }

  /** `x` is the join of some stock row with its book. */
  predicate JoinedFrom(x: ListedRow, rows: seq<StockRow>, books: Books) {
    exists j :: 0 <= j < |rows| && rows[j].openlibraryid in books && x == Listed(rows[j], books[rows[j].openlibraryid])
  }

  /** The inner join of stock with book on `openlibraryid`, in stock order. */
  function Join(rows: seq<StockRow>, books: Books): (r: seq<ListedRow>)
    ensures forall i :: 0 <= i < |r| ==> r[i].openlibraryid in books
    ensures forall i :: 0 <= i < |r| ==> JoinedFrom(r[i], rows, books)
    ensures forall j :: 0 <= j < |rows| && rows[j].openlibraryid in books ==> Listed(rows[j], books[rows[j].openlibraryid]) in r
  {
    var f := Filter(rows, (row: StockRow) => row.openlibraryid in books);
    var r := seq(|f|, i requires 0 <= i < |f| => Listed(f[i], books[f[i].openlibraryid]));
    forall j | 0 <= j < |rows| && rows[j].openlibraryid in books
      ensures Listed(rows[j], books[rows[j].openlibraryid]) in r
    {
      var i :| 0 <= i < |f| && f[i] == rows[j];
      assert r[i] == Listed(rows[j], books[rows[j].openlibraryid]);
    }
    forall i | 0 <= i < |r|
      ensures JoinedFrom(r[i], rows, books)
    {
      var j :| 0 <= j < |rows| && rows[j] == f[i];
      assert rows[j].openlibraryid in books;
      assert r[i] == Listed(rows[j], books[rows[j].openlibraryid]);
    }
    r
  }

  /** `ORDER BY b.title ASC, s.quality ASC`, titles compared character by character. */
  predicate TitleQualityLe(a: ListedRow, b: ListedRow) {
    LexLt(a.book.title, b.book.title) || (a.book.title == b.book.title && a.quality <= b.quality)
  }

  lemma TitleQualityPreorder()
    ensures TotalPreorder(TitleQualityLe)
  {
    forall a: ListedRow, b: ListedRow ensures TitleQualityLe(a, b) || TitleQualityLe(b, a) {
      LexLeTotal(a.book.title, b.book.title);
    }
    forall a: ListedRow, b: ListedRow, c: ListedRow | TitleQualityLe(a, b) && TitleQualityLe(b, c)
      ensures TitleQualityLe(a, c)
    {
      if LexLt(a.book.title, b.book.title) && LexLt(b.book.title, c.book.title) {
        LexLeTransitive(a.book.title, b.book.title, c.book.title);
        if a.book.title == c.book.title {
          LexLeAntisymmetric(a.book.title, b.book.title);
        }
      }
    }
  }

  /**
   * `listStockWithBook`: the stock rows that have a book, joined with it and
   * its cover URL, ordered by title and then quality.
   */
  function ListStockWithBook(s: Stock, books: Books): (r: seq<ListedRow>)
    ensures SortedBy(r, TitleQualityLe)
    ensures multiset(r) == multiset(Join(s.rows, books))
  {
    TitleQualityPreorder();
    SortBy(Join(s.rows, books), TitleQualityLe)
  }

  /** `x` carries its book, its cover URL and the columns of a stock row of `s`. */
  predicate ListedFromStock(x: ListedRow, s: Stock, books: Books) {
    && x.openlibraryid in books
    && x.book == books[x.openlibraryid]
    && x.coverurl == OlidCoverUrl(x.openlibraryid)
    && exists j :: 0 <= j < |s.rows| && s.rows[j].stockid == x.stockid
         && SameKey(s.rows[j], x.openlibraryid, x.quality) && s.rows[j].quantity == x.quantity
  }

  /**
   * The listing holds exactly the joined rows: each comes from a stock row
   * whose book exists and carries that book and the edition's cover URL, and
   * every stock row with a book is listed.
   */
  lemma ListStockWithBookRows(s: Stock, books: Books)
    ensures forall x | x in ListStockWithBook(s, books) :: ListedFromStock(x, s, books)
    ensures forall j :: 0 <= j < |s.rows| && s.rows[j].openlibraryid in books ==>
              Listed(s.rows[j], books[s.rows[j].openlibraryid]) in ListStockWithBook(s, books)
  {
    var joined := Join(s.rows, books);
    var r := ListStockWithBook(s, books);
    forall x | x in r ensures ListedFromStock(x, s, books) {
      assert x in multiset(r);
      assert x in joined;
      JoinedIsListed(x, s, books);
    }
    forall x | x in joined ensures x in r {
      assert x in multiset(joined);
    }
  }

  lemma JoinedIsListed(x: ListedRow, s: Stock, books: Books)
    requires x in Join(s.rows, books)
    ensures ListedFromStock(x, s, books)
  {
    var r := Join(s.rows, books);
    var i :| 0 <= i < |r| && r[i] == x;
    assert JoinedFrom(x, s.rows, books);
    var j :| 0 <= j < |s.rows| && s.rows[j].openlibraryid in books && x == Listed(s.rows[j], books[s.rows[j].openlibraryid]);
    var row := s.rows[j];
    assert x.openlibraryid == row.openlibraryid && x.book == books[row.openlibraryid];
    assert row.stockid == x.stockid && SameKey(row, x.openlibraryid, x.quality) && row.quantity == x.quantity;
  }
}

=== FILE: text.dfy ===
/**
 * Character and string primitives shared by the PHP back end and the
 * JavaScript front end: ASCII case mapping, the two languages' notions of
 * white space and `trim`, prefix/suffix/substring tests, the "first run of
 * four digits" search used for years, decimal rendering of integers and the
 * code-point order on strings.
 */
module Text {
  import opened Wrappers

  // ---------------------------------------------------------------- case

  predicate IsAsciiLower(c: char) { 'a' <= c <= 'z' }

  predicate IsAsciiUpper(c: char) { 'A' <= c <= 'Z' }

  predicate IsDigit(c: char) { '0' <= c <= '9' }

  predicate IsAsciiAlnum(c: char) { IsDigit(c) || IsAsciiUpper(c) || IsAsciiLower(c) }

  function UpperChar(c: char): char {
    if IsAsciiLower(c) then (c as int - 32) as char else c
  }

  function LowerChar(c: char): char {
    if IsAsciiUpper(c) then (c as int + 32) as char else c
  }

  /** `strtoupper` / `toUpperCase`, restricted to the ASCII letters. */
  function Upper(s: string): string {
    seq(|s|, i requires 0 <= i < |s| => UpperChar(s[i]))
  }

  /** `strtolower` / `toLowerCase`, restricted to the ASCII letters. */
  function Lower(s: string): string {
    seq(|s|, i requires 0 <= i < |s| => LowerChar(s[i]))
  }

  lemma UpperIdempotent(s: string)
    ensures Upper(Upper(s)) == Upper(s)
  {
  }

  // ---------------------------------------------------------- white space

  /** The characters PHP's `trim` strips by default: " \t\n\r\0\x0B". */
  predicate IsPhpSpace(c: char) {
    c == ' ' || c == '\t' || c == '\n' || c == '\r' || c == '\0' || c == '\U{000B}'
  }

  /** ECMAScript WhiteSpace and LineTerminator code points, stripped by `String.prototype.trim`. */
  predicate IsJsSpace(c: char) {
    || c == '\t' || c == '\n' || c == '\U{000B}' || c == '\U{000C}' || c == '\r' || c == ' '
    || c == '\U{00A0}' || c == '\U{1680}' || ('\U{2000}' <= c <= '\U{200A}')
    || c == '\U{2028}' || c == '\U{2029}' || c == '\U{202F}' || c == '\U{205F}'
    || c == '\U{3000}' || c == '\U{FEFF}'
  }

  /** Drops the leading characters that satisfy `sp`. */
  function TrimStart(s: string, sp: char -> bool): (r: string)
    ensures |r| <= |s| && r == s[|s| - |r|..]
    ensures forall i :: 0 <= i < |s| - |r| ==> sp(s[i])
    ensures r == [] || !sp(r[0])
  {
    s[SkipWhile(s, 0, sp)..]
  }

  /** Drops the trailing characters that satisfy `sp`. */
  function TrimEnd(s: string, sp: char -> bool): (r: string)
    ensures |r| <= |s| && r == s[..|r|]
    ensures forall i :: |r| <= i < |s| ==> sp(s[i])
    ensures r == [] || !sp(r[|r| - 1])
  {
    if |s| > 0 && sp(s[|s| - 1]) then TrimEnd(s[..|s| - 1], sp) else s
  }

  function Trim(s: string, sp: char -> bool): string {
    TrimEnd(TrimStart(s, sp), sp)
  }

  /** PHP `trim($s)` with the default character list. */
  function PhpTrim(s: string): string { Trim(s, IsPhpSpace) }

  /** JavaScript `s.trim()`. */
  function JsTrim(s: string): string { Trim(s, IsJsSpace) }

  /** Trimming yields the empty string exactly when every character is white space. */
  lemma TrimEmptyIff(s: string, sp: char -> bool)
    ensures Trim(s, sp) == [] <==> forall i :: 0 <= i < |s| ==> sp(s[i])
  {
    var a := TrimStart(s, sp);
    assert a != [] ==> !sp(a[0]);
  }

  /** How many leading characters trimming removes. */
  function TrimOffset(s: string, sp: char -> bool): nat {
    |s| - |TrimStart(s, sp)|
  }

  /** The trim of `s` is the infix of `s` left after dropping white space at both ends. */
  lemma TrimIsInfix(s: string, sp: char -> bool)
    ensures TrimOffset(s, sp) + |Trim(s, sp)| <= |s|
    ensures Trim(s, sp) == s[TrimOffset(s, sp)..TrimOffset(s, sp) + |Trim(s, sp)|]
    ensures forall i :: 0 <= i < TrimOffset(s, sp) ==> sp(s[i])
    ensures forall i :: TrimOffset(s, sp) + |Trim(s, sp)| <= i < |s| ==> sp(s[i])
  {
    var a := TrimStart(s, sp);
    var t := TrimEnd(a, sp);
    var lead := |s| - |a|;
    assert a == s[lead..];
    assert t == a[..|t|];
    assert t == s[lead..lead + |t|];
    forall i | lead + |t| <= i < |s| ensures sp(s[i]) {
      assert s[i] == a[i - lead];
    }
  }

  /** A string that neither starts nor ends with white space is its own trim. */
  lemma TrimNoop(s: string, sp: char -> bool)
    requires s == [] || (!sp(s[0]) && !sp(s[|s| - 1]))
    ensures Trim(s, sp) == s
  {
  }

  /** Trimming twice is trimming once. */
  lemma TrimIdempotent(s: string, sp: char -> bool)
    ensures Trim(Trim(s, sp), sp) == Trim(s, sp)
  {
    var t := Trim(s, sp);
    var a := TrimStart(s, sp);
    if t != [] {
      assert t == a[..|t|];
      assert !sp(t[0]);
      TrimNoop(t, sp);
    }
  }

  /** ASCII upper-casing does not change which characters are JavaScript white space. */
  lemma JsTrimUpperCommute(s: string)
    ensures JsTrim(Upper(s)) == Upper(JsTrim(s))
  {
    TrimStartUpper(s);
    var a := TrimStart(s, IsJsSpace);
    TrimEndUpper(a);
  }

  /** The trimmed upper-cased text is empty, or starts with a letter, exactly as the trimmed text does. */
  lemma JsTrimUpperFirst(s: string)
    ensures JsTrim(Upper(s)) == "" <==> JsTrim(s) == ""
    ensures JsTrim(s) != "" ==> UpperChar(JsTrim(Upper(s))[0]) == UpperChar(JsTrim(s)[0])
  {
    JsTrimUpperCommute(s);
    var t := JsTrim(s);
    if t != "" {
      assert Upper(t)[0] == UpperChar(t[0]);
      UpperCharIdempotent(t[0]);
    }
  }

  lemma UpperCharIdempotent(c: char)
    ensures UpperChar(UpperChar(c)) == UpperChar(c)
  {
  }

  /** Upper-casing a character keeps it white space or not white space. */
  lemma UpperCharSpace(c: char)
    ensures IsJsSpace(UpperChar(c)) == IsJsSpace(c)
  {
    if IsAsciiLower(c) {
      assert IsAsciiUpper(UpperChar(c));
    }
  }

  lemma TrimStartUpper(s: string)
    ensures TrimStart(Upper(s), IsJsSpace) == Upper(TrimStart(s, IsJsSpace))
  {
    SkipWhileUpper(s, 0);
  }

  /** Upper-casing does not move the first non-white-space index. */
  lemma {:induction false} SkipWhileUpper(s: string, k: nat)
    requires k <= |s|
    ensures SkipWhile(Upper(s), k, IsJsSpace) == SkipWhile(s, k, IsJsSpace)
    decreases |s| - k
  {
    if k < |s| {
      UpperCharSpace(s[k]);
      if IsJsSpace(s[k]) {
        SkipWhileUpper(s, k + 1);
      }
    }
  }

  lemma {:induction false} TrimEndUpper(s: string)
    ensures TrimEnd(Upper(s), IsJsSpace) == Upper(TrimEnd(s, IsJsSpace))
    decreases |s|
  {
    if |s| > 0 {
      var u := Upper(s);
      assert u[|s| - 1] == UpperChar(s[|s| - 1]);
      UpperCharSpace(s[|s| - 1]);
      if IsJsSpace(s[|s| - 1]) {
        assert u[..|s| - 1] == Upper(s[..|s| - 1]);
        TrimEndUpper(s[..|s| - 1]);
      }
    }
  }

  // ------------------------------------------------ prefixes and infixes

  /** Concatenation regroups freely; stated once so proofs can name the step. */
  lemma ConcatAssoc(a: string, b: string, c: string)
    ensures (a + b) + c == a + (b + c)
  {
  }

  predicate StartsWith(s: string, p: string) {
    |p| <= |s| && s[..|p|] == p
  }

  predicate EndsWith(s: string, p: string) {
    |p| <= |s| && s[|s| - |p|..] == p
  }

  /** `s.includes(sub)` / `str_contains`: `sub` occurs at some offset of `s` (the empty string occurs everywhere). */
  predicate Contains(s: string, sub: string) {
    exists i | 0 <= i <= |s| - |sub| :: OccursAt(s, sub, i)
  }

  predicate OccursAt(s: string, sub: string, i: int) {
    0 <= i <= |s| - |sub| && s[i..i + |sub|] == sub
  }

  // ------------------------------------------------------------- editing

  /** `r` is `s` with the occurrence of `from` at `k`, its first, replaced by `to`. */
  predicate ReplacedAt(s: string, from: char, to: char, r: string, k: int) {
    0 <= k < |s| && s[k] == from && from !in s[..k] && r == s[..k] + [to] + s[k + 1..]
  }

  /** JavaScript `s.replace(from, to)` with a one-character string pattern: only the first occurrence changes. */
  function ReplaceFirst(s: string, from: char, to: char): (r: string)
    ensures |r| == |s|
    ensures from !in s ==> r == s
    ensures from in s ==> exists k :: ReplacedAt(s, from, to, r, k)
  {
    if |s| == 0 then s
    else if s[0] == from then
      assert ReplacedAt(s, from, to, [to] + s[1..], 0);
      [to] + s[1..]
    else
      var rest := ReplaceFirst(s[1..], from, to);
      ReplaceFirstStep(s, from, to, rest);
      [s[0]] + rest
  }

  /** Replacing past a first character that is not `from` keeps that character in front. */
  lemma ReplaceFirstStep(s: string, from: char, to: char, rest: string)
    requires |s| > 0 && s[0] != from && |rest| == |s| - 1
    requires from !in s[1..] ==> rest == s[1..]
    requires from in s[1..] ==> exists k :: ReplacedAt(s[1..], from, to, rest, k)
    ensures from !in s ==> [s[0]] + rest == s
    ensures from in s ==> exists k :: ReplacedAt(s, from, to, [s[0]] + rest, k)
  {
    if from in s {
      var j :| 0 <= j < |s| && s[j] == from;
      assert s[1..][j - 1] == from;
      var k :| ReplacedAt(s[1..], from, to, rest, k);
      assert s[..k + 1] == [s[0]] + s[1..][..k];
      assert s[k + 2..] == s[1..][k + 1..];
      assert ReplacedAt(s, from, to, [s[0]] + rest, k + 1);
    } else {
      assert from !in s[1..];
      assert s == [s[0]] + s[1..];
    }
  }

  /** The text after the last `sep` (all of `s` when there is none): the last element of `s.split(sep)`. */
  function LastSegment(s: string, sep: char): (r: string)
    ensures |r| <= |s| && r == s[|s| - |r|..]
    ensures sep !in r
    ensures |r| == |s| || s[|s| - |r| - 1] == sep
  {
    if |s| == 0 || s[|s| - 1] == sep then []
    else LastSegment(s[..|s| - 1], sep) + [s[|s| - 1]]
  }

  /** The first index at or after `i` whose character does not satisfy `p`. */
  function SkipWhile(s: string, i: nat, p: char -> bool): (r: nat)
    requires i <= |s|
    ensures i <= r <= |s|
    ensures forall k :: i <= k < r ==> p(s[k])
    ensures r == |s| || !p(s[r])
    decreases |s| - i
  {
    if i < |s| && p(s[i]) then SkipWhile(s, i + 1, p) else i
  }

  // -------------------------------------------------------------- digits

  function DigitValue(c: char): nat
    requires IsDigit(c)
  {
    c as int - '0' as int
  }

  predicate AllDigits(s: string) {
    forall i :: 0 <= i < |s| ==> IsDigit(s[i])
  }

  /** A stretch of digits is a digit string. */
  lemma DigitSpan(s: string, i: nat, j: nat)
    requires i <= j <= |s|
    requires forall k :: i <= k < j ==> IsDigit(s[k])
    ensures AllDigits(s[i..j])
  {
    assert forall k :: 0 <= k < j - i ==> s[i..j][k] == s[i + k];
  }

  /** Skipping digits from `i` reaches the end when the rest is all digits. */
  lemma {:induction false} SkipAllDigits(s: string, i: nat)
    requires i <= |s| && AllDigits(s[i..])
    ensures SkipWhile(s, i, IsDigit) == |s|
    decreases |s| - i
  {
    if i < |s| {
      assert s[i] == s[i..][0];
      assert s[i + 1..] == s[i..][1..];
      SkipAllDigits(s, i + 1);
    }
  }

  /** The number a string of decimal digits denotes. */
  function DigitsValue(s: string): nat
    requires AllDigits(s)
  {
    if |s| == 0 then 0 else DigitsValue(s[..|s| - 1]) * 10 + DigitValue(s[|s| - 1])
  }

  lemma {:induction false} DigitsValueBound(s: string)
    requires AllDigits(s)
    ensures DigitsValue(s) < Pow10(|s|)
  {
    if |s| > 0 {
      DigitsValueBound(s[..|s| - 1]);
    }
  }

  function Pow10(n: nat): (r: nat)
    ensures r >= 1
  {
    if n == 0 then 1 else 10 * Pow10(n - 1)
  }

  /** Four decimal digits start at offset `i` of `s`. */
  predicate DigitRunAt(s: string, i: int) {
    0 <= i && i + 4 <= |s| && AllDigits(s[i..i + 4])
  }

  /** The offset of the leftmost run of four digits at or after `from`, as `/(\d{4})/` finds it. */
  function FindDigitRun(s: string, from: nat): (r: Option<nat>)
    ensures r.None? ==> forall i :: from <= i ==> !DigitRunAt(s, i)
    ensures r.Some? ==> from <= r.value && DigitRunAt(s, r.value)
                        && forall i :: from <= i < r.value ==> !DigitRunAt(s, i)
    decreases |s| - from
  {
    if from + 4 > |s| then None
    else if AllDigits(s[from..from + 4]) then Some(from)
    else FindDigitRun(s, from + 1)
  }

  /**
   * The value of the leftmost run of four consecutive ASCII digits, the number
   * `preg_match('/(\d{4})/')` and `String.match(/(\d{4})/)` capture; `None` when
   * there is no such run.
   */
  function FirstFourDigits(s: string): (r: Option<nat>)
    ensures r.Some? ==> r.value <= 9999
    ensures r.None? <==> forall i :: !DigitRunAt(s, i)
    ensures r.Some? ==> exists i :: DigitRunAt(s, i) && r.value == DigitsValue(s[i..i + 4])
                                    && forall j :: 0 <= j < i ==> !DigitRunAt(s, j)
  {
    match FindDigitRun(s, 0)
    case None => None
    case Some(i) =>
      DigitsValueBound(s[i..i + 4]);
      assert Pow10(4) == 10000;
      Some(DigitsValue(s[i..i + 4]))
  }

  /** The decimal digits of a natural number, without leading zeros ("0" for zero). */
  function NatToString(n: nat): (r: string)
    ensures |r| > 0 && AllDigits(r)
    ensures DigitsValue(r) == n
    ensures |r| > 1 ==> r[0] != '0'
    decreases n
  {
    var last := ['0' + (n % 10) as char];
    if n < 10 then last
    else
      var r := NatToString(n / 10) + last;
      assert r[..|r| - 1] == NatToString(n / 10);
      r
  }

  /** JavaScript `String(n)` / PHP `(string)$n` for an integer. */
  function IntToString(n: int): (r: string)
    ensures n >= 0 ==> r == NatToString(n)
    ensures n < 0 ==> r == "-" + NatToString(-n)
  {
    if n >= 0 then NatToString(n) else "-" + NatToString(-n)
  }

  // ------------------------------------------------------ string order

  /**
   * JavaScript's `<=` on strings (and the code-point order that stands for
   * `localeCompare` and SQL collations in this model): a prefix comes first,
   * otherwise the first differing character decides.
   */
  predicate LexLe(a: string, b: string) {
    if |a| == 0 then true
    else if |b| == 0 then false
    else if a[0] != b[0] then a[0] < b[0]
    else LexLe(a[1..], b[1..])
  }

  predicate LexLt(a: string, b: string) {
    LexLe(a, b) && a != b
  }

  lemma {:induction false} LexLeTotal(a: string, b: string)
    ensures LexLe(a, b) || LexLe(b, a)
  {
    if |a| > 0 && |b| > 0 && a[0] == b[0] {
      LexLeTotal(a[1..], b[1..]);
    }
  }

  lemma {:induction false} LexLeTransitive(a: string, b: string, c: string)
    requires LexLe(a, b) && LexLe(b, c)
    ensures LexLe(a, c)
  {
    if |a| > 0 && |b| > 0 && |c| > 0 && a[0] == b[0] && b[0] == c[0] {
      LexLeTransitive(a[1..], b[1..], c[1..]);
    }
  }

  lemma {:induction false} LexLeAntisymmetric(a: string, b: string)
    requires LexLe(a, b) && LexLe(b, a)
    ensures a == b
  {
    if |a| > 0 && |b| > 0 {
      LexLeAntisymmetric(a[1..], b[1..]);
      assert a == [a[0]] + a[1..];
      assert b == [b[0]] + b[1..];
    }
  }

  /** Two equally long strings compare by their first differing character. */
  lemma {:induction false} LexLeFirstDifference(a: string, b: string, k: nat)
    requires |a| == |b| && k < |a| && a[..k] == b[..k] && a[k] != b[k]
    ensures LexLe(a, b) <==> a[k] < b[k]
  {
    if k > 0 {
      assert a[0] == a[..k][0] == b[..k][0] == b[0];
      assert a[1..][..k - 1] == a[1..k] == a[..k][1..];
      assert b[1..][..k - 1] == b[1..k] == b[..k][1..];
      LexLeFirstDifference(a[1..], b[1..], k - 1);
    }
  }
}

=== FILE: users_store.dfy ===
/**
 * The admin's cached user list with its "loaded" flag, and the role change
 * that edits the cache once the API call has succeeded.
 */
module UsersStore {
  import opened Wrappers
  import opened Js

  datatype UsersState = UsersState(loaded: bool, users: seq<JsValue>)

  const Initial := UsersState(false, [])

  /** `invalidateUsers`: the list goes stale and nothing else changes. */
  function Invalidate(st: UsersState): (r: UsersState)
    ensures !r.loaded && r.users == st.users
  {
    st.(loaded := false)
  }

  /** `loadOnce`: a no-op once loaded; otherwise a successful fetch fills the cache. */
  function LoadOnce(st: UsersState, fetched: Result<JsValue>): (r: UsersState)
    ensures st.loaded || fetched.Err? ==> r == st
    ensures !st.loaded && fetched.Ok? ==> r.loaded && r.users == (if fetched.value.Arr? then fetched.value.items else [])
  {
    if st.loaded || fetched.Err? then st
    else UsersState(true, if fetched.value.Arr? then fetched.value.items else [])
  }

  /** Loading twice fetches once. */
  lemma LoadOnceIdempotent(st: UsersState, f1: Result<JsValue>, f2: Result<JsValue>)
    requires f1.Ok?
    ensures LoadOnce(LoadOnce(st, f1), f2) == LoadOnce(st, f1)
  {
  }

  /** `Number(u?.userid) === Number(userId)`. */
  predicate IsUser(u: JsValue, userId: JsValue) {
    SameNumber(ToNumber(Get(u, "userid")), ToNumber(userId))
  }

  /** `{ ...u, role }`. */
  function WithRole(u: JsValue, role: JsValue): (r: JsValue)
    requires u.Obj?
    ensures r.Obj? && Get(r, "role") == role
    ensures forall name :: name != "role" ==> Get(r, name) == Get(u, name)
  {
    Obj(SetProp(u.props, "role", role))
  }

  /** A matching row is always an object: only objects have a `userid`. */
  lemma IsUserIsObject(u: JsValue, userId: JsValue)
    requires IsUser(u, userId)
    ensures u.Obj?
  {
  }

  /**
   * `setUserRole`: after the API call succeeds, every cached user with that
   * id gets the new role and every other entry is left as it was; a failed
   * call changes nothing.
   */
  function SetUserRole(st: UsersState, userId: JsValue, role: JsValue, api: Result<JsValue>): (r: (UsersState, Result<JsValue>))
    ensures r.1 == api && r.0.loaded == st.loaded
    ensures api.Err? ==> r.0 == st
    ensures |r.0.users| == |st.users|
    ensures api.Ok? ==> forall i :: 0 <= i < |st.users| && IsUser(st.users[i], userId) ==>
              && Get(r.0.users[i], "role") == role
              && forall name :: name != "role" ==> Get(r.0.users[i], name) == Get(st.users[i], name)
    ensures forall i :: 0 <= i < |st.users| && !IsUser(st.users[i], userId) ==> r.0.users[i] == st.users[i]
  {
    if api.Err? then (st, api)
    else
      var users := seq(|st.users|, i requires 0 <= i < |st.users| =>
        if IsUser(st.users[i], userId) && st.users[i].Obj? then WithRole(st.users[i], role) else st.users[i]);
      (st.(users := users), api)
  }
}

=== FILE: wishlist_store.dfy ===
/**
 * The browser-side wishlist: a list of saved editions, newest first, keyed
 * case-insensitively by Open Library id. Reading and writing the list to
 * local storage is outside the model; each operation takes the current list
 * and returns the next one.
 */
module WishlistStore {
  import opened Text
  import opened Seqs
  import opened Covers
  import opened Js

  /** A saved entry; `openlibraryid` may hold anything a stored list holds. */
  datatype WishEntry = WishEntry(openlibraryid: JsValue, title: JsValue, author: JsValue,
                                 coverurl: JsValue, createdAt: int)

  /** The id a caller passes, as every operation normalises it: text, trimmed, upper case. */
  function NormId(v: JsValue): string {
    Upper(JsTrim(TextOr(v)))
  }

  /** The id an entry is compared by: its text in upper case, untrimmed. */
  function StoredId(e: WishEntry): string {
    Upper(ToString(e.openlibraryid))
  }

  /** `isWishlisted(id)`. */
  predicate IsWishlisted(list: seq<WishEntry>, v: JsValue) {
    exists i | 0 <= i < |list| :: StoredId(list[i]) == NormId(v)
  }

  /** What the store keeps true: every id is non-empty and no id is saved twice. */
  predicate WellFormed(list: seq<WishEntry>) {
    && (forall i :: 0 <= i < |list| ==> StoredId(list[i]) != "")
    && (forall i, j :: 0 <= i < j < |list| ==> StoredId(list[i]) != StoredId(list[j]))
  }

  /** A normalised id normalises to itself, so passing it back in finds the same entries. */
  lemma NormIdIdempotent(v: JsValue)
    ensures NormId(Str(NormId(v))) == NormId(v)
  {
    var t := TextOr(v);
    JsTrimUpperCommute(JsTrim(t));
    TrimIdempotent(t, IsJsSpace);
    UpperIdempotent(JsTrim(t));
  }

  /** The entry `addToWishlist` saves for `item` under the normalised id. */
  function NewEntry(item: JsValue, id: string, now: int): WishEntry {
    WishEntry(Str(id), Coalesce(Get(item, "title"), Str("")), Coalesce(Get(item, "author"), Str("")),
              Coalesce(Get(item, "coverurl"), Str(OlidCoverUrl(id))), now)
  }

  /**
   * `addToWishlist(item)`: unless the normalised id is empty or already
   * saved, puts one new entry in front of the list.
   */
  function Add(list: seq<WishEntry>, item: JsValue, now: int): (r: seq<WishEntry>)
    ensures NormId(Get(item, "openlibraryid")) == "" ==> r == list
    ensures IsWishlisted(list, Get(item, "openlibraryid")) ==> r == list
    ensures NormId(Get(item, "openlibraryid")) != "" && !IsWishlisted(list, Get(item, "openlibraryid")) ==>
              && |r| == |list| + 1 && r[1..] == list
              && r[0].openlibraryid == Str(NormId(Get(item, "openlibraryid")))
              && StoredId(r[0]) == NormId(Get(item, "openlibraryid"))
    ensures NormId(Get(item, "openlibraryid")) != "" ==> IsWishlisted(r, Get(item, "openlibraryid"))
    ensures WellFormed(list) ==> WellFormed(r)
  {
    var v := Get(item, "openlibraryid");
    var id := NormId(v);
    if id == "" || IsWishlisted(list, v) then list
    else
      var e := NewEntry(item, id, now);
      assert StoredId(e) == id by { UpperIdempotent(JsTrim(TextOr(v))); }
      var r := [e] + list;
      assert r[0] == e && r[1..] == list;
      assert forall i :: 0 < i < |r| ==> r[i] == list[i - 1];
      r
  }

  /** Every saved entry keeps its fields: a missing title, author or cover gets its default. */
  lemma AddDefaults(list: seq<WishEntry>, item: JsValue, now: int)
    requires NormId(Get(item, "openlibraryid")) != "" && !IsWishlisted(list, Get(item, "openlibraryid"))
    ensures var e := Add(list, item, now)[0];
            && (IsNullish(Get(item, "title")) ==> e.title == Str(""))
            && (IsNullish(Get(item, "author")) ==> e.author == Str(""))
            && (IsNullish(Get(item, "coverurl")) ==> e.coverurl == Str(OlidCoverUrl(NormId(Get(item, "openlibraryid")))))
            && (!IsNullish(Get(item, "coverurl")) ==> e.coverurl == Get(item, "coverurl"))
            && e.createdAt == now
  {
  }

  /**
   * `removeFromWishlist(id)`: drops every entry whose id matches, keeping
   * the others in order; an empty id changes nothing.
   */
  function Remove(list: seq<WishEntry>, v: JsValue): (r: seq<WishEntry>)
    ensures NormId(v) == "" ==> r == list
    ensures NormId(v) != "" ==> !IsWishlisted(r, v)
    ensures forall i :: 0 <= i < |r| ==> r[i] in list
    ensures forall i :: 0 <= i < |list| && StoredId(list[i]) != NormId(v) ==> list[i] in r
  {
    var id := NormId(v);
    if id == "" then list
    else
      var r := Filter(list, (e: WishEntry) => StoredId(e) != id);
      assert forall i :: 0 <= i < |r| ==> StoredId(r[i]) != id;
      r
  }

  /**
   * Removal is a filter: it works entry by entry, so the entries that stay
   * keep their order and their number, and a matching entry always goes.
   */
  lemma RemoveKeepsOrder(a: seq<WishEntry>, b: seq<WishEntry>, e: WishEntry, v: JsValue)
    ensures Remove(a + b, v) == Remove(a, v) + Remove(b, v)
    ensures Remove([e], v) == if NormId(v) != "" && StoredId(e) == NormId(v) then [] else [e]
  {
    var id := NormId(v);
    if id != "" {
      FilterConcat(a, b, (x: WishEntry) => StoredId(x) != id);
      assert [e][1..] == [];
    }
  }

  /** Removing entries keeps the list well formed. */
  lemma RemoveKeepsWellFormed(list: seq<WishEntry>, v: JsValue)
    ensures WellFormed(list) ==> WellFormed(Remove(list, v))
  {
    if NormId(v) != "" && WellFormed(list) {
      FilterKeepsWellFormed(list, NormId(v));
    }
  }

  lemma FilterKeepsWellFormed(list: seq<WishEntry>, id: string)
    requires WellFormed(list)
    ensures WellFormed(Filter(list, (e: WishEntry) => StoredId(e) != id))
  {
    var keep := (e: WishEntry) => StoredId(e) != id;
    assert DistinctBy(list, StoredId);
    FilterKeepsDistinct(list, StoredId, keep);
    var r := Filter(list, keep);
    assert forall i :: 0 <= i < |r| ==> r[i] in list;
  }

  /** Adding an edition that was not saved and then removing it restores the list. */
  lemma RemoveUndoesAdd(list: seq<WishEntry>, item: JsValue, now: int)
    requires !IsWishlisted(list, Get(item, "openlibraryid"))
    ensures Remove(Add(list, item, now), Str(NormId(Get(item, "openlibraryid")))) == list
  {
    var v := Get(item, "openlibraryid");
    var id := NormId(v);
    NormIdIdempotent(v);
    if id != "" {
      var r := Add(list, item, now);
      assert r == [r[0]] + list;
      FilterConcat([r[0]], list, (e: WishEntry) => StoredId(e) != id);
      FilterAll(list, (e: WishEntry) => StoredId(e) != id);
    }
  }

  /**
   * `toggleWishlist(item)`: removes a saved edition and answers false, or
   * saves a new one and answers true; an empty id answers false and changes nothing.
   */
  function Toggle(list: seq<WishEntry>, item: JsValue, now: int): (r: (seq<WishEntry>, bool))
    ensures NormId(Get(item, "openlibraryid")) == "" ==> r == (list, false)
    ensures NormId(Get(item, "openlibraryid")) != "" ==> IsWishlisted(r.0, Get(item, "openlibraryid")) == r.1
    ensures r.1 <==> NormId(Get(item, "openlibraryid")) != "" && !IsWishlisted(list, Get(item, "openlibraryid"))
    ensures WellFormed(list) ==> WellFormed(r.0)
    ensures NormId(Get(item, "openlibraryid")) != "" && IsWishlisted(list, Get(item, "openlibraryid")) ==>
              r.0 == Remove(list, Str(NormId(Get(item, "openlibraryid"))))
    ensures NormId(Get(item, "openlibraryid")) != "" && !IsWishlisted(list, Get(item, "openlibraryid")) ==>
              r.0 == Add(list, item, now)
  {
    var v := Get(item, "openlibraryid");
    var id := NormId(v);
    NormIdIdempotent(v);
    if id == "" then (list, false)
    else if IsWishlisted(list, Str(id)) then
      RemoveKeepsWellFormed(list, Str(id));
      (Remove(list, Str(id)), false)
    else (Add(list, item, now), true)
  }

  /** Toggling twice from a list without the edition gives the list back. */
  lemma ToggleTwice(list: seq<WishEntry>, item: JsValue, now1: int, now2: int)
    requires !IsWishlisted(list, Get(item, "openlibraryid"))
    ensures Toggle(Toggle(list, item, now1).0, item, now2).0 == list
  {
    var v := Get(item, "openlibraryid");
    NormIdIdempotent(v);
    RemoveUndoesAdd(list, item, now1);
  }
}

=== FILE: wrappers.dfy ===
/** Failure-compatible wrappers shared by every module of the model. */
module Wrappers {

  /** An optional value; `None` stands for PHP `null` and JavaScript `null`/`undefined`. */
  datatype Option<+T> = None | Some(value: T) {

    /** Returns the wrapped value, or `default` when there is none (`??`). */
    function GetOr(default: T): T {
      match this
      case Some(v) => v
      case None => default
    }
  }

  /** Either a computed value or the error message the source raises. */
  datatype Result<+T> = Ok(value: T) | Err(msg: string) {

    predicate IsFailure() {
      Err?
    }

    function PropagateFailure<U>(): Result<U>
      requires Err?
    {
      Err(msg)
    }

    function Extract(): T
      requires Ok?
    {
      value
    }
  }
}
